=== FILE: README.md ===
# ThermoSight transformer image manager — a Dafny model

This project models the logic of the ThermoSight transformer image manager.
The system has two web front ends: an image gallery and a transformer manager.
It also has two Spring back ends that store image sets, transformer records, inspections and single images.
Every HTTP call, file write and clock reading becomes an input of the model.
What remains is a set of pure functions, each paired with the properties it keeps.

- **Inspection list** (`InspectionRecords`, `RecordSort`, `Pagination`, `InspectionList`).
  - It computes the "most recent update" key of a record.
  - It filters records by a search term.
  - It sorts them with the page's comparator.
  - It paginates them six to a page.
  - It renders the page window with ellipses.
  - `InspectionList` models the screen as a state machine. Its re-filtering effect is modelled by the state after the effect has run.
- **Upload and edit forms**, each a function from state to state, with the request outcome as an input.
  - `ImageSetUpload` covers the slot list, validation, the three parallel multipart lists, and the reset after success.
  - `InspectionUpload` covers the slot list without a minimum, the token and date checks, the error message, and the cancel check.
  - `ImageSetList` covers the edit dialog, pending files, the update body, patching by id, and deletions.
  - `ImageList` covers path normalisation, the update body, the cache-busting path, and patching by id.
  - `ImageUpload` covers the single-image form.
  - `TransformerRecordDetail` covers the Baseline/Maintenance partition, adding an inspection, and deleting an image.
- **Back-end record logic.**
  - `ImageSetController` zips the multipart lists into DTOs position by position.
  - `ImageSetService` merges an update and replaces the image list.
  - `TransformerRecordService` merges an update and appends to the image list.
  - `InspectionService` builds Maintenance images.
  - `ImageService` saves and updates a single image.
  - All of them share `UploadPaths` (`"/uploads/" + millis + "_" + name`, and stripping it again on delete) and `Entities`.
- **Session** (`AuthContext`): restore from local storage, login, logout and `isAuthenticated`. Local storage is a map from key to text.

Shared vocabulary lives in `Common`:
- `Option` and `Result`;
- the outcome of an HTTP call;
- JavaScript `||` on strings;
- ASCII lower-casing and trimming;
- `Filter`, `Patch` and `ReplaceAll`.

`Multipart` models a browser `FormData` as an ordered list of named parts. It also models how Spring binds those parts to parameters:
- a text list parameter (`String[]`, `List<String>`) that receives several values keeps them as sent;
- one that receives a single value splits it at commas and trims each piece, so "" binds to an empty list and "rain, wind" to two entries;
- a `String` parameter that receives several values joins them with commas.

So an image-set update with a single new Baseline file whose weather is empty reaches the controller with an empty weather list, and the file is saved without a weather condition. A single weather "rain, wind" is saved as "rain".

Two behaviours of the code are easy to miss:
- `ImageSetService.updateImageSet` replaces the images of a set when new ones are sent; it does not append them. `TransformerRecordService` does append.
- Changing the type of an image slot in `ImageSetUpload.js` leaves its weather condition as it was; nothing resets it.

## Model

| member | source | states |
|---|---|---|
| UploadPaths.StoredFileName | demo/src/main/java/com/example/imageapp/service/ImageSetService.java:51 | The stored file name is the clock reading in decimal digits, an underscore, then the client's file name; the reading parses back from the digits. |
| UploadPaths.PublicPath | demo/src/main/java/com/example/imageapp/service/ImageSetService.java:59 | The stored path is "/uploads/" followed by the stored file name. |
| UploadPaths.StripPublicPathParts | demo/src/main/java/com/example/imageapp/service/ImageSetService.java:86 | Removing every "/uploads/" from a stored path leaves the time stamp, the underscore and the client's file name with each "/uploads/" in it removed too. |
| UploadPaths.StripPublicPath | demo/src/main/java/com/example/imageapp/service/ImageSetService.java:86 | Removing every "/uploads/" from a stored path gives back exactly the file name that was written, when the client's name does not itself contain "/uploads/". |
| UploadPaths.StripUploads | demo/src/main/java/com/example/imageapp/service/ImageSetService.java:86 | A path is returned unchanged exactly when "/uploads/" does not occur in it; removing never makes it longer. |
| UploadPaths.StripLosesEmbeddedPrefix | demo/src/main/java/com/example/imageapp/service/ImageSetService.java:86 | A client file name "/uploads/a" makes the delete look for a different file than the one the save wrote, so the proviso above cannot be dropped. |
| Entities.ImagesFromDtos | demo/src/main/java/com/example/imageapp/service/ImageSetService.java:50-65 | One image row per DTO, in DTO order, with its "/uploads/" path and its type; a weather condition survives only on a Baseline image. |
| Entities.DeletedFiles | demo/src/main/java/com/example/imageapp/service/ImageSetService.java:84-90 | One file per image row, in order: the row's path with every "/uploads/" removed. |
| Entities.DeletedFilesOfBuilt | demo/src/main/java/com/example/imageapp/service/ImageSetService.java:84-90 | When no client file name contains "/uploads/", deleting rows built from DTOs removes, position by position, the very files written for those DTOs. |
| ImageSetService.SaveImageSet | demo/src/main/java/com/example/imageapp/service/ImageSetService.java:32-69 | The new set carries the given scalars and owner, and one image per DTO in order with its path, type and Baseline-only weather. |
| ImageSetService.GetImageSetById | demo/src/main/java/com/example/imageapp/service/ImageSetService.java:75-78 | Succeeds exactly when the id is stored and returns that set; otherwise fails with "Image set not found". |
| ImageSetService.DeleteImageSet | demo/src/main/java/com/example/imageapp/service/ImageSetService.java:80-93 | Succeeds exactly when the id is stored; then only that set is gone, every other set is unchanged, and for each image, in order, its path with "/uploads/" removed is deleted. |
| ImageSetService.DeleteImage | demo/src/main/java/com/example/imageapp/service/ImageSetService.java:95-106 | Succeeds exactly when the image id is stored; then only that image is gone and its stripped path is the one file removed; otherwise "Image not found". |
| ImageSetService.UpdateImageSet | demo/src/main/java/com/example/imageapp/service/ImageSetService.java:108-168 | A missing id fails with "Image set not found"; each scalar changes only when its argument is non-null; the updater becomes the owner; a non-empty image list replaces the images, otherwise they are kept. |
| ImageSetService.UpdateForgetsOldImages | demo/src/main/java/com/example/imageapp/service/ImageSetService.java:134-165 | With new images the updated set does not depend on which images it had before: the old images are replaced, not kept. |
| ImageSetService.UpdateScalarsIdempotent | demo/src/main/java/com/example/imageapp/service/ImageSetService.java:121-132 | Repeating the same scalar-only update leaves the set as the first one did. |
| ImageSetService.DeleteAfterSaveRemovesWrittenFiles | demo/src/main/java/com/example/imageapp/service/ImageSetService.java:80-93 | When no client file name contains "/uploads/", deleting a set right after saving it removes exactly the files the save wrote, in order. |
| ImageSetController.ZipUploadFrom | demo/src/main/java/com/example/imageapp/controller/ImageSetController.java:49-58 | The zip succeeds exactly when every position has a type (and a weather entry for a Baseline position when the list is sent); it then yields one DTO per file, in order, with that type and Baseline-only weather; otherwise it fails with the out-of-bounds message of the first position that does not fit. |
| ImageSetController.UploadImageSet | demo/src/main/java/com/example/imageapp/controller/ImageSetController.java:35-63 | An unknown principal fails with "Admin not found" before anything else; an accepted upload saves a set owned by the principal with one image per file. |
| ImageSetController.ZipUpdateFrom | demo/src/main/java/com/example/imageapp/controller/ImageSetController.java:109-118 | The update zip succeeds exactly when there are at least as many types as files; the weather read is bounds-checked and is null outside Baseline. |
| ImageSetController.ZipUpdate | demo/src/main/java/com/example/imageapp/controller/ImageSetController.java:106-119 | Without files or types (or with no files) the DTO list is null and the images are left alone; otherwise one DTO per file when the types suffice. |
| ImageSetController.ZipUploadOne | demo/src/main/java/com/example/imageapp/controller/ImageSetController.java:49-58 | A single file whose position fits becomes a single DTO with its type and, for Baseline with the list sent, the first weather. |
| ImageSetController.UpdateWeather | demo/src/main/java/com/example/imageapp/controller/ImageSetController.java:113-116 | A weather is read exactly for a Baseline type with the list sent and the position inside it, and it is then the entry at that position. |
| ImageSetController.ZipUpdateOne | demo/src/main/java/com/example/imageapp/controller/ImageSetController.java:107-118 | A single file with at least one type becomes a single DTO with the first type and the bounds-checked first weather. |
| ImageSetController.UpdateWeatherInBounds | demo/src/main/java/com/example/imageapp/controller/ImageSetController.java:113-116 | However short the weather list, the update never fails because of it: a DTO whose weather entry is missing gets a null weather. |
| ImageSetController.UpdateImageSet | demo/src/main/java/com/example/imageapp/controller/ImageSetController.java:91-124 | An unknown principal fails with "Admin not found"; an accepted update leaves the principal as owner and keeps the images when none were sent, or carries one image per file. |
| ImageService.ResolvePath | demo/src/main/java/com/example/imageapp/service/ImageService.java:67-72 | With a directory the path is the directory, one separator and the file name, in that order; with none it is the file name alone. |
| ImageService.SaveImage | demo/src/main/java/com/example/imageapp/service/ImageService.java:28-46 | The saved image has the given name and the "/uploads/" path of the written file. |
| ImageService.UpdateImage | demo/src/main/java/com/example/imageapp/service/ImageService.java:52-76 | As written: a missing id fails with "Image not found"; the name changes only to a non-empty value; a non-empty file replaces the path with the upload-directory location of the new file. |
| ImageService.UpdatedPathIsNotServable | demo/src/main/java/com/example/imageapp/service/ImageService.java:72 | The same file saved at the same instant is stored as "/uploads/5_a" by a save and as "uploads/5_a" by an update. |
| ImageService.UpdateImageCorrected | demo/src/main/java/com/example/imageapp/service/ImageService.java:52-76 | As intended: the same name and not-found rules, and a replaced file is stored under the servable "/uploads/" form. |
| ImageService.CorrectedUpdateMatchesSave | demo/src/main/java/com/example/imageapp/service/ImageService.java:36-43 | With the correction, an updated file gets exactly the path a save of the same file at the same instant gets. |
| TransformerRecordService.SaveTransformerRecord | transformer-manager-backkend/src/main/java/com/example/transformer_manager_backkend/service/TransformerRecordService.java:33-70 | The new record carries the given scalars and owner, and one image per DTO in order with its path, type and Baseline-only weather. |
| TransformerRecordService.GetTransformerRecordById | transformer-manager-backkend/src/main/java/com/example/transformer_manager_backkend/service/TransformerRecordService.java:76-79 | Succeeds exactly when the id is stored and returns that record; otherwise "Transformer record not found". |
| TransformerRecordService.DeleteTransformerRecord | transformer-manager-backkend/src/main/java/com/example/transformer_manager_backkend/service/TransformerRecordService.java:81-94 | Succeeds exactly when the id is stored; then only that record is gone and for each image, in order, its path with "/uploads/" removed is deleted. |
| TransformerRecordService.DeleteImage | transformer-manager-backkend/src/main/java/com/example/transformer_manager_backkend/service/TransformerRecordService.java:96-107 | Succeeds exactly when the image id is stored; then only that image is gone and its stripped path is removed; otherwise "Image not found". |
| TransformerRecordService.UpdateTransformerRecord | transformer-manager-backkend/src/main/java/com/example/transformer_manager_backkend/service/TransformerRecordService.java:109-156 | A missing id fails; each scalar changes only when non-null; the owner never changes; the new images follow the existing ones, which stay in place, with path, type and Baseline-only weather. |
| TransformerRecordService.UpdatesAccumulateImages | transformer-manager-backkend/src/main/java/com/example/transformer_manager_backkend/service/TransformerRecordService.java:133-153 | Two updates in a row keep every earlier image and append both batches in call order. |
| TransformerRecordService.DeleteAfterSaveRemovesWrittenFiles | transformer-manager-backkend/src/main/java/com/example/transformer_manager_backkend/service/TransformerRecordService.java:33-94 | Deleting a freshly saved record removes exactly the files its save wrote, in order, when no client file name contains "/uploads/". |
| TransformerRecordService.DeleteAfterUpdateRemovesAllFiles | transformer-manager-backkend/src/main/java/com/example/transformer_manager_backkend/service/TransformerRecordService.java:81-156 | When no client file name of the update contains "/uploads/", deleting a record after an update removes the files of its earlier images, then exactly the files the update wrote. |
| InspectionService.CreateInspection | transformer-manager-backkend/src/main/java/com/example/transformer_manager_backkend/service/InspectionService.java:57-131 | A missing record fails before any file is touched; otherwise the inspection carries the record, conductor, date and notes, and one weatherless Maintenance image per file in order (none for a null list). |
| InspectionService.GetInspectionById | transformer-manager-backkend/src/main/java/com/example/transformer_manager_backkend/service/InspectionService.java:136-139 | Succeeds exactly when the id is stored and returns that inspection; otherwise "Inspection not found". |
| InspectionService.DeleteInspection | transformer-manager-backkend/src/main/java/com/example/transformer_manager_backkend/service/InspectionService.java:141-155 | Succeeds exactly when the id is stored; then only that inspection is gone and for each image, in order, its path with "/uploads/" removed is deleted. |
| InspectionService.DeleteAfterCreateRemovesWrittenFiles | transformer-manager-backkend/src/main/java/com/example/transformer_manager_backkend/service/InspectionService.java:146-152 | When no client file name contains "/uploads/", deleting a freshly created inspection removes exactly the files its creation wrote. |
| InspectionRecords.LatestUpload | transformer-manager-frontend/src/components/InspectionList.js:86-91 | The value is the upload time of one of the images and no image is later. |
| InspectionRecords.MostRecentUpdate | transformer-manager-frontend/src/components/InspectionList.js:81-92 | The creation time for a record with no image list or an empty one; otherwise the latest upload time among its images. |
| InspectionRecords.MatchesIgnoresCase | transformer-manager-frontend/src/components/InspectionList.js:99-107 | The search ignores the case of the term; the empty term matches every name, and an administrator exactly when the record has an uploader display name. |
| InspectionRecords.SearchFilter | transformer-manager-frontend/src/components/InspectionList.js:97-109 | An empty term keeps the list as it is; otherwise every kept record matches and each matching record is kept as often as it occurs. |
| InspectionRecords.SearchByName | transformer-manager-frontend/src/components/InspectionList.js:100-101 | Searching by name keeps a record exactly when its lower-cased name contains the lower-cased term. |
| InspectionRecords.SearchByAdminNeedsDisplayName | transformer-manager-frontend/src/components/InspectionList.js:102-105 | Searching by administrator drops every record without an uploader display name. |
| InspectionRecords.SearchOtherFieldKeepsAll | transformer-manager-frontend/src/components/InspectionList.js:107 | Any other search field keeps the whole list. |
| InspectionRecords.SearchKeepsOrder | transformer-manager-frontend/src/components/InspectionList.js:99 | Filtering keeps the relative order of the records. |
| RecordSort.StrLessLexicographic | transformer-manager-frontend/src/components/InspectionList.js:124 | One name is below another exactly when, after a common prefix, the first ends while the second goes on or has the larger next character. |
| RecordSort.StrLessIrreflexive | transformer-manager-frontend/src/components/InspectionList.js:124 | No name sorts before itself. |
| RecordSort.StrLessTransitive | transformer-manager-frontend/src/components/InspectionList.js:124 | String order is transitive. |
| RecordSort.StrLessTotal | transformer-manager-frontend/src/components/InspectionList.js:124-129 | Two different names are always ordered one way or the other. |
| RecordSort.RequestSort | transformer-manager-frontend/src/components/InspectionList.js:154-160 | The new key is the requested one, and the direction is descending exactly when that key was current and ascending. |
| RecordSort.RequestSortToggles | transformer-manager-frontend/src/components/InspectionList.js:154-160 | Requesting the current ascending key flips to descending, a new key starts ascending, and requesting the same key three times equals requesting it once. |
| RecordSort.KeyLessAsymmetric | transformer-manager-frontend/src/components/InspectionList.js:113-129 | The comparator never puts two records each before the other for the same key. |
| RecordSort.NotKeyLessTransitive | transformer-manager-frontend/src/components/InspectionList.js:113-131 | Ties and "not before" compose, so the comparator is a consistent ordering for the sort. |
| RecordSort.BeforeAsymmetric | transformer-manager-frontend/src/components/InspectionList.js:124-129 | For either direction, two records are never each before the other. |
| RecordSort.NotBeforeTransitive | transformer-manager-frontend/src/components/InspectionList.js:124-131 | For either direction, "not before" is transitive. |
| RecordSort.Insert | transformer-manager-frontend/src/components/InspectionList.js:113-131 | Inserting adds exactly the one record to the multiset of the list. |
| RecordSort.InsertKeepsSorted | transformer-manager-frontend/src/components/InspectionList.js:113-131 | Inserting into an ordered list keeps it ordered. |
| RecordSort.SortRecords | transformer-manager-frontend/src/components/InspectionList.js:112-132 | The sorted list is a permutation of its input and no record comes after one that the comparator puts behind it. |
| RecordSort.SortedMeaning | transformer-manager-frontend/src/components/InspectionList.js:116-129 | Sorted ascending the keys never decrease along the list; sorted descending they never increase. |
| RecordSort.SortSortedIsIdentity | transformer-manager-frontend/src/components/InspectionList.js:112-132 | Sorting an already ordered list returns it unchanged. |
| Pagination.TotalPages | transformer-manager-frontend/src/components/InspectionList.js:166 | The fewest pages of six that hold all the records; zero exactly when there are none. |
| Pagination.BarShownIffMoreThanOnePage | transformer-manager-frontend/src/components/InspectionList.js:450 | The pagination bar appears exactly when there are more than six records. |
| Pagination.PageSlice | transformer-manager-frontend/src/components/InspectionList.js:163-165 | Page p holds at most six records: the records from position (p-1)*6 on, in order, and nothing past the end. |
| Pagination.PageSliceMember | transformer-manager-frontend/src/components/InspectionList.js:163-165 | Every record a page shows is one of the records of the list being paged. |
| Pagination.FirstPagesArePrefix | transformer-manager-frontend/src/components/InspectionList.js:163-165 | The first k pages read in order are the first k*6 records. |
| Pagination.PagesCoverList | transformer-manager-frontend/src/components/InspectionList.js:163-166 | Reading every page in order reproduces the shown list exactly. |
| Pagination.RecordOnItsPage | transformer-manager-frontend/src/components/InspectionList.js:163-166 | Record i sits on page i/6+1, which exists, at position i%6. |
| Pagination.Bar | transformer-manager-frontend/src/components/InspectionList.js:450-497 | The bar is rendered exactly when there is more than one page. |
| Pagination.ItemsFromMembership | transformer-manager-frontend/src/components/InspectionList.js:461-485 | An item appears for a page range exactly when its page is in range and gets a number or an ellipsis there. |
| Pagination.PageBarMembership | transformer-manager-frontend/src/components/InspectionList.js:461-485 | A page gets a number exactly when it is the first, the last or next to the current page; an ellipsis exactly two away under the stated bounds; never both. |
| Pagination.LeftGap | transformer-manager-frontend/src/components/InspectionList.js:479-482 | Between page 1 and the window there is one ellipsis when the current page is beyond 3, else nothing. |
| Pagination.RightGap | transformer-manager-frontend/src/components/InspectionList.js:479-482 | Between the window and the last page there is one ellipsis when the current page is before total-2, else nothing. |
| Pagination.Middle | transformer-manager-frontend/src/components/InspectionList.js:463-467 | The window holds numbered buttons for the current page and its neighbours. |
| Pagination.PageBarIsWindow | transformer-manager-frontend/src/components/InspectionList.js:461-485 | The page-by-page rendering equals the closed form: page 1, an optional ellipsis, the window, an optional ellipsis, the last page. |
| Pagination.WindowBar | transformer-manager-frontend/src/components/InspectionList.js:461-485 | The closed-form bar has between one and seven items, starts at page 1 and ends at the last page. |
| Pagination.PageBarAtMostSeven | transformer-manager-frontend/src/components/InspectionList.js:461-485 | However many pages there are, the rendered bar has at most seven items. |
| Pagination.GoToEnabled | transformer-manager-frontend/src/components/InspectionList.js:461-485 | A page button can be pressed exactly when the bar is shown and the page is the first, the last, or next to the current one. |
| Pagination.PageBarShape | transformer-manager-frontend/src/components/InspectionList.js:461-485 | The bar starts at page 1, ends at the last page, pages increase along it, and two ellipses are never adjacent. |
| Pagination.Press | transformer-manager-frontend/src/components/InspectionList.js:452-493 | A disabled control leaves the current page alone; an enabled one goes to page 1 (First), one back (Prev), one on (Next), the last page (Last), or the item's page. |
| Pagination.PressNavigates | transformer-manager-frontend/src/components/InspectionList.js:452-493 | On a shown bar, First and Last reach the two ends from any page, Prev and Next undo each other, and each numbered item leads to its page. |
| Pagination.PressStaysInRange | transformer-manager-frontend/src/components/InspectionList.js:452-493 | Pressing any control keeps the current page between 1 and the page count. |
| InspectionList.PipelineContents | transformer-manager-frontend/src/components/InspectionList.js:94-133 | The shown list is ordered by the sort configuration and holds each matching record as often as the fetched list does, and nothing else. |
| InspectionList.Initial | transformer-manager-frontend/src/components/InspectionList.js:39-52 | The screen starts valid, on page 1, with no search and the most recently updated first. |
| InspectionList.Settle | transformer-manager-frontend/src/components/InspectionList.js:133-135 | The effect recomputes the shown list from its inputs and returns to page 1, touching nothing else. |
| InspectionList.AfterFetch | transformer-manager-frontend/src/components/InspectionList.js:62-78 | A fetch stores the records (none on failure), sets or clears the error, and the list settles on page 1. |
| InspectionList.AfterPress | transformer-manager-frontend/src/components/InspectionList.js:452-493 | A pagination control changes only the current page, a disabled control changes nothing, and the state stays valid. |
| InspectionList.Step | transformer-manager-frontend/src/components/InspectionList.js:94-136 | Any change of records, search term, search field or sort configuration resets the list and the page; a pagination control only moves the page. |
| InspectionList.StepEffects | transformer-manager-frontend/src/components/InspectionList.js:138-160 | An event that changes none of the inputs leaves the list alone; a fetch replaces the records; a sort request applies requestSort; a failed deletion only sets the error. |
| InspectionList.RequestSortChanges | transformer-manager-frontend/src/components/InspectionList.js:154-160 | A sort request always changes the configuration, so it always resets the page. |
| InspectionList.StepPreservesValid | transformer-manager-frontend/src/components/InspectionList.js:94-136 | Every event keeps the shown list equal to the pipeline over the current inputs and the page within range. |
| InspectionList.Visible | transformer-manager-frontend/src/components/InspectionList.js:163-165 | The current page shows at most six records. |
| InspectionList.VisibleRecordsMatch | transformer-manager-frontend/src/components/InspectionList.js:97-109 | Every record shown is a fetched record that matches the search. |
| InspectionList.PagingKeepsList | transformer-manager-frontend/src/components/InspectionList.js:452-493 | Pagination controls never change which records are listed or their order. |
| ImageSetUpload.InitialForm | image-app-frontend/src/components/ImageSetUpload.js:11-16 | The form starts empty with one default slot: no file, Baseline, no weather. |
| ImageSetUpload.ChangeSlot | image-app-frontend/src/components/ImageSetUpload.js:21-29 | Only the named field of the named slot changes; every other slot and field stays. |
| ImageSetUpload.TypeChangeKeepsWeather | image-app-frontend/src/components/ImageSetUpload.js:21-25 | Changing a slot's type does not reset its weather. |
| ImageSetUpload.AddSlot | image-app-frontend/src/components/ImageSetUpload.js:31-36 | Exactly one default slot is appended and the existing slots are unchanged. |
| ImageSetUpload.RemoveSlot | image-app-frontend/src/components/ImageSetUpload.js:38-41 | A single slot is never removed; otherwise exactly slot idx goes and the others keep their order. |
| ImageSetUpload.RemoveKeepsOneSlot | image-app-frontend/src/components/ImageSetUpload.js:38-41 | The slot list never becomes empty. |
| ImageSetUpload.RemoveUndoesAdd | image-app-frontend/src/components/ImageSetUpload.js:31-41 | Removing the slot just added gives the list back. |
| ImageSetUpload.Validate | image-app-frontend/src/components/ImageSetUpload.js:46-63 | The first message exactly when name, location or capacity is missing; the second exactly when they are present and some slot lacks a file or type or is Baseline without weather; nothing otherwise. |
| ImageSetUpload.SlotPartsLayout | image-app-frontend/src/components/ImageSetUpload.js:76-83 | On the wire each slot is three parts in a row: its file, its type and its sent weather, slot after slot. |
| ImageSetUpload.PayloadLayout | image-app-frontend/src/components/ImageSetUpload.js:69-83 | The body is the five set fields in order, then three parts per slot in slot order. |
| ImageSetUpload.SlotPartsLists | image-app-frontend/src/components/ImageSetUpload.js:76-83 | The slot parts read back as three lists as long as the slot list, in slot order, and under no other name. |
| ImageSetUpload.PayloadLists | image-app-frontend/src/components/ImageSetUpload.js:69-83 | The payload's images, types and weather lists have one entry per slot in slot order, and the weather is "" for every non-Baseline slot whatever it still holds. |
| ImageSetUpload.PayloadParams | demo/src/main/java/com/example/imageapp/controller/ImageSetController.java:41-43 | A validated payload binds to the slots' files, and to their types and sent weathers as Spring binds a list of texts. |
| ImageSetUpload.UploadBoundByServer | image-app-frontend/src/components/ImageSetUpload.js:69-86 | The back end binds files and types for a validated payload. When it reads the lists as sent (several slots, or one slot whose type and Baseline weather have no comma or outer space), it builds one DTO per slot with its file, type and, for Baseline, its weather. |
| ImageSetUpload.LonePayloadParams | demo/src/main/java/com/example/imageapp/controller/ImageSetController.java:41-43 | A form with one slot binds to that file and to the single-value split of its type and of its sent weather. |
| ImageSetUpload.LoneBaselineSlotWeather | demo/src/main/java/com/example/imageapp/controller/ImageSetController.java:41-58 | A single Baseline slot is saved with the first comma-separated piece of its weather, trimmed. |
| ImageSetUpload.Submit | image-app-frontend/src/components/ImageSetUpload.js:43-106 | A rejected form sends nothing and only shows the message; an accepted form sends the payload; success resets the form and calls onUpload when given; failure shows the prefixed message. |
| ImageSetUpload.SuccessResetsForm | image-app-frontend/src/components/ImageSetUpload.js:92-96 | After a successful upload the form holds one default slot and nothing entered. |
| InspectionUpload.InitialForm | transformer-manager-frontend/src/components/InspectionUpload.js:29-33 | The form starts with today's date, no notes and no slots. |
| InspectionUpload.AddSlot | transformer-manager-frontend/src/components/InspectionUpload.js:71-76 | Exactly one null slot is appended and the others are unchanged. |
| InspectionUpload.RemoveSlot | transformer-manager-frontend/src/components/InspectionUpload.js:78-82 | Exactly slot index goes and the others keep their order; an index past the end changes nothing. |
| InspectionUpload.RemoveLastSlotEmpties | transformer-manager-frontend/src/components/InspectionUpload.js:78-82 | There is no minimum: the only slot can be removed. |
| InspectionUpload.ChooseFile | transformer-manager-frontend/src/components/InspectionUpload.js:65-69 | Only slot index changes: it holds the chosen file, or undefined when none was chosen. |
| InspectionUpload.PickedFiles | transformer-manager-frontend/src/components/InspectionUpload.js:109-113 | Never more files than slots. |
| InspectionUpload.PickedFilesAllFilled | transformer-manager-frontend/src/components/InspectionUpload.js:109-113 | As many files as slots exactly when every slot is filled, and then file i is the file of slot i. |
| InspectionUpload.PickedFilesOne | transformer-manager-frontend/src/components/InspectionUpload.js:109-113 | A slot contributes its file when it holds one and nothing otherwise. |
| InspectionUpload.PickedFilesAppend | transformer-manager-frontend/src/components/InspectionUpload.js:109-113 | Slots are read in order: the files of two runs of slots are the files of the first followed by those of the second. |
| InspectionUpload.PickedFilesMembership | transformer-manager-frontend/src/components/InspectionUpload.js:109-113 | A file is sent exactly when some slot holds it. |
| InspectionUpload.TextFieldsRead | transformer-manager-frontend/src/components/InspectionUpload.js:103-106 | The record id, date and notes are each sent once under their own names. |
| InspectionUpload.Payload | transformer-manager-frontend/src/components/InspectionUpload.js:103-113 | The body is three text parts and then one "images" part per filled slot, in slot order, under no other names. |
| InspectionUpload.PayloadContents | transformer-manager-frontend/src/components/InspectionUpload.js:103-113 | Read back, the images are exactly the filled slots' files in slot order, and the three text fields are always there. |
| InspectionUpload.FailureMessage | transformer-manager-frontend/src/components/InspectionUpload.js:131-136 | A 403 says the session expired; otherwise the server's message, or "Failed to create inspection". |
| InspectionUpload.Submit | transformer-manager-frontend/src/components/InspectionUpload.js:84-141 | A missing token is reported first and a missing date second, and neither sends anything; otherwise the payload is sent and success returns to the list page. |
| InspectionUpload.CreateBoundByServer | transformer-manager-backkend/src/main/java/com/example/transformer_manager_backkend/controller/InspectionController.java:62-85 | What a submitted form makes on the server: the id, date and notes arrive as single texts and the filled slots' files as the image list. The inspection is created exactly when the record exists, with the form's date and notes and one weatherless Maintenance image per filled slot, in slot order, each under its "/uploads/" path. |
| InspectionUpload.Cancel | transformer-manager-frontend/src/components/InspectionUpload.js:143-149 | Confirmation is asked exactly when there are notes or some slot is not null; otherwise it goes straight back to the list. |
| InspectionUpload.EmptySlotsCancelDirectly | transformer-manager-frontend/src/components/InspectionUpload.js:143-149 | A form with only added, untouched slots cancels without asking. |
| ImageSetList.Initial | image-app-frontend/src/components/ImageSetList.js:31-42 | The list starts empty with no dialog and no pending files. |
| ImageSetList.AfterFetch | image-app-frontend/src/components/ImageSetList.js:52-63 | A fetch stores the sets; a failure empties the list and shows the prefixed message. |
| ImageSetList.OrNull | image-app-frontend/src/components/ImageSetList.js:70-71 | As written: a coordinate is kept only when present and non-zero. |
| ImageSetList.EquatorSetLosesLatitude | image-app-frontend/src/components/ImageSetList.js:70 | A set on the equator opens its editor with a null latitude. |
| ImageSetList.SeedLocationKeepsCoordinates | image-app-frontend/src/components/ImageSetList.js:68-72 | The corrected seed keeps both coordinates, zero included, uses "" for a missing name, and agrees with the code as written away from zero. |
| ImageSetList.SeedLocationAsWritten | image-app-frontend/src/components/ImageSetList.js:68-72 | As written: the name or ""; a coordinate opens as stored exactly when it is present and non-zero, and as null otherwise. |
| ImageSetList.HandleEdit | image-app-frontend/src/components/ImageSetList.js:65-75 | The editor opens on the set's name, capacity and location, each coordinate seeded with a logical or against null: a missing or zero coordinate opens as null, any other as stored. The list and the pending files are left alone. |
| ImageSetList.ChooseFiles | image-app-frontend/src/components/ImageSetList.js:82-87 | The chosen files become pending, each as Maintenance with no weather, in three lists of one length; nothing else changes. |
| ImageSetList.SetAt | image-app-frontend/src/components/ImageSetList.js:391-395 | Only position index takes the new value. |
| ImageSetList.ChangeType | image-app-frontend/src/components/ImageSetList.js:391-395 | Only the type of pending file index changes, and the three lists keep one length. |
| ImageSetList.ChangeWeather | image-app-frontend/src/components/ImageSetList.js:405-409 | Only the weather of pending file index changes, and the three lists keep one length. |
| ImageSetList.ScalarPartsRead | image-app-frontend/src/components/ImageSetList.js:91-96 | Each scalar is sent once under its own name. |
| ImageSetList.ImagePartsRead | image-app-frontend/src/components/ImageSetList.js:98-106 | Files and types are sent only when there are new files, weathers only when some type is Baseline. |
| ImageSetList.UpdatePayloadScalars | image-app-frontend/src/components/ImageSetList.js:91-96 | Read back, the update body holds each scalar once, always. |
| ImageSetList.UpdatePayloadImages | image-app-frontend/src/components/ImageSetList.js:98-106 | Read back, the update body holds the files and types exactly when there are new files, and all weathers exactly when some type is Baseline. |
| ImageSetList.UpdatePayloadLayout | image-app-frontend/src/components/ImageSetList.js:89-106 | The update body is the five scalars, then with new files all files, all types and, when some type is Baseline, all weathers, each in pending order. |
| ImageSetList.UpdateParams | demo/src/main/java/com/example/imageapp/controller/ImageSetController.java:98-100 | The update binds the pending files and types when there are new files, and the weathers when some type is also Baseline, as Spring binds a list of texts. |
| ImageSetList.UpdateBoundByServer | image-app-frontend/src/components/ImageSetList.js:89-118 | Without new files the back end keeps the images. When it reads the lists as sent, it builds one DTO per pending file with its type and Baseline-only weather. |
| ImageSetList.LoneBaselineParams | demo/src/main/java/com/example/imageapp/controller/ImageSetController.java:98-100 | A single pending Baseline file binds to that file, the type Baseline and the single-value split of its weather. |
| ImageSetList.LoneBaselineFileWeather | demo/src/main/java/com/example/imageapp/controller/ImageSetController.java:106-118 | A single pending Baseline file with a blank weather is saved with a null weather; otherwise with the first comma-separated piece, trimmed. |
| ImageSetList.PatchById | image-app-frontend/src/components/ImageSetList.js:119-123 | Entries with the edited id take the answer; every other entry stays in place. |
| ImageSetList.PatchByIdMembership | image-app-frontend/src/components/ImageSetList.js:119-123 | The patch drops no other set and adds nothing but the answer, which appears when the id was listed. |
| ImageSetList.Update | image-app-frontend/src/components/ImageSetList.js:89-129 | Success patches the list, closes the dialog and clears the pending files; failure only sets the prefixed message. |
| ImageSetList.RemoveById | image-app-frontend/src/components/ImageSetList.js:139 | The list keeps each set without the id as often as before, and none with it. |
| ImageSetList.RemoveByIdMembership | image-app-frontend/src/components/ImageSetList.js:139 | A set stays listed exactly when it does not carry the id. |
| ImageSetList.RemoveByIdKeepsOrder | image-app-frontend/src/components/ImageSetList.js:139 | The remaining sets keep their order. |
| ImageSetList.DeleteSet | image-app-frontend/src/components/ImageSetList.js:131-143 | A declined confirmation sends nothing and changes nothing; otherwise the set is dropped, or the prefixed message is shown. |
| ImageSetList.DeleteImage | image-app-frontend/src/components/ImageSetList.js:145-160 | A declined confirmation sends nothing and changes nothing; otherwise the sets are fetched again, or the prefixed message is shown. |
| ImageList.NormalizePath | image-app-frontend/src/components/ImageList.js:35-37 | The path keeps its length and holds no backslash. |
| ImageList.NormalizePathPointwise | image-app-frontend/src/components/ImageList.js:35-37 | Each character is kept except that a backslash becomes a slash. |
| ImageList.NormalizePathIdempotent | image-app-frontend/src/components/ImageList.js:35-37 | Normalising twice is normalising once. |
| ImageList.NormalizePathIsReplaceAll | image-app-frontend/src/components/ImageList.js:36 | The result equals replacing every backslash left to right. |
| ImageList.NormalizedResolvedPath | image-app-frontend/src/components/ImageList.js:35-37 | A path the image service built with backslashes reads, once normalised, like the one built with slashes. |
| ImageList.NormalizeAll | image-app-frontend/src/components/ImageList.js:47-51 | Each image keeps its place and every field except the normalised path. |
| ImageList.NormalizeAllProperties | image-app-frontend/src/components/ImageList.js:47-51 | After fetching no path holds a backslash, the other fields and the order are kept, and normalising again changes nothing. |
| ImageList.AfterFetch | image-app-frontend/src/components/ImageList.js:43-57 | A fetch stores the normalised images; a failure shows the prefixed message and keeps the list. |
| ImageList.HandleEdit | image-app-frontend/src/components/ImageList.js:59-65 | The editor opens on the image's name with no file chosen and the current picture as preview. |
| ImageList.ChooseFile | image-app-frontend/src/components/ImageList.js:72-82 | The chosen file is stored; its data URL becomes the preview, and choosing nothing keeps the preview. |
| ImageList.UpdatePayload | image-app-frontend/src/components/ImageList.js:86-92 | The body has one part for a changed name and one for a chosen file, under no other names. |
| ImageList.UpdatePayloadRead | image-app-frontend/src/components/ImageList.js:86-92 | The name is sent only when it changed, the file only when one was chosen, and nothing else. |
| ImageList.UpdateReachesServer | image-app-frontend/src/components/ImageList.js:84-102 | The image service, as written, renames the image only to an edited non-empty name. It keeps the path when no non-empty file was chosen; otherwise it stores the new file's location under the upload directory. |
| ImageList.CacheBusted | image-app-frontend/src/components/ImageList.js:105-108 | The shown path is the normalised server path followed by "?t=" and the decimal clock reading. |
| ImageList.PatchById | image-app-frontend/src/components/ImageList.js:110-112 | Entries with the edited id take the answer; every other entry stays in place. |
| ImageList.PatchByIdMembership | image-app-frontend/src/components/ImageList.js:110-112 | The patch drops no other image and adds nothing but the answer, which appears when the id was listed. |
| ImageList.Update | image-app-frontend/src/components/ImageList.js:84-117 | Success patches the list with the cache-busted answer and closes the dialog; failure only sets the prefixed message. |
| ImageList.UpdatedImageListed | image-app-frontend/src/components/ImageList.js:105-112 | After a successful update the edited image is listed with the cache-busted path and every other image is kept. |
| ImageUpload.InitialForm | image-app-frontend/src/components/ImageUpload.js:8-12 | The form starts with no name, file, preview or messages. |
| ImageUpload.ChooseFile | image-app-frontend/src/components/ImageUpload.js:15-28 | The chosen file is stored; its data URL becomes the preview, and choosing nothing clears it. |
| ImageUpload.Payload | image-app-frontend/src/components/ImageUpload.js:42-44 | The body has two parts, named "name" and "file". |
| ImageUpload.PayloadRead | image-app-frontend/src/components/ImageUpload.js:42-44 | The body carries the name and the file under their own names and nothing else, so the image controller binds both. |
| ImageUpload.Submit | image-app-frontend/src/components/ImageUpload.js:30-64 | An empty name or no file shows the message and sends nothing; success clears the form and calls onUpload when given; failure shows the prefixed message. |
| ImageUpload.UploadRoundTrip | image-app-frontend/src/components/ImageUpload.js:42-56 | A successful upload leaves the form as first rendered, apart from the success message, and the saved image has the typed name. |
| TransformerRecordDetail.ImagesOfType | transformer-manager-frontend/src/components/TransformerRecordDetail.js:195-202 | Every image listed under a type has that type. |
| TransformerRecordDetail.PartitionMembership | transformer-manager-frontend/src/components/TransformerRecordDetail.js:195-202 | An image is listed under Baseline or Maintenance exactly when the record has it with that type; never under both; never when it has another type. |
| TransformerRecordDetail.PartitionEmptyWithoutImages | transformer-manager-frontend/src/components/TransformerRecordDetail.js:195-202 | Both lists are empty while there is no record or no image list. |
| TransformerRecordDetail.PartitionCoversTypedImages | transformer-manager-frontend/src/components/TransformerRecordDetail.js:195-202 | When every image is one of the two types, the two lists together hold each image as often as the record does. |
| TransformerRecordDetail.PartitionKeepsOrder | transformer-manager-frontend/src/components/TransformerRecordDetail.js:195-202 | Each list keeps the record's order. |
| TransformerRecordDetail.AfterRecordFetch | transformer-manager-frontend/src/components/TransformerRecordDetail.js:60-76 | The record on success; the fetch message on failure, keeping the old record. |
| TransformerRecordDetail.AfterInspectionsFetch | transformer-manager-frontend/src/components/TransformerRecordDetail.js:88-112 | The inspections on success; a failure changes nothing. |
| TransformerRecordDetail.AddInspection | transformer-manager-frontend/src/components/TransformerRecordDetail.js:141-191 | A blank description raises the alert and sends nothing; success appends, clears and closes; failure changes nothing. |
| TransformerRecordDetail.AddAppendsLast | transformer-manager-frontend/src/components/TransformerRecordDetail.js:179-183 | A successful add keeps the existing inspections in place and puts the new one last. |
| TransformerRecordDetail.DeleteImage | transformer-manager-frontend/src/components/TransformerRecordDetail.js:120-138 | The record is replaced by the refetched one when both requests succeed, the error is set otherwise, and the dialog closes in every case. |
| TransformerRecordDetail.DeleteImageKeepsInspections | transformer-manager-frontend/src/components/TransformerRecordDetail.js:120-138 | An image deletion never touches the inspections or the add form. |
| AuthContext.Startup | transformer-manager-frontend/src/AuthContext.js:12-21 | Both values are restored exactly when both stored values are present; otherwise both stay null; loading ends. |
| AuthContext.StartupNeedsBothKeys | transformer-manager-frontend/src/AuthContext.js:16-19 | A storage holding only one of the two keys restores nothing. |
| AuthContext.Login | transformer-manager-frontend/src/AuthContext.js:23-48 | Success stores and sets both values; failure changes nothing and returns the server's message or "Login failed". |
| AuthContext.Logout | transformer-manager-frontend/src/AuthContext.js:50-55 | Both keys are removed and both values cleared; every other stored key is kept. |
| AuthContext.LoginSurvivesReload | transformer-manager-frontend/src/AuthContext.js:12-41 | Starting again from the storage a login wrote restores the same session, signed in. |
| AuthContext.LogoutSurvivesReload | transformer-manager-frontend/src/AuthContext.js:12-55 | Starting again from the storage a logout left restores nothing, signed out. |
| AuthContext.FalsyAdminRestoresNothing | transformer-manager-frontend/src/AuthContext.js:13-19 | A stored administrator text that parses to false, zero or the empty string restores no session, whatever the token. |
| AuthContext.StartupAuthenticatesIffRestored | transformer-manager-frontend/src/AuthContext.js:12-21 | A restored session is signed in and an unrestored one is signed out. |
| AuthContext.LoginAuthenticatesIffToken | transformer-manager-frontend/src/AuthContext.js:63 | A successful login signs in exactly when the server's token is non-empty; a failed one leaves the session as it was. |
| Multipart.TextParam | demo/src/main/java/com/example/imageapp/controller/ImageSetController.java:98-100 | A list parameter is absent exactly when no part carries its name; several texts bind as sent, and a single text binds to its comma-split, trimmed pieces. |
| Multipart.SingleText | demo/src/main/java/com/example/imageapp/controller/ImageController.java:41 | A text parameter is absent exactly when no text carries its name; one text binds as itself; several comma-free texts are joined so that splitting at the commas gives them back. |
| Multipart.SplitParam | demo/src/main/java/com/example/imageapp/controller/ImageSetController.java:99-100 | The empty text binds to no element; any other to one comma-free piece per comma-separated piece. |
| Multipart.CommaPiecesJoin | demo/src/main/java/com/example/imageapp/controller/ImageSetController.java:99-100 | Joining the comma-separated pieces of a text with commas gives the text back. |
| Multipart.JoinCommaPieces | demo/src/main/java/com/example/imageapp/controller/ImageController.java:41 | Splitting a comma-join of comma-free texts gives the texts back. |
| Multipart.JavaTrim | demo/src/main/java/com/example/imageapp/controller/ImageSetController.java:99-100 | Trimming leaves no space at either end, keeps a text already without, and empties exactly a blank one. |
| Multipart.PlainTextSplitsToItself | demo/src/main/java/com/example/imageapp/controller/ImageSetController.java:99-100 | A single non-empty text without commas or outer spaces binds to itself. |
| Multipart.SplitParamPair | demo/src/main/java/com/example/imageapp/controller/ImageSetController.java:99-100 | A single text "a, c" binds to the two entries a and c. |
| Multipart.BindTextsUnchanged | demo/src/main/java/com/example/imageapp/controller/ImageSetController.java:99-100 | Several texts, or a single plain one, bind exactly as sent. |

## Left out

- HTTP transport, JWT headers and the login request are not modelled. Each call is an input outcome: data, or an error with an optional status, server message and own message.
- File system writes and deletes are not modelled. A delete is reported as the list of file names it removes. Clock readings (`System.currentTimeMillis`, `Date.now`) are parameters.
- Rendering is not modelled: loading spinners, preview modals, maps, icons and date formatting. Neither is `FileReader`; the data URL it produces is a parameter.
- The delayed navigation after creating an inspection (`setTimeout`) is modelled as the path it navigates to.
- `handleInputChange` in InspectionUpload.js is not modelled. Typing into a field is modelled as a direct change of that field.
- The fetch of the transformer record in InspectionUpload.js (lines 42-58) is not modelled, because it only feeds the page header.
- TransformerRecordDetail.AddInspection models how the page handles whatever answer arrives. Against this back end its success branch is not reached. The add request sends `transformerId` and `description` (TransformerRecordDetail.js:155-175), but `POST /api/inspections` requires `transformerRecordId` and `inspectionDate` (InspectionController.java:62-70). The request binding that rejects this call is not modelled.
- TransformerRecordDetail.AfterInspectionsFetch stores the answer as a list of inspections. The page asks `GET /api/inspections/{id}` with the record's id (TransformerRecordDetail.js:94). That route returns the one inspection whose own id it is (InspectionController.java:99-102), and ids are generated in both tables, so it can succeed. The page then stores a single object where it expects an array. The next successful add spreads that object and throws, and the page logs the error. The model cannot represent a single-object answer, so neither this state nor the failing add is modelled.
- `handleDelete`'s closing of the modal in InspectionList.js is not modelled; only its effect on the list is.
- Timestamps are integers, not JavaScript `Date` values.
- RecordSort.StrLess compares names character by character as Dafny characters. JavaScript compares UTF-16 code units, which differs only outside the Basic Multilingual Plane.
- RecordSort.SortRecords: the sort is proved to be an ordered permutation. Stability is not proved, although the model's insertion sort is stable, as `Array.prototype.sort` is.
- Common.Lower lower-cases ASCII letters only. `toLowerCase` covers all of Unicode.
- Common.IsBlank treats only ASCII white space and the no-break space as blank. `trim` removes further Unicode spaces.
- AuthContext.Startup keeps the administrator as the JSON text that was stored. It treats as falsy the shortest spellings of the falsy JSON values: `null`, `false`, `0`, `-0` and `""`. Other spellings of them are not recognised, such as `0.0`, `0e0` or text with surrounding white space. Stored text that `JSON.parse` rejects, which throws in the source, is not modelled.
- AuthContext.IsAuthenticated treats a stored token of "null" like any other text.
- ImageSetList.Update requires an open editor (set by `handleEdit`), because the Save button exists only in the edit dialog.
- ImageList.Update requires an open editor for the same reason.
- ImageList.UpdatePayload requires an open editor for the same reason.
- ImageSetList.UpdatePayload reads the location being edited; it is always set, because `handleEdit` seeds it before the dialog opens. The null value it holds before the first edit is not modelled.
- ImageSetUpload.UploadBoundByServer requires at least one slot. The form never has fewer (ImageSetUpload.RemoveKeepsOneSlot). An empty `images` list would be a missing required parameter, which is not modelled.
- ImageSetUpload.UploadBoundByServer and ImageSetList.UpdateBoundByServer state the DTOs only when the server reads the lists as sent. For a single file whose type or weather holds a comma or outer space, the lone-file lemmas state the weather; the type of such a file cannot come from the type selector.
- Multipart.JavaTrim trims the characters up to the space, as Java's `String.trim` does; Spring applies it to each piece of a split single value. Spring's conversion of the pieces to other element types is not modelled; the list parameters here are all texts.
- ImageSetUpload.Payload requires a location and a file in every slot. It is only built after `Validate` has passed.
- Spring's conversion of a text part to `Double` is not modelled, for example the text "null" that `FormData` sends for a null coordinate. A coordinate part is kept as an optional number.
- ImageSetService.UpdateImageSet does not report the files of the replaced images that it deletes (lines 136-143).
- ImageService.UpdateImage does not report the deletion of the old file (line 64).
- ImageService.ResolvePath reduces `java.nio.file.Path` to the directory, one separator, then the file name. Java's `Path` also collapses repeated separators and drops a trailing one: `Paths.get("uploads/")` resolves "5_a" to "uploads/5_a", where the model gives "uploads//5_a". A directory written with a trailing or doubled separator is therefore not modelled.
- The demo `Image` entity has no `name` field, although `ImageService` calls `setName`. The model gives the gallery image a name.
- The `Inspection` entity has no `inspectionDate` field (Inspection.java:16-35), although `InspectionService` calls `setInspectionDate` (InspectionService.java:83). The model follows the service and stores the date.
- InspectionUpload.CreateBoundByServer takes the record's number as a parameter whose decimal text is the form's id. Spring's conversions to `Long` and to an ISO `LocalDate` are not modelled, so the date is kept as its text and a date that does not parse (a 400) is not modelled. The administrator lookup in the controller is the `conductedBy` parameter.
- Repository-generated ids are not modelled: stores are maps from id to row, and a saved row is returned without its id.
- The controllers other than `ImageSetController`, the repositories, routing, `Navbar` and `InspectionDetail.js` carry no logic of their own. They are not part of this model.

## Findings

| source | as written | input that shows it | evidently intended | confidence | as-written member | corrected member |
|---|---|---|---|---|---|---|
| demo/src/main/java/com/example/imageapp/service/ImageService.java:72 | `updateImage` stores `filePath.toString()`, the location in the upload directory | a file "a" updated at millisecond 5 with upload directory "uploads" is stored as "uploads/5_a", while `saveImage` stores "/uploads/5_a" | store `"/uploads/" + fileName`, as `saveImage` does (line 43), so the image stays servable and deletable | not executed | ImageService.UpdatedPathIsNotServable | ImageService.CorrectedUpdateMatchesSave |
| image-app-frontend/src/components/ImageSetList.js:70-71 | `handleEdit` seeds each coordinate with JavaScript's logical or against null, and 0 is falsy | a set at latitude 0.0 (on the equator) opens its editor with a null latitude; a save then sends the text "null", which Spring's conversion to `Double` most likely rejects with a 400, so the update fails | keep the stored coordinate, zero included (`?? null`) | not executed | ImageSetList.EquatorSetLosesLatitude | ImageSetList.SeedLocationKeepsCoordinates |

=== FILE: auth_context.dfy ===
/** The session of the transformer-manager front end: the token and the
    administrator kept in React state and mirrored in the browser's local
    storage, restored at start-up, set by a login and cleared by a logout.
    Local storage is a map from key to stored text; the administrator is kept
    as the JSON text `JSON.stringify` produced for it. */
module AuthContext {
  import opened Common

  const TokenKey: string := "token"
  const AdminKey: string := "admin"
  const LoginFailed: string := "Login failed"

  type Storage = map<string, string>

  /** The provider's state: `admin` holds the JSON text of the administrator. */
  datatype AuthState = AuthState(admin: Option<string>, token: Option<string>, loading: bool)

  const InitialState: AuthState := AuthState(None, None, true)

  /** The JSON texts that parse to a falsy value: null, false, zero, minus
      zero and the empty string, each in its shortest spelling. */
  const FalsyJsonTexts: set<string> := {"null", "false", "0", "-0", "\"\""}

  /** `JSON.parse(localStorage.getItem("admin"))` is truthy: the key is
      present and its text does not parse to a falsy value. */
  predicate StoredAdminPresent(storage: Storage) {
    AdminKey in storage && storage[AdminKey] !in FalsyJsonTexts
  }

  /** `localStorage.getItem("token")` is truthy. */
  predicate StoredTokenPresent(storage: Storage) {
    TokenKey in storage && storage[TokenKey] != ""
  }

  /** The start-up effect, run once on the initial state: both values are
      taken over only when both are present, otherwise both stay null;
      loading ends either way. */
  function Startup(storage: Storage): (r: AuthState)
    ensures !r.loading
    ensures r.token.Some? <==> StoredTokenPresent(storage) && StoredAdminPresent(storage)
    ensures r.token.Some? ==> r.token == Some(storage[TokenKey]) && r.admin == Some(storage[AdminKey])
    ensures r.token.None? ==> r.admin.None?
  {
    if StoredTokenPresent(storage) && StoredAdminPresent(storage) then
      AuthState(Some(storage[AdminKey]), Some(storage[TokenKey]), false)
    else InitialState.(loading := false)
  }

  /** Restoring from a storage that holds only one of the two keys leaves the
      session signed out. */
  lemma StartupNeedsBothKeys(storage: Storage)
    requires TokenKey !in storage || AdminKey !in storage
    ensures Startup(storage).token.None?
    ensures Startup(storage).admin.None?
  {
  }

  /** The body of a successful login response. */
  datatype LoginResponse = LoginResponse(token: string, admin: string)

  /** What `login` returns, with the state and storage it leaves behind. */
  datatype LoginResult = LoginResult(state: AuthState, storage: Storage, success: bool, message: Option<string>)

  /** `login`: on success both values are stored and set; on failure nothing
      changes and the server's message, or "Login failed", is returned. */
  function Login(st: AuthState, storage: Storage, outcome: Http<LoginResponse>): (r: LoginResult)
    ensures outcome.Success? ==>
      && r.success && r.message.None?
      && r.state == st.(token := Some(outcome.data.token), admin := Some(outcome.data.admin))
      && r.storage == storage[TokenKey := outcome.data.token][AdminKey := outcome.data.admin]
    ensures outcome.Failure? ==>
      && !r.success && r.state == st && r.storage == storage
      && r.message == Some(OrElse(outcome.err.serverMessage, LoginFailed))
  {
    match outcome
    case Success(resp) =>
      LoginResult(st.(token := Some(resp.token), admin := Some(resp.admin)),
                  storage[TokenKey := resp.token][AdminKey := resp.admin], true, None)
    case Failure(e) => LoginResult(st, storage, false, Some(OrElse(e.serverMessage, LoginFailed)))
  }

  /** `logout`: both keys removed, both values cleared. */
  function Logout(st: AuthState, storage: Storage): (r: (AuthState, Storage))
    ensures r.0 == st.(token := None, admin := None)
    ensures TokenKey !in r.1 && AdminKey !in r.1
    ensures forall k :: k != TokenKey && k != AdminKey ==> (k in r.1 <==> k in storage)
    ensures forall k :: k in r.1 ==> r.1[k] == storage[k]
  {
    (st.(token := None, admin := None), storage - {TokenKey, AdminKey})
  }

  /** `isAuthenticated`: `!!token`. */
  predicate IsAuthenticated(st: AuthState) {
    st.token.Some? && st.token.value != ""
  }

  /** `!!token`: a successful login signs in exactly when the server's token
      is non-empty, and a failed one leaves the session as it was. */
  lemma LoginAuthenticatesIffToken(st: AuthState, storage: Storage, outcome: Http<LoginResponse>)
    ensures var r := Login(st, storage, outcome);
      && (outcome.Success? ==> (IsAuthenticated(r.state) <==> outcome.data.token != ""))
      && (outcome.Failure? ==> (IsAuthenticated(r.state) <==> IsAuthenticated(st)))
  {
  }

  /** A login survives a reload: starting again from the storage it wrote
      restores the same token and administrator, and the session counts as
      signed in whenever the token is non-empty. */
  lemma LoginSurvivesReload(st: AuthState, storage: Storage, resp: LoginResponse)
    requires resp.token != "" && resp.admin !in FalsyJsonTexts
    ensures var r := Login(st, storage, Success(resp));
      && Startup(r.storage) == AuthState(Some(resp.admin), Some(resp.token), false)
      && IsAuthenticated(r.state)
  {
  }

  /** A logout survives a reload: starting again from the storage it left
      restores nothing, and the session is signed out. */
  lemma LogoutSurvivesReload(st: AuthState, storage: Storage)
    ensures var (s, store) := Logout(st, storage);
      && !IsAuthenticated(s)
      && Startup(store) == AuthState(None, None, false)
  {
  }

  /** A restored session is signed in, and a session that was not restored
      is signed out. */
  lemma StartupAuthenticatesIffRestored(storage: Storage)
    ensures IsAuthenticated(Startup(storage))
            <==> StoredTokenPresent(storage) && StoredAdminPresent(storage)
  {
  }

  /** A stored administrator whose text parses to false, zero or the empty
      string restores no session, however valid the stored token. */
  lemma FalsyAdminRestoresNothing(storage: Storage)
    requires TokenKey in storage && storage[TokenKey] != ""
    requires AdminKey in storage && storage[AdminKey] in {"false", "0", "-0", "\"\""}
    ensures Startup(storage) == AuthState(None, None, false)
  {
  }
}

=== FILE: common.dfy ===
/** Shared vocabulary for the whole model: optional values, results carrying the
    source's error messages, file handles, HTTP outcomes as the browser sees them,
    and the few string operations the front ends and back ends rely on. */
module Common {

  /** A JavaScript/Java value that may be null or undefined. */
  datatype Option<+T> = None | Some(value: T) {
    function GetOr(default: T): T {
      match this
      case Some(v) => v
      case None => default
    }
  }

  /** The outcome of a back-end operation: a value, or the message of the
      RuntimeException the service throws. */
  datatype Result<+T> = Ok(value: T) | Err(message: string)

  /** A file chosen in the browser, which arrives at the server as a
      MultipartFile with the same original file name. */
  datatype FileHandle = FileHandle(name: string, size: nat)

  /** What axios reports for a failed request: the HTTP status when a response
      arrived, the `message` field of the response body if any, and the
      transport-level error message. */
  datatype HttpError = HttpError(status: Option<int>, serverMessage: Option<string>, message: string)

  /** The outcome of one HTTP request, given to the model as an input. */
  datatype Http<+T> = Success(data: T) | Failure(err: HttpError)

  /** JavaScript truthiness of a string: only the empty string is falsy. */
  predicate Truthy(s: string) {
    |s| > 0
  }

  /** JavaScript `a || b` where `a` is an optional string: `a` when it is
      present and non-empty, otherwise the fallback. */
  function OrElse(a: Option<string>, fallback: string): (r: string)
    ensures a.Some? && a.value != "" ==> r == a.value
    ensures a.None? || a.value == "" ==> r == fallback
  {
    if a.Some? && Truthy(a.value) then a.value else fallback
  }

  /** The message axios-based handlers show: the server's message when there is
      a non-empty one, otherwise the transport error's own message. */
  function ServerOrOwnMessage(e: HttpError): string {
    OrElse(e.serverMessage, e.message)
  }

  // ---------------------------------------------------------------------------
  // Substrings

  predicate StartsWith(s: string, prefix: string) {
    |prefix| <= |s| && s[..|prefix|] == prefix
  }

  /** `s.includes(t)` in JavaScript, `s.contains(t)` in Java. */
  predicate Contains(s: string, t: string)
    decreases |s|
  {
    StartsWith(s, t) || (|s| > 0 && Contains(s[1..], t))
  }

  /** t occurs in s starting at position i. */
  predicate OccursAt(s: string, t: string, i: int) {
    0 <= i <= |s| - |t| && s[i..i + |t|] == t
  }

  /** The position-based reading of Contains. */
  lemma {:induction false} ContainsIffOccurrence(s: string, t: string)
    ensures Contains(s, t) <==> exists i :: OccursAt(s, t, i)
    decreases |s|
  {
    if StartsWith(s, t) {
      assert OccursAt(s, t, 0);
    } else if |s| == 0 {
      forall i
        ensures !OccursAt(s, t, i)
      {
      }
    } else {
      ContainsIffOccurrence(s[1..], t);
      if Contains(s[1..], t) {
        var i :| OccursAt(s[1..], t, i);
        assert s[i + 1..i + 1 + |t|] == s[1..][i..i + |t|];
        assert OccursAt(s, t, i + 1);
      } else {
        forall i
          ensures !OccursAt(s, t, i)
        {
          if i == 0 && |t| <= |s| {
            assert s[..|t|] == s[i..i + |t|];
          } else if 0 < i <= |s| - |t| {
            assert s[1..][i - 1..i - 1 + |t|] == s[i..i + |t|];
            assert !OccursAt(s[1..], t, i - 1);
          }
        }
      }
    }
  }

  // ---------------------------------------------------------------------------
  // Case folding (ASCII only) and whitespace

  function LowerChar(c: char): char {
    if 'A' <= c <= 'Z' then (c as int + 32) as char else c
  }

  /** `toLowerCase()`, restricted to ASCII letters. */
  function Lower(s: string): (r: string)
    ensures |r| == |s|
    ensures forall i :: 0 <= i < |s| ==> r[i] == LowerChar(s[i])
    ensures forall i :: 0 <= i < |r| ==> !('A' <= r[i] <= 'Z')
  {
    seq(|s|, i requires 0 <= i < |s| => LowerChar(s[i]))
  }

  /** The characters `String.prototype.trim` removes, restricted to the ASCII
      ones and the no-break space. */
  predicate IsSpace(c: char) {
    c == ' ' || c == '\t' || c == '\n' || c == '\r' || c == '\U{000B}' || c == '\U{000C}' || c == '\U{00A0}'
  }

  /** `!s.trim()`: the string is empty after trimming. */
  predicate IsBlank(s: string) {
    forall i :: 0 <= i < |s| ==> IsSpace(s[i])
  }

  // ---------------------------------------------------------------------------
  // Sequences

  /** `Array.prototype.filter`: keeps, in order, the elements satisfying p. */
  function Filter<T(!new)>(s: seq<T>, p: T -> bool): (r: seq<T>)
    ensures |r| <= |s|
    ensures forall i :: 0 <= i < |r| ==> p(r[i])
    ensures forall x :: multiset(r)[x] == if p(x) then multiset(s)[x] else 0
  {
    if |s| == 0 then []
    else
      var rest := Filter(s[1..], p);
      assert s == [s[0]] + s[1..];
      if p(s[0]) then [s[0]] + rest else rest
  }

  /** Filtering keeps the relative order: it distributes over concatenation. */
  lemma {:induction false} FilterAppend<T(!new)>(a: seq<T>, b: seq<T>, p: T -> bool)
    ensures Filter(a + b, p) == Filter(a, p) + Filter(b, p)
  {
    if |a| == 0 {
      assert a + b == b;
    } else {
      assert (a + b)[1..] == a[1..] + b;
      FilterAppend(a[1..], b, p);
    }
  }

  /** Membership in a filtered sequence. */
  lemma FilterMembership<T(!new)>(s: seq<T>, p: T -> bool, x: T)
    ensures x in Filter(s, p) <==> x in s && p(x)
  {
    var r := Filter(s, p);
    assert x in r <==> multiset(r)[x] > 0;
    assert x in s <==> multiset(s)[x] > 0;
  }

  // ---------------------------------------------------------------------------
  // Decimal rendering of non-negative integers (Java `long` + String, JS `${n}`)

  function DigitChar(d: nat): (c: char)
    requires d < 10
    ensures '0' <= c <= '9'
  {
    ['0', '1', '2', '3', '4', '5', '6', '7', '8', '9'][d]
  }

  predicate IsDigits(s: string) {
    forall i :: 0 <= i < |s| ==> '0' <= s[i] <= '9'
  }

  function DigitValue(c: char): nat
    requires '0' <= c <= '9'
  {
    c as int - '0' as int
  }

  /** The value a string of decimal digits denotes. */
  function ParseDigits(s: string): nat
    requires IsDigits(s)
  {
    if |s| == 0 then 0 else 10 * ParseDigits(s[..|s| - 1]) + DigitValue(s[|s| - 1])
  }

  /** The decimal text of n, without leading zeros. */
  function NatToString(n: nat): (r: string)
    ensures |r| > 0 && IsDigits(r)
    ensures ParseDigits(r) == n
    ensures |r| > 1 ==> r[0] != '0'
  {
    if n < 10 then
      var r := [DigitChar(n)];
      assert r[..|r| - 1] == [];
      r
    else
      var p := NatToString(n / 10);
      var r := p + [DigitChar(n % 10)];
      assert r[..|r| - 1] == p;
      r
  }

  // ---------------------------------------------------------------------------
  // Java `String.replace(target, replacement)`

  /** Replaces every occurrence of pat, scanning left to right without overlap,
      as Java's `String.replace(CharSequence, CharSequence)` does. */
  function ReplaceAll(s: string, pat: string, rep: string): (r: string)
    requires |pat| > 0
    ensures rep == "" ==> |r| <= |s|
    ensures rep == "" ==> (|r| == |s| <==> !Contains(s, pat))
    decreases |s|
  {
    if |s| == 0 then ""
    else if StartsWith(s, pat) then rep + ReplaceAll(s[|pat|..], pat, rep)
    else [s[0]] + ReplaceAll(s[1..], pat, rep)
  }

  /** A string in which pat does not occur is left unchanged. */
  lemma {:induction false} ReplaceAllAbsent(s: string, pat: string, rep: string)
    requires |pat| > 0
    requires !Contains(s, pat)
    ensures ReplaceAll(s, pat, rep) == s
    decreases |s|
  {
    if |s| > 0 {
      ReplaceAllAbsent(s[1..], pat, rep);
      assert s == [s[0]] + s[1..];
    }
  }

  /** A prefix whose characters never begin pat passes through unchanged. */
  lemma {:induction false} ReplaceAllSkipsPrefix(pre: string, s: string, pat: string, rep: string)
    requires |pat| > 0
    requires forall i :: 0 <= i < |pre| ==> pre[i] != pat[0]
    ensures ReplaceAll(pre + s, pat, rep) == pre + ReplaceAll(s, pat, rep)
    decreases |pre|
  {
    if |pre| > 0 {
      var t := pre + s;
      assert t[0] == pre[0];
      assert t[0] != pat[0];
      assert !StartsWith(t, pat);
      assert t[1..] == pre[1..] + s;
      ReplaceAllSkipsPrefix(pre[1..], s, pat, rep);
      calc {
        ReplaceAll(t, pat, rep);
        [t[0]] + ReplaceAll(t[1..], pat, rep);
        [pre[0]] + (pre[1..] + ReplaceAll(s, pat, rep));
        { assert [pre[0]] + pre[1..] == pre; }
        pre + ReplaceAll(s, pat, rep);
      }
    } else {
      assert pre + s == s;
    }
  }

  // ---------------------------------------------------------------------------
  // List patching (`list.map(x => hit(x) ? v : x)`)

  /** Every entry that `hit` selects becomes v; the others stay in place. */
  function Patch<T>(s: seq<T>, hit: T -> bool, v: T): (r: seq<T>)
    ensures |r| == |s|
    ensures forall i :: 0 <= i < |s| ==> r[i] == (if hit(s[i]) then v else s[i])
  {
    seq(|s|, i requires 0 <= i < |s| => if hit(s[i]) then v else s[i])
  }

  /** What a patch keeps and adds: every unselected entry survives, nothing
      but v is new, v appears when something was selected, and a patch that
      selects nothing changes nothing. */
  lemma PatchMembership<T>(s: seq<T>, hit: T -> bool, v: T)
    ensures forall x :: x in s && !hit(x) ==> x in Patch(s, hit, v)
    ensures forall x :: x in Patch(s, hit, v) ==> x == v || (x in s && !hit(x))
    ensures (exists i :: 0 <= i < |s| && hit(s[i])) ==> v in Patch(s, hit, v)
    ensures (forall i :: 0 <= i < |s| ==> !hit(s[i])) ==> Patch(s, hit, v) == s
  {
    var r := Patch(s, hit, v);
    forall x | x in s && !hit(x)
      ensures x in r
    {
      var i :| 0 <= i < |s| && s[i] == x;
      assert r[i] == x;
    }
  }
}

=== FILE: entities.dfy ===
/** The persisted shapes the Spring back ends work on, and the image-row
    construction that ImageSetService and TransformerRecordService share
    line for line. An administrator is identified by user name. */
module Entities {
  import opened Common
  import opened UploadPaths

  const Baseline: string := "Baseline"
  const Maintenance: string := "Maintenance"

  /** `ImageDTO`: one uploaded file with its type and weather condition. */
  datatype ImageDto = ImageDto(file: FileHandle, imageType: string, weather: Option<string>)

  /** An `Image` row: where the file is served from, its type, and the weather
      condition (null unless the type is Baseline). */
  datatype StoredImage = StoredImage(filePath: string, imageType: string, weather: Option<string>)

  /** An `ImageSet` or `TransformerRecord` row. */
  datatype AssetRecord = AssetRecord(
    name: string,
    locationName: string,
    locationLat: real,
    locationLng: real,
    capacity: string,
    uploadedBy: string,
    images: seq<StoredImage>)

  /** What a delete leaves behind: the remaining rows, and the names of the
      files under the upload directory it removes (by `Files.deleteIfExists`). */
  datatype Removal<V> = Removal(remaining: map<int, V>, deletedFiles: seq<string>)

  /** The image row built from one DTO, with the file written at `stamp`. */
  function ImageFromDto(dto: ImageDto, stamp: nat): StoredImage {
    StoredImage(
      PublicPath(stamp, dto.file.name),
      dto.imageType,
      if dto.imageType == Baseline then dto.weather else None)
  }

  /** One image row per DTO, in order; `stamps[i]` is the clock reading taken
      for the i-th file. */
  function ImagesFromDtos(dtos: seq<ImageDto>, stamps: seq<nat>): (r: seq<StoredImage>)
    requires |stamps| == |dtos|
    ensures |r| == |dtos|
    ensures forall i :: 0 <= i < |r| ==>
      && r[i].filePath == "/uploads/" + StoredFileName(stamps[i], dtos[i].file.name)
      && r[i].imageType == dtos[i].imageType
      && (r[i].weather.Some? ==> r[i].imageType == Baseline)
      && (dtos[i].imageType == Baseline ==> r[i].weather == dtos[i].weather)
  {
    seq(|dtos|, i requires 0 <= i < |dtos| => ImageFromDto(dtos[i], stamps[i]))
  }

  /** The files a delete removes for a list of image rows. */
  function DeletedFiles(images: seq<StoredImage>): (r: seq<string>)
    ensures |r| == |images|
    ensures forall i :: 0 <= i < |images| ==> r[i] == StripUploads(images[i].filePath)
  {
    seq(|images|, i requires 0 <= i < |images| => StripUploads(images[i].filePath))
  }

  predicate NoEmbeddedPrefix(dtos: seq<ImageDto>) {
    forall i :: 0 <= i < |dtos| ==> !Contains(dtos[i].file.name, UploadsPrefix)
  }

  /** Deleting rows built from DTOs removes exactly the files that were written
      for them, in order. */
  lemma DeletedFilesOfBuilt(dtos: seq<ImageDto>, stamps: seq<nat>)
    requires |stamps| == |dtos|
    requires NoEmbeddedPrefix(dtos)
    ensures forall i :: 0 <= i < |dtos| ==>
      DeletedFiles(ImagesFromDtos(dtos, stamps))[i] == StoredFileName(stamps[i], dtos[i].file.name)
  {
    forall i | 0 <= i < |dtos|
      ensures DeletedFiles(ImagesFromDtos(dtos, stamps))[i] == StoredFileName(stamps[i], dtos[i].file.name)
    {
      StripPublicPath(stamps[i], dtos[i].file.name);
    }
  }
}

=== FILE: image_list.dfy ===
/** The single-image list of the image-gallery front end: paths normalised to
    forward slashes, the edit dialog, the update request that sends only what
    changed, and the cache-busting path patched into the list afterwards. */
module ImageList {
  import opened Common
  import opened Multipart
  import ImageService
  import opened UploadPaths

  const FetchFailedPrefix: string := "Failed to fetch images: "
  const UpdateFailedPrefix: string := "Failed to update image: "

  /** An image as the list holds it. */
  datatype ImageView = ImageView(
    id: int,
    name: string,
    filePath: string,
    uploadTime: int,
    imageType: string,
    weather: Option<string>)

  /** `normalizePath`: `path.replace(/\\/g, "/")`. */
  function NormalizePath(p: string): (r: string)
    ensures |r| == |p|
    ensures '\\' !in r
  {
    if |p| == 0 then ""
    else [if p[0] == '\\' then '/' else p[0]] + NormalizePath(p[1..])
  }

  /** Each character is kept, except that a backslash becomes a slash. */
  lemma {:induction false} NormalizePathPointwise(p: string)
    ensures forall i :: 0 <= i < |p| ==> NormalizePath(p)[i] == if p[i] == '\\' then '/' else p[i]
  {
    if |p| > 0 {
      NormalizePathPointwise(p[1..]);
      assert forall i :: 1 <= i < |p| ==> NormalizePath(p)[i] == NormalizePath(p[1..])[i - 1];
    }
  }

  /** Normalising twice is normalising once. */
  lemma {:induction false} NormalizePathIdempotent(p: string)
    ensures NormalizePath(NormalizePath(p)) == NormalizePath(p)
  {
    if |p| > 0 {
      var q := NormalizePath(p);
      NormalizePathIdempotent(p[1..]);
      assert q[1..] == NormalizePath(p[1..]);
    }
  }

  /** The same as replacing every one-character "\\" left to right, the way
      the back end's string replacement works. */
  lemma {:induction false} NormalizePathIsReplaceAll(p: string)
    ensures NormalizePath(p) == ReplaceAll(p, "\\", "/")
  {
    if |p| > 0 {
      NormalizePathIsReplaceAll(p[1..]);
      assert StartsWith(p, "\\") <==> p[0] == '\\' by {
        assert p[..1] == [p[0]];
      }
    }
  }

  /** The path the image service stores after an update on a platform whose
      separator is a backslash reads, once normalised, like the one stored on
      a platform using slashes. */
  lemma NormalizedResolvedPath(dir: string, fileName: string)
    requires '\\' !in dir && '\\' !in fileName
    requires dir != ""
    ensures NormalizePath(ImageService.ResolvePath(dir, '\\', fileName))
            == ImageService.ResolvePath(dir, '/', fileName)
  {
    var w := ImageService.ResolvePath(dir, '\\', fileName);
    var u := ImageService.ResolvePath(dir, '/', fileName);
    NormalizePathPointwise(w);
    forall i | 0 <= i < |u|
      ensures NormalizePath(w)[i] == u[i]
    {
      if i < |dir| {
        assert w[i] == dir[i] == u[i];
      } else if i > |dir| {
        assert w[i] == fileName[i - |dir| - 1] == u[i];
      }
    }
  }

  datatype ListState = ListState(
    images: seq<ImageView>,
    error: string,
    current: Option<ImageView>,
    editName: string,
    editFile: Option<FileHandle>,
    preview: Option<string>,
    showEdit: bool)

  /** The fetched images with their paths normalised. */
  function NormalizeAll(images: seq<ImageView>): (r: seq<ImageView>)
    ensures |r| == |images|
    ensures forall i :: 0 <= i < |r| ==> r[i] == images[i].(filePath := NormalizePath(images[i].filePath))
  {
    seq(|images|, i requires 0 <= i < |images| => images[i].(filePath := NormalizePath(images[i].filePath)))
  }

  /** After normalisation no path holds a backslash, every other field and
      the order are kept, and normalising again changes nothing. */
  lemma NormalizeAllProperties(images: seq<ImageView>)
    ensures forall i :: 0 <= i < |images| ==> '\\' !in NormalizeAll(images)[i].filePath
    ensures forall i :: 0 <= i < |images| ==>
      && NormalizeAll(images)[i].id == images[i].id
      && NormalizeAll(images)[i].name == images[i].name
      && NormalizeAll(images)[i].uploadTime == images[i].uploadTime
      && NormalizeAll(images)[i].imageType == images[i].imageType
      && NormalizeAll(images)[i].weather == images[i].weather
    ensures NormalizeAll(NormalizeAll(images)) == NormalizeAll(images)
  {
    forall i | 0 <= i < |images|
      ensures NormalizeAll(NormalizeAll(images))[i] == NormalizeAll(images)[i]
    {
      NormalizePathIdempotent(images[i].filePath);
    }
  }

  /** `fetchImages`: on success the normalised images; on failure a message,
      and the list as it was. */
  function AfterFetch(st: ListState, outcome: Http<seq<ImageView>>): (r: ListState)
    ensures outcome.Success? ==> r == st.(images := NormalizeAll(outcome.data))
    ensures outcome.Failure? ==> r == st.(error := FetchFailedPrefix + outcome.err.message)
  {
    match outcome
    case Success(data) => st.(images := NormalizeAll(data))
    case Failure(e) => st.(error := FetchFailedPrefix + e.message)
  }

  /** `handleEdit(image)`: the dialog opens on the image's name, with no file
      chosen and the current picture as preview. */
  function HandleEdit(st: ListState, image: ImageView): (r: ListState)
    ensures r.current == Some(image) && r.showEdit
    ensures r.editName == image.name && r.editFile.None?
    ensures r.preview == Some(NormalizePath(image.filePath))
    ensures r.images == st.images && r.error == st.error
  {
    st.(current := Some(image), editName := image.name, editFile := None,
        preview := Some(NormalizePath(image.filePath)), showEdit := true)
  }

  /** `handleFileChange`: the first chosen file, or none; a chosen file's
      data URL becomes the preview once read, and no file keeps the preview. */
  function ChooseFile(st: ListState, chosen: Option<FileHandle>, dataUrl: string): (r: ListState)
    ensures r.editFile == chosen
    ensures r.preview == (if chosen.Some? then Some(dataUrl) else st.preview)
    ensures r == st.(editFile := r.editFile, preview := r.preview)
  {
    if chosen.Some? then st.(editFile := chosen, preview := Some(dataUrl)) else st.(editFile := None)
  }

  /** The multipart body of `handleUpdate`: the name only when it was
      changed, the file only when one was chosen. */
  function UpdatePayload(st: ListState): (r: FormData)
    requires st.current.Some?
    ensures forall i :: 0 <= i < |r| ==> r[i].key in {"name", "file"}
    ensures |r| == (if st.editName != st.current.value.name then 1 else 0) + (if st.editFile.Some? then 1 else 0)
  {
    (if st.editName != st.current.value.name then [TextPart("name", st.editName)] else [])
    + (if st.editFile.Some? then [Part("file", Blob(st.editFile.value))] else [])
  }

  lemma UpdatePayloadRead(st: ListState)
    requires st.current.Some?
    ensures var fd := UpdatePayload(st);
      && GetAll(fd, "name") == (if st.editName != st.current.value.name then [Text(st.editName)] else [])
      && GetAll(fd, "file") == (if st.editFile.Some? then [Blob(st.editFile.value)] else [])
      && |fd| <= 2
  {
    var a: FormData := if st.editName != st.current.value.name then [TextPart("name", st.editName)] else [];
    var b: FormData := if st.editFile.Some? then [Part("file", Blob(st.editFile.value))] else [];
    GetAllAppend(a, b, "name");
    GetAllAppend(a, b, "file");
    if |a| > 0 {
      GetAllCons(a[0], [], "name");
      GetAllCons(a[0], [], "file");
    }
    if |b| > 0 {
      GetAllCons(b[0], [], "name");
      GetAllCons(b[0], [], "file");
    }
  }

  /** What the image service makes of the update body: the name changes only
      when it was edited to something non-empty, and the path changes only
      when a non-empty file was chosen. */
  lemma UpdateReachesServer(
    st: ListState, store: map<int, ImageService.GalleryImage>, uploadDirectory: string, sep: char, stamp: nat)
    requires st.current.Some? && st.current.value.id in store
    ensures var fd := UpdatePayload(st);
      var r := ImageService.UpdateImage(store, st.current.value.id, SingleText(fd, "name"), SingleFile(fd, "file"),
                                        uploadDirectory, sep, stamp);
      var stored := store[st.current.value.id];
      && r.Ok?
      && r.value.name == (if st.editName != st.current.value.name && st.editName != "" then st.editName else stored.name)
      && (st.editFile.None? || st.editFile.value.size == 0 ==> r.value.filePath == stored.filePath)
      && (st.editFile.Some? && st.editFile.value.size > 0 ==>
            r.value.filePath == ImageService.ResolvePath(uploadDirectory, sep, StoredFileName(stamp, st.editFile.value.name)))
  {
    UpdatePayloadRead(st);
    if st.editName != st.current.value.name {
      SingleTextOfOne(UpdatePayload(st), "name", st.editName);
    }
  }

  /** The path shown for an updated image: the normalised server path with a
      "?t=" query holding the clock, so the browser refetches the picture. */
  function CacheBusted(serverPath: string, now: nat): (r: string)
    ensures StartsWith(r, NormalizePath(serverPath))
    ensures r[|serverPath|..] == "?t=" + NatToString(now)
  {
    NormalizePath(serverPath) + "?t=" + NatToString(now)
  }

  /** The list after an update: the entries with the edited id take v. */
  function PatchById(images: seq<ImageView>, id: int, v: ImageView): (r: seq<ImageView>)
    ensures |r| == |images|
    ensures forall i :: 0 <= i < |images| && images[i].id != id ==> r[i] == images[i]
    ensures forall i :: 0 <= i < |images| && images[i].id == id ==> r[i] == v
  {
    Patch(images, (x: ImageView) => x.id == id, v)
  }

  /** Patching drops no other image and adds nothing but the answer, which
      appears when the id was listed. */
  lemma PatchByIdMembership(images: seq<ImageView>, id: int, v: ImageView)
    ensures forall x :: x in images && x.id != id ==> x in PatchById(images, id, v)
    ensures forall x :: x in PatchById(images, id, v) ==> x == v || (x in images && x.id != id)
    ensures (exists i :: 0 <= i < |images| && images[i].id == id) ==> v in PatchById(images, id, v)
  {
    PatchMembership(images, (x: ImageView) => x.id == id, v);
  }

  /** `handleUpdate` once the dialog has been opened on an image: on success
      the answer, with its path cache-busted at `now`, replaces that image
      and the dialog closes; on failure only the error is set. */
  function Update(st: ListState, outcome: Http<ImageView>, now: nat): (r: ListState)
    requires st.current.Some?
    ensures outcome.Success? ==>
      && r.images == PatchById(st.images, st.current.value.id,
                               outcome.data.(filePath := CacheBusted(outcome.data.filePath, now)))
      && !r.showEdit && r.error == st.error
    ensures outcome.Failure? ==> r == st.(error := UpdateFailedPrefix + outcome.err.message)
  {
    match outcome
    case Success(data) =>
      st.(images := PatchById(st.images, st.current.value.id, data.(filePath := CacheBusted(data.filePath, now))),
          showEdit := false)
    case Failure(e) => st.(error := UpdateFailedPrefix + e.message)
  }

  /** After a successful update the edited image is listed with the
      cache-busted path and every other image is untouched. */
  lemma UpdatedImageListed(st: ListState, data: ImageView, now: nat)
    requires st.current.Some?
    requires exists i :: 0 <= i < |st.images| && st.images[i].id == st.current.value.id
    ensures var r := Update(st, Success(data), now);
      && data.(filePath := CacheBusted(data.filePath, now)) in r.images
      && forall x :: x in st.images && x.id != st.current.value.id ==> x in r.images
  {
    PatchByIdMembership(st.images, st.current.value.id, data.(filePath := CacheBusted(data.filePath, now)));
  }
}

=== FILE: image_service.dfy ===
/** `ImageService` of the image-gallery back end: single named images. */
module ImageService {
  import opened Common
  import opened UploadPaths

  const ImageNotFound: string := "Image not found"

  /** A gallery `Image` row: its display name and the path it is served from. */
  datatype GalleryImage = GalleryImage(name: string, filePath: string)

  /** `Paths.get(dir).resolve(fileName).toString()` for a directory written
      without a trailing separator; `sep` is the platform's separator. */
  function ResolvePath(dir: string, sep: char, fileName: string): (r: string)
    ensures dir != "" ==> |r| == |dir| + 1 + |fileName| && r[..|dir|] == dir && r[|dir|] == sep && r[|dir| + 1..] == fileName
    ensures dir == "" ==> r == fileName
  {
    if dir == "" then fileName else dir + [sep] + fileName
  }

  /** `saveImage`: the row records the given name and the "/uploads/" path of
      the file written at `stamp`. */
  function SaveImage(name: string, file: FileHandle, stamp: nat): (r: GalleryImage)
    ensures r.name == name
    ensures r.filePath == "/uploads/" + StoredFileName(stamp, file.name)
  {
    GalleryImage(name, PublicPath(stamp, file.name))
  }

  /** `file != null && !file.isEmpty()`. */
  predicate HasContent(file: Option<FileHandle>) {
    file.Some? && file.value.size > 0
  }

  /** `updateImage` as written: a non-empty name replaces the name, and a
      non-empty file replaces the path with the file's location under the
      upload directory (not the "/uploads/" form `saveImage` stores). */
  function UpdateImage(
    store: map<int, GalleryImage>, id: int, name: Option<string>, file: Option<FileHandle>,
    uploadDirectory: string, sep: char, stamp: nat): (r: Result<GalleryImage>)
    ensures id in store <==> r.Ok?
    ensures r.Err? ==> r.message == ImageNotFound
    ensures r.Ok? ==> r.value.name == (if name.Some? && name.value != "" then name.value else store[id].name)
    ensures r.Ok? && !HasContent(file) ==> r.value.filePath == store[id].filePath
    ensures r.Ok? && HasContent(file) ==>
      r.value.filePath == ResolvePath(uploadDirectory, sep, StoredFileName(stamp, file.value.name))
  {
    if id !in store then Err(ImageNotFound)
    else
      var prev := store[id];
      var newName := if name.Some? && name.value != "" then name.value else prev.name;
      var newPath :=
        if HasContent(file) then ResolvePath(uploadDirectory, sep, StoredFileName(stamp, file.value.name))
        else prev.filePath;
      Ok(GalleryImage(newName, newPath))
  }

  /** The path `updateImage` stores is not the servable "/uploads/" path that
      `saveImage` stores for the same file: with the upload directory
      "uploads", a saved image is served from "/uploads/5_a", an updated one
      from "uploads/5_a". */
  lemma UpdatedPathIsNotServable()
    ensures var saved := SaveImage("a", FileHandle("a", 1), 5);
            var updated := UpdateImage(map[1 := GalleryImage("a", "x")], 1, None, Some(FileHandle("a", 1)), "uploads", '/', 5);
            && updated.Ok?
            && saved.filePath == "/uploads/5_a"
            && updated.value.filePath == "uploads/5_a"
  {
    assert NatToString(5) == "5";
    assert StoredFileName(5, "a") == "5_a";
  }

  /** `updateImage` with the path stored in the same "/uploads/" form as
      `saveImage`, so that the updated image stays servable and deletable. */
  function UpdateImageCorrected(
    store: map<int, GalleryImage>, id: int, name: Option<string>, file: Option<FileHandle>,
    stamp: nat): (r: Result<GalleryImage>)
    ensures id in store <==> r.Ok?
    ensures r.Err? ==> r.message == ImageNotFound
    ensures r.Ok? ==> r.value.name == (if name.Some? && name.value != "" then name.value else store[id].name)
    ensures r.Ok? && !HasContent(file) ==> r.value.filePath == store[id].filePath
    ensures r.Ok? && HasContent(file) ==> StartsWith(r.value.filePath, UploadsPrefix)
  {
    if id !in store then Err(ImageNotFound)
    else
      var prev := store[id];
      var newName := if name.Some? && name.value != "" then name.value else prev.name;
      var newPath := if HasContent(file) then PublicPath(stamp, file.value.name) else prev.filePath;
      Ok(GalleryImage(newName, newPath))
  }

  /** With the corrected update, a replaced file gets exactly the path a fresh
      save of the same file at the same instant would get. */
  lemma CorrectedUpdateMatchesSave(
    store: map<int, GalleryImage>, id: int, name: string, file: FileHandle, stamp: nat)
    requires id in store
    requires file.size > 0
    ensures var r := UpdateImageCorrected(store, id, Some(name), Some(file), stamp);
            r.Ok? && r.value.filePath == SaveImage(name, file, stamp).filePath
  {
  }
}

=== FILE: image_set_controller.dfy ===
/** `ImageSetController` of the image-gallery back end: it resolves the calling
    administrator, zips the three parallel multipart lists (files, types,
    weather conditions) position by position into DTOs, and hands them to
    `ImageSetService`. List indexing that runs past the end of a list fails
    the request with Java's index-out-of-bounds message. */
module ImageSetController {
  import opened Common
  import opened Entities
  import ImageSetService
  import Multipart

  const AdminNotFound: string := "Admin not found"

  /** The message of Java's `IndexOutOfBoundsException` for `list.get(index)`
      and of `ArrayIndexOutOfBoundsException` for `array[index]`. */
  function OutOfBounds(index: nat, length: nat): string {
    "Index " + NatToString(index) + " out of bounds for length " + NatToString(length)
  }

  // ---------------------------------------------------------------------------
  // uploadImageSet

  /** Position j of an upload can be zipped: `types.get(j)` exists, and so does
      `weatherConditions.get(j)` when it is read (Baseline with the list sent). */
  predicate UploadFitsAt(types: seq<string>, weathers: Option<seq<string>>, j: nat) {
    && j < |types|
    && (types[j] == Baseline && weathers.Some? ==> j < |weathers.value|)
  }

  /** The failure raised at the first position that does not fit. */
  function UploadMisfit(types: seq<string>, weathers: Option<seq<string>>, j: nat): string
    requires !UploadFitsAt(types, weathers, j)
  {
    if j >= |types| then OutOfBounds(j, |types|) else OutOfBounds(j, |weathers.value|)
  }

  /** The DTO `uploadImageSet` builds at a position that fits. */
  function UploadDto(images: seq<FileHandle>, types: seq<string>, weathers: Option<seq<string>>, j: nat): ImageDto
    requires j < |images| && UploadFitsAt(types, weathers, j)
  {
    ImageDto(images[j], types[j],
             if types[j] == Baseline && weathers.Some? then Some(weathers.value[j]) else None)
  }

  /** The loop of `uploadImageSet` from position i on. */
  function ZipUploadFrom(images: seq<FileHandle>, types: seq<string>, weathers: Option<seq<string>>, i: nat): (r: Result<seq<ImageDto>>)
    requires i <= |images|
    ensures r.Ok? <==> forall j :: i <= j < |images| ==> UploadFitsAt(types, weathers, j)
    ensures r.Ok? ==> |r.value| == |images| - i
    ensures r.Ok? ==> forall k :: 0 <= k < |r.value| ==>
      && UploadFitsAt(types, weathers, i + k)
      && r.value[k].file == images[i + k]
      && r.value[k].imageType == types[i + k]
      && r.value[k].weather == (if types[i + k] == Baseline && weathers.Some? then Some(weathers.value[i + k]) else None)
    ensures r.Err? ==>
      exists j :: && i <= j < |images| && !UploadFitsAt(types, weathers, j)
                  && (forall k :: i <= k < j ==> UploadFitsAt(types, weathers, k))
                  && r.message == UploadMisfit(types, weathers, j)
    decreases |images| - i
  {
    if i == |images| then Ok([])
    else if !UploadFitsAt(types, weathers, i) then Err(UploadMisfit(types, weathers, i))
    else
      match ZipUploadFrom(images, types, weathers, i + 1)
      case Ok(rest) => Ok([UploadDto(images, types, weathers, i)] + rest)
      case Err(m) => Err(m)
  }

  /** `uploadImageSet`: unknown principal first, then the zipping, then the
      service call. */
  function UploadImageSet(
    admins: set<string>, principal: string,
    name: string, locationName: string, locationLat: real, locationLng: real, capacity: string,
    images: seq<FileHandle>, types: seq<string>, weathers: Option<seq<string>>,
    stamps: seq<nat>): (r: Result<AssetRecord>)
    requires |stamps| == |images|
    ensures principal !in admins ==> r == Err(AdminNotFound)
    ensures principal in admins ==>
      (r.Ok? <==> forall j :: 0 <= j < |images| ==> UploadFitsAt(types, weathers, j))
    ensures r.Ok? ==>
      && r.value.uploadedBy == principal
      && r.value.name == name
      && |r.value.images| == |images|
      && forall j :: 0 <= j < |images| ==>
           && UploadFitsAt(types, weathers, j)
           && r.value.images[j].imageType == types[j]
           && r.value.images[j].weather
                == (if types[j] == Baseline && weathers.Some? then Some(weathers.value[j]) else None)
  {
    if principal !in admins then Err(AdminNotFound)
    else
      match ZipUploadFrom(images, types, weathers, 0)
      case Err(m) => Err(m)
      case Ok(dtos) =>
        Ok(ImageSetService.SaveImageSet(name, locationName, locationLat, locationLng, capacity,
                                         dtos, principal, stamps))
  }

  // ---------------------------------------------------------------------------
  // updateImageSet

  /** Whether the update request carries new images at all: `images` and
      `types` present and `images` non-empty. */
  predicate CarriesImages(images: Option<seq<FileHandle>>, types: Option<seq<string>>) {
    images.Some? && types.Some? && |images.value| > 0
  }

  /** The weather `updateImageSet` reads at position j: bounds-checked. */
  function UpdateWeather(t: string, weathers: Option<seq<string>>, j: nat): (r: Option<string>)
    ensures r.Some? <==> t == Baseline && weathers.Some? && j < |weathers.value|
    ensures r.Some? ==> r.value == weathers.value[j]
  {
    if t == Baseline && weathers.Some? && j < |weathers.value| then Some(weathers.value[j]) else None
  }

  /** The loop of `updateImageSet` from position i on; only `types[i]` is
      read without a bounds check. */
  function ZipUpdateFrom(images: seq<FileHandle>, types: seq<string>, weathers: Option<seq<string>>, i: nat): (r: Result<seq<ImageDto>>)
    requires i <= |images|
    ensures r.Ok? <==> |images| <= |types| || i == |images|
    ensures r.Err? && i <= |types| ==> r.message == OutOfBounds(|types|, |types|)
    ensures r.Ok? ==> |r.value| == |images| - i
    ensures r.Ok? ==> forall k :: 0 <= k < |r.value| ==>
      && r.value[k].file == images[i + k]
      && r.value[k].imageType == types[i + k]
      && r.value[k].weather == UpdateWeather(types[i + k], weathers, i + k)
    decreases |images| - i
  {
    if i == |images| then Ok([])
    else if i >= |types| then Err(OutOfBounds(i, |types|))
    else
      match ZipUpdateFrom(images, types, weathers, i + 1)
      case Ok(rest) => Ok([ImageDto(images[i], types[i], UpdateWeather(types[i], weathers, i))] + rest)
      case Err(m) => Err(m)
  }

  /** The type name "Baseline", sent as the only type, binds as itself. */
  lemma BaselineBindsAsItself()
    ensures Multipart.SplitParam(Baseline) == [Baseline]
  {
    Multipart.PlainTextSplitsToItself(Baseline);
  }

  /** A request with a single file that fits is zipped into a single DTO. */
  lemma ZipUploadOne(file: FileHandle, t: string, weathers: Option<seq<string>>)
    requires UploadFitsAt([t], weathers, 0)
    ensures ZipUploadFrom([file], [t], weathers, 0)
            == Ok([ImageDto(file, t, if t == Baseline && weathers.Some? then Some(weathers.value[0]) else None)])
  {
    var r := ZipUploadFrom([file], [t], weathers, 0);
    assert r.Ok?;
    assert r.value == [r.value[0]];
  }

  /** An update with a single file and at least one type is zipped into a
      single DTO, whose weather is read with a bounds check. */
  lemma ZipUpdateOne(file: FileHandle, types: seq<string>, weathers: Option<seq<string>>)
    requires |types| >= 1
    ensures ZipUpdate(Some([file]), Some(types), weathers)
            == Ok(Some([ImageDto(file, types[0], UpdateWeather(types[0], weathers, 0))]))
  {
    var r := ZipUpdateFrom([file], types, weathers, 0);
    assert r.Ok?;
    assert r.value == [r.value[0]];
  }

  /** The DTO list `updateImageSet` passes on: null (no image change) unless
      the request carries images. */
  function ZipUpdate(images: Option<seq<FileHandle>>, types: Option<seq<string>>, weathers: Option<seq<string>>): (r: Result<Option<seq<ImageDto>>>)
    ensures !CarriesImages(images, types) ==> r == Ok(None)
    ensures CarriesImages(images, types) ==> (r.Ok? <==> |images.value| <= |types.value|)
    ensures r.Ok? && CarriesImages(images, types) ==>
      r.value.Some? && |r.value.value| == |images.value| > 0
  {
    if !CarriesImages(images, types) then Ok(None)
    else
      match ZipUpdateFrom(images.value, types.value, weathers, 0)
      case Ok(dtos) => Ok(Some(dtos))
      case Err(m) => Err(m)
  }

  /** The update never reads a weather condition out of bounds: every weather
      it passes on comes from a position the list actually has. */
  lemma UpdateWeatherInBounds(images: Option<seq<FileHandle>>, types: Option<seq<string>>, weathers: Option<seq<string>>)
    ensures var r := ZipUpdate(images, types, weathers);
            r.Ok? && r.value.Some? ==>
              forall k :: 0 <= k < |r.value.value| && r.value.value[k].weather.Some? ==>
                weathers.Some? && k < |weathers.value| && r.value.value[k].weather.value == weathers.value[k]
  {
  }

  /** `updateImageSet`: unknown principal first, then the zipping, then the
      service update (which reports a missing set). */
  function UpdateImageSet(
    admins: set<string>, principal: string, store: map<int, AssetRecord>, id: int,
    name: Option<string>, locationName: Option<string>,
    locationLat: Option<real>, locationLng: Option<real>, capacity: Option<string>,
    images: Option<seq<FileHandle>>, types: Option<seq<string>>, weathers: Option<seq<string>>,
    stamps: seq<nat>): (r: Result<AssetRecord>)
    requires |stamps| == |images.GetOr([])|
    ensures principal !in admins ==> r == Err(AdminNotFound)
    ensures principal in admins && !CarriesImages(images, types) ==>
      r == ImageSetService.UpdateImageSet(store, id, name, locationName, locationLat, locationLng, capacity,
                                          None, principal, stamps)
    ensures r.Ok? ==> id in store && r.value.uploadedBy == principal
    ensures r.Ok? && !CarriesImages(images, types) ==> r.value.images == store[id].images
    ensures r.Ok? && CarriesImages(images, types) ==> |r.value.images| == |images.value|
  {
    if principal !in admins then Err(AdminNotFound)
    else
      match ZipUpdate(images, types, weathers)
      case Err(m) => Err(m)
      case Ok(dtos) =>
        ImageSetService.UpdateImageSet(store, id, name, locationName, locationLat, locationLng, capacity,
                                       dtos, principal, stamps)
  }
}

=== FILE: image_set_list.dfy ===
/** The image-set list of the image-gallery front end: fetching the sets, the
    edit dialog (seeding it from a set, choosing new files, editing their types
    and weather conditions), the update request and how its answer is patched
    into the list, and the two deletions behind a confirmation. */
module ImageSetList {
  import opened Common
  import opened Multipart
  import opened Entities
  import ImageSetController

  const FetchFailedPrefix: string := "Failed to fetch image sets: "
  const UpdateFailedPrefix: string := "Failed to update set: "
  const DeleteSetFailedPrefix: string := "Failed to delete set: "
  const DeleteImageFailedPrefix: string := "Failed to delete image: "

  /** An image set as the list holds it. Location fields may be missing. */
  datatype SetView = SetView(
    id: int,
    name: string,
    locationName: Option<string>,
    locationLat: Option<real>,
    locationLng: Option<real>,
    capacity: string)

  /** The location being edited; a coordinate may be null. */
  datatype EditLocation = EditLocation(name: string, lat: Option<real>, lng: Option<real>)

  datatype ListState = ListState(
    sets: seq<SetView>,
    error: string,
    current: Option<SetView>,
    editName: string,
    editLocation: EditLocation,
    editCapacity: string,
    newImages: seq<FileHandle>,
    newTypes: seq<string>,
    newWeathers: seq<string>,
    showEdit: bool)

  function Initial(): (st: ListState)
    ensures st.sets == [] && st.current.None? && !st.showEdit
    ensures Pending(st)
  {
    ListState([], "", None, "", EditLocation("", None, None), "", [], [], [], false)
  }

  /** The three pending lists describe the same files, position by position. */
  predicate Pending(st: ListState) {
    |st.newTypes| == |st.newImages| && |st.newWeathers| == |st.newImages|
  }

  /** `fetchSets`: the sets on success; no sets and a message on failure. */
  function AfterFetch(st: ListState, outcome: Http<seq<SetView>>): (r: ListState)
    ensures outcome.Success? ==> r == st.(sets := outcome.data, error := "")
    ensures outcome.Failure? ==> r == st.(sets := [], error := FetchFailedPrefix + outcome.err.message)
  {
    match outcome
    case Success(data) => st.(sets := data, error := "")
    case Failure(e) => st.(sets := [], error := FetchFailedPrefix + e.message)
  }

  // ---------------------------------------------------------------------------
  // Seeding the edit dialog

  /** A coordinate read with `value || null`: zero is falsy, so a set at
      latitude or longitude 0 is seeded with null. */
  function OrNull(c: Option<real>): (r: Option<real>)
    ensures r.Some? <==> c.Some? && c.value != 0.0
    ensures r.Some? ==> r == c
  {
    if c.Some? && c.value != 0.0 then c else None
  }

  /** The location `handleEdit` seeds, as written: name or "", and each
      coordinate through `|| null`. */
  function SeedLocationAsWritten(imageSet: SetView): (r: EditLocation)
    ensures r.name == (if imageSet.locationName.Some? then imageSet.locationName.value else "")
    ensures r.lat.Some? <==> imageSet.locationLat.Some? && imageSet.locationLat.value != 0.0
    ensures r.lat.Some? ==> r.lat == imageSet.locationLat
    ensures r.lng.Some? <==> imageSet.locationLng.Some? && imageSet.locationLng.value != 0.0
    ensures r.lng.Some? ==> r.lng == imageSet.locationLng
  {
    EditLocation(OrElse(imageSet.locationName, ""), OrNull(imageSet.locationLat), OrNull(imageSet.locationLng))
  }

  /** A set lying on the equator loses its latitude when the dialog is opened,
      so saving it without touching the map sends a null latitude. */
  lemma EquatorSetLosesLatitude()
    ensures var imageSet := SetView(1, "Equator", Some("Quito"), Some(0.0), Some(-78.5), "100");
            SeedLocationAsWritten(imageSet).lat.None? && imageSet.locationLat == Some(0.0)
  {
  }

  /** The location seeded with the coordinates kept as stored (`?? null`). */
  function SeedLocation(imageSet: SetView): EditLocation {
    EditLocation(OrElse(imageSet.locationName, ""), imageSet.locationLat, imageSet.locationLng)
  }

  /** The seeded coordinates are the set's own, zero included; the two
      seedings agree on every set away from the zero lines. */
  lemma SeedLocationKeepsCoordinates(imageSet: SetView)
    ensures SeedLocation(imageSet).lat == imageSet.locationLat && SeedLocation(imageSet).lng == imageSet.locationLng
    ensures SeedLocation(imageSet).name == (if imageSet.locationName.Some? then imageSet.locationName.value else "")
    ensures imageSet.locationLat != Some(0.0) && imageSet.locationLng != Some(0.0) ==>
      SeedLocation(imageSet) == SeedLocationAsWritten(imageSet)
  {
  }

  /** `handleEdit(set)`: the dialog opens on the set's name, location and
      capacity, the location seeded as written, so a coordinate that is
      missing or zero opens as null and any other opens as stored. The
      pending files of an earlier dialog are not cleared. */
  function HandleEdit(st: ListState, imageSet: SetView): (r: ListState)
    ensures r.current == Some(imageSet) && r.showEdit
    ensures r.editName == imageSet.name && r.editCapacity == imageSet.capacity
    ensures r.editLocation.name == (if imageSet.locationName.Some? then imageSet.locationName.value else "")
    ensures r.editLocation.lat.Some? <==> imageSet.locationLat.Some? && imageSet.locationLat.value != 0.0
    ensures r.editLocation.lat.Some? ==> r.editLocation.lat == imageSet.locationLat
    ensures r.editLocation.lng.Some? <==> imageSet.locationLng.Some? && imageSet.locationLng.value != 0.0
    ensures r.editLocation.lng.Some? ==> r.editLocation.lng == imageSet.locationLng
    ensures r.sets == st.sets && r.error == st.error
    ensures r.newImages == st.newImages && r.newTypes == st.newTypes && r.newWeathers == st.newWeathers
  {
    st.(current := Some(imageSet), editName := imageSet.name, editLocation := SeedLocationAsWritten(imageSet),
        editCapacity := imageSet.capacity, showEdit := true)
  }

  // ---------------------------------------------------------------------------
  // Pending files

  /** `handleFileChange`: the chosen files replace the pending ones, each typed
      Maintenance with no weather condition. */
  function ChooseFiles(st: ListState, files: seq<FileHandle>): (r: ListState)
    ensures Pending(r)
    ensures r.newImages == files
    ensures forall i :: 0 <= i < |files| ==> r.newTypes[i] == Maintenance && r.newWeathers[i] == ""
    ensures r == st.(newImages := r.newImages, newTypes := r.newTypes, newWeathers := r.newWeathers)
  {
    st.(newImages := files,
        newTypes := seq(|files|, _ => Maintenance),
        newWeathers := seq(|files|, _ => ""))
  }

  /** Copy the list and overwrite one rendered position. */
  function SetAt(s: seq<string>, index: nat, v: string): (r: seq<string>)
    requires index < |s|
    ensures |r| == |s| && r[index] == v
    ensures forall j :: 0 <= j < |s| && j != index ==> r[j] == s[j]
  {
    s[index := v]
  }

  /** The type select of pending file `index`. */
  function ChangeType(st: ListState, index: nat, t: string): (r: ListState)
    requires index < |st.newTypes|
    ensures Pending(st) ==> Pending(r)
    ensures r == st.(newTypes := r.newTypes)
    ensures |r.newTypes| == |st.newTypes| && r.newTypes[index] == t
    ensures forall j :: 0 <= j < |st.newTypes| && j != index ==> r.newTypes[j] == st.newTypes[j]
  {
    st.(newTypes := SetAt(st.newTypes, index, t))
  }

  /** The weather field of pending file `index` (shown for Baseline). */
  function ChangeWeather(st: ListState, index: nat, w: string): (r: ListState)
    requires index < |st.newWeathers|
    ensures Pending(st) ==> Pending(r)
    ensures r == st.(newWeathers := r.newWeathers)
    ensures |r.newWeathers| == |st.newWeathers| && r.newWeathers[index] == w
    ensures forall j :: 0 <= j < |st.newWeathers| && j != index ==> r.newWeathers[j] == st.newWeathers[j]
  {
    st.(newWeathers := SetAt(st.newWeathers, index, w))
  }

  // ---------------------------------------------------------------------------
  // Update

  predicate HasBaseline(types: seq<string>) {
    exists i :: 0 <= i < |types| && types[i] == Baseline
  }

  /** The scalar fields, always sent. */
  function ScalarParts(st: ListState): FormData {
    [TextPart("name", st.editName),
     TextPart("locationName", st.editLocation.name),
     Part("locationLat", Coord(st.editLocation.lat)),
     Part("locationLng", Coord(st.editLocation.lng)),
     TextPart("capacity", st.editCapacity)]
  }

  /** The image lists: none without new files; otherwise the files, the
      types, and the weather conditions only when some type is Baseline. */
  function ImageParts(st: ListState): FormData {
    if |st.newImages| == 0 then []
    else
      BlobParts("images", st.newImages) + TextParts("types", st.newTypes)
      + (if HasBaseline(st.newTypes) then TextParts("weatherConditions", st.newWeathers) else [])
  }

  /** The multipart body of `handleUpdate`. */
  function UpdatePayload(st: ListState): FormData {
    ScalarParts(st) + ImageParts(st)
  }

  /** The update body on the wire: the five scalars, then (with new files)
      the files in order, the types in order, and the weathers in order when
      some type is Baseline; nothing else. */
  lemma UpdatePayloadLayout(st: ListState)
    ensures var r := UpdatePayload(st);
      var n := |st.newImages|;
      && |r| == 5 + (if n == 0 then 0
                     else n + |st.newTypes| + (if HasBaseline(st.newTypes) then |st.newWeathers| else 0))
      && (n > 0 ==>
            && (forall k :: 0 <= k < n ==> r[5 + k] == Part("images", Blob(st.newImages[k])))
            && (forall k :: 0 <= k < |st.newTypes| ==> r[5 + n + k] == TextPart("types", st.newTypes[k]))
            && (HasBaseline(st.newTypes) ==>
                  forall k :: 0 <= k < |st.newWeathers| ==>
                    r[5 + n + |st.newTypes| + k] == TextPart("weatherConditions", st.newWeathers[k])))
  {
    if |st.newImages| > 0 {
      UpdatePayloadShape(st);
      ListsLayout(UpdatePayload(st), ScalarParts(st), st.newImages, st.newTypes, st.newWeathers, HasBaseline(st.newTypes));
    }
  }

  lemma UpdatePayloadShape(st: ListState)
    requires |st.newImages| > 0
    ensures |ScalarParts(st)| == 5
    ensures UpdatePayload(st)
            == ScalarParts(st) + (BlobParts("images", st.newImages) + TextParts("types", st.newTypes)
                                  + (if HasBaseline(st.newTypes) then TextParts("weatherConditions", st.newWeathers) else []))
  {
  }

  /** Where the files, types and (optionally) weathers sit after a head of
      five parts. */
  lemma ListsLayout(r: FormData, h: FormData, files: seq<FileHandle>, types: seq<string>, ws: seq<string>, withWeathers: bool)
    requires |h| == 5
    requires r == h + (BlobParts("images", files) + TextParts("types", types)
                       + (if withWeathers then TextParts("weatherConditions", ws) else []))
    ensures |r| == 5 + |files| + |types| + (if withWeathers then |ws| else 0)
    ensures forall k :: 0 <= k < |files| ==> r[5 + k] == Part("images", Blob(files[k]))
    ensures forall k :: 0 <= k < |types| ==> r[5 + |files| + k] == TextPart("types", types[k])
    ensures withWeathers ==>
      forall k :: 0 <= k < |ws| ==> r[5 + |files| + |types| + k] == TextPart("weatherConditions", ws[k])
  {
    var a := BlobParts("images", files);
    var b := TextParts("types", types);
    var c := if withWeathers then TextParts("weatherConditions", ws) else [];
    forall k | 0 <= k < |files|
      ensures r[5 + k] == Part("images", Blob(files[k]))
    {
      assert r[5 + k] == a[k];
    }
    forall k | 0 <= k < |types|
      ensures r[5 + |files| + k] == TextPart("types", types[k])
    {
      assert r[5 + |files| + k] == b[k];
    }
    if withWeathers {
      forall k | 0 <= k < |ws|
        ensures r[5 + |files| + |types| + k] == TextPart("weatherConditions", ws[k])
      {
        assert r[5 + |files| + |types| + k] == c[k];
      }
    }
  }

  lemma ScalarPartsRead(st: ListState, k: string)
    ensures GetAll(ScalarParts(st), k)
            == if k == "name" then [Text(st.editName)]
               else if k == "locationName" then [Text(st.editLocation.name)]
               else if k == "locationLat" then [Coord(st.editLocation.lat)]
               else if k == "locationLng" then [Coord(st.editLocation.lng)]
               else if k == "capacity" then [Text(st.editCapacity)]
               else []
  {
    var h := ScalarParts(st);
    assert h == [h[0]] + ([h[1]] + ([h[2]] + ([h[3]] + ([h[4]] + []))));
    GetAllCons(h[0], [h[1]] + ([h[2]] + ([h[3]] + ([h[4]] + []))), k);
    GetAllCons(h[1], [h[2]] + ([h[3]] + ([h[4]] + [])), k);
    GetAllCons(h[2], [h[3]] + ([h[4]] + []), k);
    GetAllCons(h[3], [h[4]] + [], k);
    GetAllCons(h[4], [], k);
  }

  lemma ImagePartsRead(st: ListState, k: string)
    ensures GetAll(ImageParts(st), k)
            == if |st.newImages| == 0 then []
               else if k == "images" then BlobValues(st.newImages)
               else if k == "types" then TextValues(st.newTypes)
               else if k == "weatherConditions" && HasBaseline(st.newTypes) then TextValues(st.newWeathers)
               else []
  {
    if |st.newImages| > 0 {
      var a := BlobParts("images", st.newImages);
      var b := TextParts("types", st.newTypes);
      var c := if HasBaseline(st.newTypes) then TextParts("weatherConditions", st.newWeathers) else [];
      GetAllAppend(a + b, c, k);
      GetAllAppend(a, b, k);
      BlobPartsRead("images", st.newImages, k);
      TextPartsRead("types", st.newTypes, k);
      TextPartsRead("weatherConditions", st.newWeathers, k);
    }
  }

  /** Read back, the update body holds each scalar once. */
  lemma UpdatePayloadScalars(st: ListState)
    ensures var fd := UpdatePayload(st);
      && GetAll(fd, "name") == [Text(st.editName)]
      && GetAll(fd, "capacity") == [Text(st.editCapacity)]
      && GetAll(fd, "locationLat") == [Coord(st.editLocation.lat)]
      && GetAll(fd, "locationLng") == [Coord(st.editLocation.lng)]
  {
    GetAllAppend(ScalarParts(st), ImageParts(st), "name");
    GetAllAppend(ScalarParts(st), ImageParts(st), "capacity");
    GetAllAppend(ScalarParts(st), ImageParts(st), "locationLat");
    GetAllAppend(ScalarParts(st), ImageParts(st), "locationLng");
    ScalarPartsRead(st, "name");
    ScalarPartsRead(st, "capacity");
    ScalarPartsRead(st, "locationLat");
    ScalarPartsRead(st, "locationLng");
    ImagePartsRead(st, "name");
    ImagePartsRead(st, "capacity");
    ImagePartsRead(st, "locationLat");
    ImagePartsRead(st, "locationLng");
  }

  /** Read back, the update body holds files and types exactly when new files
      are pending, and weather conditions, all of them, exactly when
      additionally some pending type is Baseline. */
  lemma UpdatePayloadImages(st: ListState)
    ensures var fd := UpdatePayload(st);
      && GetAll(fd, "images") == (if |st.newImages| > 0 then BlobValues(st.newImages) else [])
      && GetAll(fd, "types") == (if |st.newImages| > 0 then TextValues(st.newTypes) else [])
      && GetAll(fd, "weatherConditions")
         == (if |st.newImages| > 0 && HasBaseline(st.newTypes) then TextValues(st.newWeathers) else [])
  {
    GetAllAppend(ScalarParts(st), ImageParts(st), "images");
    GetAllAppend(ScalarParts(st), ImageParts(st), "types");
    GetAllAppend(ScalarParts(st), ImageParts(st), "weatherConditions");
    ScalarPartsRead(st, "images");
    ScalarPartsRead(st, "types");
    ScalarPartsRead(st, "weatherConditions");
    ImagePartsRead(st, "images");
    ImagePartsRead(st, "types");
    ImagePartsRead(st, "weatherConditions");
  }

  /** The three list parameters the image-set back end binds from the update
      body: the files and types when new files are pending, and the weather
      conditions when additionally some pending type is Baseline, each as
      Spring binds a list of texts. */
  lemma UpdateParams(st: ListState)
    ensures var fd := UpdatePayload(st);
      && FileParam(fd, "images") == (if |st.newImages| > 0 then Some(st.newImages) else None)
      && TextParam(fd, "types") == (if |st.newImages| > 0 && |st.newTypes| > 0 then Some(BindTexts(st.newTypes)) else None)
      && TextParam(fd, "weatherConditions")
         == (if |st.newImages| > 0 && HasBaseline(st.newTypes) && |st.newWeathers| > 0
             then Some(BindTexts(st.newWeathers)) else None)
  {
    UpdateImagesParam(st);
    UpdateTypesParam(st);
    UpdateWeathersParam(st);
  }

  lemma UpdateImagesParam(st: ListState)
    ensures FileParam(UpdatePayload(st), "images") == (if |st.newImages| > 0 then Some(st.newImages) else None)
  {
    UpdatePayloadImages(st);
    FileParamOfValues(UpdatePayload(st), "images", if |st.newImages| > 0 then st.newImages else []);
  }

  lemma UpdateTypesParam(st: ListState)
    ensures TextParam(UpdatePayload(st), "types")
            == (if |st.newImages| > 0 && |st.newTypes| > 0 then Some(BindTexts(st.newTypes)) else None)
  {
    UpdatePayloadImages(st);
    TextParamOfValues(UpdatePayload(st), "types", if |st.newImages| > 0 then st.newTypes else []);
  }

  lemma UpdateWeathersParam(st: ListState)
    ensures TextParam(UpdatePayload(st), "weatherConditions")
            == (if |st.newImages| > 0 && HasBaseline(st.newTypes) && |st.newWeathers| > 0
                then Some(BindTexts(st.newWeathers)) else None)
  {
    UpdatePayloadImages(st);
    TextParamOfValues(UpdatePayload(st), "weatherConditions",
                      if |st.newImages| > 0 && HasBaseline(st.newTypes) then st.newWeathers else []);
  }

  /** The server reads the pending lists as sent: there are several files, or
      the one file's type, and its weather when it is Baseline, are texts the
      single-value split keeps as they are. */
  predicate BindsPlainly(st: ListState)
    requires Pending(st)
  {
    |st.newImages| != 1 || (PlainText(st.newTypes[0]) && (st.newTypes[0] == Baseline ==> PlainText(st.newWeathers[0])))
  }

  /** How the image-set back end binds the update body: without new files it
      leaves the images alone; with new files that it reads as sent, it builds
      one DTO per new file, with its type and, for Baseline files, its weather
      condition. */
  lemma UpdateBoundByServer(st: ListState)
    requires Pending(st)
    ensures var fd := UpdatePayload(st);
      var r := ImageSetController.ZipUpdate(FileParam(fd, "images"), TextParam(fd, "types"), TextParam(fd, "weatherConditions"));
      && (|st.newImages| == 0 ==> r == Ok(None))
      && (|st.newImages| > 0 && BindsPlainly(st) ==>
            && r.Ok? && r.value.Some? && |r.value.value| == |st.newImages|
            && forall k :: 0 <= k < |st.newImages| ==>
                 && r.value.value[k].file == st.newImages[k]
                 && r.value.value[k].imageType == st.newTypes[k]
                 && r.value.value[k].weather == (if st.newTypes[k] == Baseline then Some(st.newWeathers[k]) else None))
  {
    if |st.newImages| == 0 {
      UpdateImagesParam(st);
    } else if BindsPlainly(st) {
      PlainUpdateParams(st);
      ZipPending(st.newImages, st.newTypes, st.newWeathers, TextParam(UpdatePayload(st), "weatherConditions"));
    }
  }

  /** With new files that the server reads as sent, the three lists arrive
      unchanged, the weathers only when some type is Baseline. */
  lemma PlainUpdateParams(st: ListState)
    requires Pending(st) && |st.newImages| > 0 && BindsPlainly(st)
    ensures var fd := UpdatePayload(st);
      && FileParam(fd, "images") == Some(st.newImages)
      && TextParam(fd, "types") == Some(st.newTypes)
      && TextParam(fd, "weatherConditions") == (if HasBaseline(st.newTypes) then Some(st.newWeathers) else None)
  {
    UpdateImagesParam(st);
    PlainTypesParam(st);
    PlainWeathersParam(st);
  }

  lemma PlainTypesParam(st: ListState)
    requires Pending(st) && |st.newImages| > 0 && BindsPlainly(st)
    ensures TextParam(UpdatePayload(st), "types") == Some(st.newTypes)
  {
    UpdateTypesParam(st);
    BindTextsUnchanged(st.newTypes);
  }

  lemma PlainWeathersParam(st: ListState)
    requires Pending(st) && |st.newImages| > 0 && BindsPlainly(st)
    ensures TextParam(UpdatePayload(st), "weatherConditions")
            == (if HasBaseline(st.newTypes) then Some(st.newWeathers) else None)
  {
    UpdateWeathersParam(st);
    if HasBaseline(st.newTypes) {
      assert |st.newImages| == 1 ==> st.newTypes[0] == Baseline;
      BindTextsUnchanged(st.newWeathers);
    }
  }

  /** The server's zip of pending lists it received as sent: one DTO per
      file, with its type, and its weather exactly when it is Baseline. */
  lemma ZipPending(images: seq<FileHandle>, types: seq<string>, ws: seq<string>, weathers: Option<seq<string>>)
    requires |types| == |images| && |ws| == |images| > 0
    requires weathers == (if HasBaseline(types) then Some(ws) else None)
    ensures var r := ImageSetController.ZipUpdate(Some(images), Some(types), weathers);
      && r.Ok? && r.value.Some? && |r.value.value| == |images|
      && forall k :: 0 <= k < |images| ==>
           && r.value.value[k].file == images[k]
           && r.value.value[k].imageType == types[k]
           && r.value.value[k].weather == (if types[k] == Baseline then Some(ws[k]) else None)
  {
    var r := ImageSetController.ZipUpdateFrom(images, types, weathers, 0);
    forall k | 0 <= k < |images|
      ensures r.value[k].weather == (if types[k] == Baseline then Some(ws[k]) else None)
    {
      assert r.value[k].weather == ImageSetController.UpdateWeather(types[k], weathers, k);
    }
  }

  /** A single new Baseline file: the server splits its weather at commas and
      keeps the first piece, trimmed, and a blank weather reaches the server
      as no weather at all. */
  lemma LoneBaselineFileWeather(st: ListState)
    requires Pending(st)
    requires |st.newImages| == 1 && st.newTypes[0] == Baseline
    ensures var fd := UpdatePayload(st);
      var r := ImageSetController.ZipUpdate(FileParam(fd, "images"), TextParam(fd, "types"), TextParam(fd, "weatherConditions"));
      && (st.newWeathers[0] == "" ==> r == Ok(Some([ImageDto(st.newImages[0], Baseline, None)])))
      && (st.newWeathers[0] != "" ==>
            && |SplitParam(st.newWeathers[0])| >= 1
            && r == Ok(Some([ImageDto(st.newImages[0], Baseline, Some(SplitParam(st.newWeathers[0])[0]))])))
  {
    LoneBaselineParams(st);
    ImageSetController.ZipUpdateOne(st.newImages[0], [Baseline], Some(SplitParam(st.newWeathers[0])));
  }

  /** The parameters bound from an update with a single new Baseline file. */
  lemma LoneBaselineParams(st: ListState)
    requires Pending(st)
    requires |st.newImages| == 1 && st.newTypes[0] == Baseline
    ensures var fd := UpdatePayload(st);
      && FileParam(fd, "images") == Some([st.newImages[0]])
      && TextParam(fd, "types") == Some([Baseline])
      && TextParam(fd, "weatherConditions") == Some(SplitParam(st.newWeathers[0]))
  {
    LoneImageParam(st);
    LoneTypeParam(st);
    LoneWeatherParam(st);
  }

  lemma LoneImageParam(st: ListState)
    requires Pending(st) && |st.newImages| == 1
    ensures FileParam(UpdatePayload(st), "images") == Some([st.newImages[0]])
  {
    UpdateImagesParam(st);
    assert st.newImages == [st.newImages[0]];
  }

  lemma LoneTypeParam(st: ListState)
    requires Pending(st) && |st.newImages| == 1 && st.newTypes[0] == Baseline
    ensures TextParam(UpdatePayload(st), "types") == Some([Baseline])
  {
    UpdateTypesParam(st);
    ImageSetController.BaselineBindsAsItself();
  }

  lemma LoneWeatherParam(st: ListState)
    requires Pending(st) && |st.newImages| == 1 && st.newTypes[0] == Baseline
    ensures TextParam(UpdatePayload(st), "weatherConditions") == Some(SplitParam(st.newWeathers[0]))
  {
    assert HasBaseline(st.newTypes);
    UpdateWeathersParam(st);
  }

  /** The list after a set was saved: the entries with that id take the
      server's answer. */
  function PatchById(sets: seq<SetView>, id: int, updated: SetView): (r: seq<SetView>)
    ensures |r| == |sets|
    ensures forall i :: 0 <= i < |sets| && sets[i].id != id ==> r[i] == sets[i]
    ensures forall i :: 0 <= i < |sets| && sets[i].id == id ==> r[i] == updated
  {
    Patch(sets, (s: SetView) => s.id == id, updated)
  }

  /** Patching drops no other set and adds nothing but the answer, which
      appears when the id was listed; an unlisted id changes nothing. */
  lemma PatchByIdMembership(sets: seq<SetView>, id: int, updated: SetView)
    ensures forall x :: x in sets && x.id != id ==> x in PatchById(sets, id, updated)
    ensures forall x :: x in PatchById(sets, id, updated) ==> x == updated || (x in sets && x.id != id)
    ensures (exists i :: 0 <= i < |sets| && sets[i].id == id) ==> updated in PatchById(sets, id, updated)
    ensures (forall i :: 0 <= i < |sets| ==> sets[i].id != id) ==> PatchById(sets, id, updated) == sets
  {
    PatchMembership(sets, (s: SetView) => s.id == id, updated);
  }

  /** The result of a handler: the next state and whether a request was sent. */
  datatype Outcome = Outcome(state: ListState, requested: bool)

  /** `handleUpdate` once the dialog has been opened on a set: on success the
      answer replaces that set in the list, the dialog closes and the pending
      files are cleared; on failure only the error is set. */
  function Update(st: ListState, outcome: Http<SetView>): (r: ListState)
    requires st.current.Some?
    ensures outcome.Success? ==>
      && r.sets == PatchById(st.sets, st.current.value.id, outcome.data)
      && !r.showEdit && r.newImages == [] && r.newTypes == [] && r.newWeathers == []
      && r.error == st.error && r.current == st.current
    ensures outcome.Failure? ==> r == st.(error := UpdateFailedPrefix + outcome.err.message)
    ensures Pending(r) || r.newImages == st.newImages
  {
    match outcome
    case Success(updated) =>
      st.(sets := PatchById(st.sets, st.current.value.id, updated), showEdit := false,
          newImages := [], newTypes := [], newWeathers := [])
    case Failure(e) => st.(error := UpdateFailedPrefix + e.message)
  }

  // ---------------------------------------------------------------------------
  // Deletions

  /** The list without the sets carrying `id`. */
  function RemoveById(sets: seq<SetView>, id: int): (r: seq<SetView>)
    ensures forall x :: multiset(r)[x] == if x.id != id then multiset(sets)[x] else 0
  {
    Filter(sets, (s: SetView) => s.id != id)
  }

  /** A set stays listed exactly when it does not carry the id. */
  lemma RemoveByIdMembership(sets: seq<SetView>, id: int, x: SetView)
    ensures x in RemoveById(sets, id) <==> x in sets && x.id != id
  {
    FilterMembership(sets, (s: SetView) => s.id != id, x);
  }

  /** The remaining sets keep their order: removal splits over any cut of
      the list. */
  lemma RemoveByIdKeepsOrder(a: seq<SetView>, b: seq<SetView>, id: int)
    ensures RemoveById(a + b, id) == RemoveById(a, id) + RemoveById(b, id)
  {
    FilterAppend(a, b, (s: SetView) => s.id != id);
  }

  /** `handleDeleteSet(id)`: nothing when the confirmation is declined;
      otherwise the set is dropped from the list, or an error is shown. */
  function DeleteSet(st: ListState, id: int, confirmed: bool, outcome: Http<()>): (r: Outcome)
    ensures !confirmed ==> r == Outcome(st, false)
    ensures confirmed ==> r.requested
    ensures confirmed && outcome.Success? ==> r.state == st.(sets := RemoveById(st.sets, id))
    ensures confirmed && outcome.Failure? ==>
      r.state == st.(error := DeleteSetFailedPrefix + outcome.err.message)
  {
    if !confirmed then Outcome(st, false)
    else match outcome
      case Success(_) => Outcome(st.(sets := RemoveById(st.sets, id)), true)
      case Failure(e) => Outcome(st.(error := DeleteSetFailedPrefix + e.message), true)
  }

  /** `handleDeleteImage(imageId)`: nothing when declined; the sets fetched
      again after a deletion; an error otherwise. */
  function DeleteImage(st: ListState, confirmed: bool, outcome: Http<()>, refetch: Http<seq<SetView>>): (r: Outcome)
    ensures !confirmed ==> r == Outcome(st, false)
    ensures confirmed ==> r.requested
    ensures confirmed && outcome.Success? ==> r.state == AfterFetch(st, refetch)
    ensures confirmed && outcome.Failure? ==>
      r.state == st.(error := DeleteImageFailedPrefix + outcome.err.message)
  {
    if !confirmed then Outcome(st, false)
    else match outcome
      case Success(_) => Outcome(AfterFetch(st, refetch), true)
      case Failure(e) => Outcome(st.(error := DeleteImageFailedPrefix + e.message), true)
  }
}

=== FILE: image_set_service.dfy ===
/** `ImageSetService` of the image-gallery back end: creating, reading,
    updating and deleting image sets and their images. The repository is a map
    from id to row; file writes and deletes are reduced to the file names they
    touch, and each `System.currentTimeMillis()` reading is an input. */
module ImageSetService {
  import opened Common
  import opened UploadPaths
  import opened Entities

  const ImageSetNotFound: string := "Image set not found"
  const ImageNotFound: string := "Image not found"

  /** `saveImageSet`: a new set owned by `uploadedBy`, with one image per DTO. */
  function SaveImageSet(
    name: string, locationName: string, locationLat: real, locationLng: real,
    capacity: string, dtos: seq<ImageDto>, uploadedBy: string, stamps: seq<nat>): (r: AssetRecord)
    requires |stamps| == |dtos|
    ensures r.name == name && r.locationName == locationName && r.capacity == capacity
    ensures r.locationLat == locationLat && r.locationLng == locationLng
    ensures r.uploadedBy == uploadedBy
    ensures |r.images| == |dtos|
    ensures forall i :: 0 <= i < |dtos| ==>
      && r.images[i].filePath == "/uploads/" + StoredFileName(stamps[i], dtos[i].file.name)
      && r.images[i].imageType == dtos[i].imageType
      && r.images[i].weather == (if dtos[i].imageType == Baseline then dtos[i].weather else None)
  {
    AssetRecord(name, locationName, locationLat, locationLng, capacity, uploadedBy,
                ImagesFromDtos(dtos, stamps))
  }

  /** `getImageSetById`. */
  function GetImageSetById(store: map<int, AssetRecord>, id: int): (r: Result<AssetRecord>)
    ensures id in store <==> r.Ok?
    ensures r.Ok? ==> r.value == store[id]
    ensures r.Err? ==> r.message == ImageSetNotFound
  {
    if id in store then Ok(store[id]) else Err(ImageSetNotFound)
  }

  /** `deleteImageSet`: removes the row and the files of all its images. */
  function DeleteImageSet(store: map<int, AssetRecord>, id: int): (r: Result<Removal<AssetRecord>>)
    ensures id in store <==> r.Ok?
    ensures r.Err? ==> r.message == ImageSetNotFound
    ensures r.Ok? ==> r.value.remaining.Keys == store.Keys - {id}
    ensures r.Ok? ==> forall k :: k in r.value.remaining ==> r.value.remaining[k] == store[k]
    ensures r.Ok? ==> |r.value.deletedFiles| == |store[id].images|
    ensures r.Ok? ==> forall i :: 0 <= i < |store[id].images| ==>
      r.value.deletedFiles[i] == StripUploads(store[id].images[i].filePath)
  {
    if id !in store then Err(ImageSetNotFound)
    else Ok(Removal(store - {id}, DeletedFiles(store[id].images)))
  }

  /** `deleteImage`: removes one image row and its file. */
  function DeleteImage(images: map<int, StoredImage>, imageId: int): (r: Result<Removal<StoredImage>>)
    ensures imageId in images <==> r.Ok?
    ensures r.Err? ==> r.message == ImageNotFound
    ensures r.Ok? ==> r.value.remaining.Keys == images.Keys - {imageId}
    ensures r.Ok? ==> forall k :: k in r.value.remaining ==> r.value.remaining[k] == images[k]
    ensures r.Ok? ==> r.value.deletedFiles == [StripUploads(images[imageId].filePath)]
  {
    if imageId !in images then Err(ImageNotFound)
    else Ok(Removal(images - {imageId}, [StripUploads(images[imageId].filePath)]))
  }

  /** The new images replace the old ones only when there is at least one. */
  predicate ReplacesImages(newImages: Option<seq<ImageDto>>) {
    newImages.Some? && |newImages.value| > 0
  }

  /** `updateImageSet`: every scalar is overwritten only by a non-null
      argument, the updater becomes the owner, and a non-empty list of new
      images replaces the existing images entirely. */
  function UpdateImageSet(
    store: map<int, AssetRecord>, id: int,
    name: Option<string>, locationName: Option<string>,
    locationLat: Option<real>, locationLng: Option<real>, capacity: Option<string>,
    newImages: Option<seq<ImageDto>>, updatedBy: string, stamps: seq<nat>): (r: Result<AssetRecord>)
    requires newImages.Some? ==> |stamps| == |newImages.value|
    ensures id in store <==> r.Ok?
    ensures r.Err? ==> r.message == ImageSetNotFound
    ensures r.Ok? ==>
      && r.value.name == name.GetOr(store[id].name)
      && r.value.locationName == locationName.GetOr(store[id].locationName)
      && r.value.locationLat == locationLat.GetOr(store[id].locationLat)
      && r.value.locationLng == locationLng.GetOr(store[id].locationLng)
      && r.value.capacity == capacity.GetOr(store[id].capacity)
      && r.value.uploadedBy == updatedBy
    ensures r.Ok? && !ReplacesImages(newImages) ==> r.value.images == store[id].images
    ensures r.Ok? && ReplacesImages(newImages) ==>
      && |r.value.images| == |newImages.value|
      && forall i :: 0 <= i < |newImages.value| ==>
           && r.value.images[i].filePath == "/uploads/" + StoredFileName(stamps[i], newImages.value[i].file.name)
           && r.value.images[i].imageType == newImages.value[i].imageType
           && (r.value.images[i].weather.Some? ==> newImages.value[i].imageType == Baseline)
           && (newImages.value[i].imageType == Baseline ==> r.value.images[i].weather == newImages.value[i].weather)
  {
    if id !in store then Err(ImageSetNotFound)
    else
      var prev := store[id];
      var images := if ReplacesImages(newImages) then ImagesFromDtos(newImages.value, stamps) else prev.images;
      Ok(AssetRecord(
        name.GetOr(prev.name),
        locationName.GetOr(prev.locationName),
        locationLat.GetOr(prev.locationLat),
        locationLng.GetOr(prev.locationLng),
        capacity.GetOr(prev.capacity),
        updatedBy,
        images))
  }

  /** Replacement discards the old images: with new images, the result does not
      depend on which images the set had before. */
  lemma UpdateForgetsOldImages(
    store: map<int, AssetRecord>, id: int, otherImages: seq<StoredImage>,
    name: Option<string>, locationName: Option<string>,
    locationLat: Option<real>, locationLng: Option<real>, capacity: Option<string>,
    newImages: Option<seq<ImageDto>>, updatedBy: string, stamps: seq<nat>)
    requires id in store
    requires ReplacesImages(newImages) && |stamps| == |newImages.value|
    ensures UpdateImageSet(store, id, name, locationName, locationLat, locationLng, capacity, newImages, updatedBy, stamps)
         == UpdateImageSet(store[id := store[id].(images := otherImages)], id, name, locationName,
                           locationLat, locationLng, capacity, newImages, updatedBy, stamps)
  {
  }

  /** Applying the same scalar update a second time changes nothing more. */
  lemma UpdateScalarsIdempotent(
    store: map<int, AssetRecord>, id: int,
    name: Option<string>, locationName: Option<string>,
    locationLat: Option<real>, locationLng: Option<real>, capacity: Option<string>,
    updatedBy: string)
    requires id in store
    ensures var once := UpdateImageSet(store, id, name, locationName, locationLat, locationLng, capacity, None, updatedBy, []);
            once.Ok? &&
            UpdateImageSet(store[id := once.value], id, name, locationName, locationLat, locationLng, capacity, None, updatedBy, [])
              == once
  {
  }

  /** Deleting a set that was saved from DTOs removes exactly the files the save
      wrote. */
  lemma DeleteAfterSaveRemovesWrittenFiles(
    store: map<int, AssetRecord>, id: int,
    name: string, locationName: string, locationLat: real, locationLng: real,
    capacity: string, dtos: seq<ImageDto>, uploadedBy: string, stamps: seq<nat>)
    requires |stamps| == |dtos|
    requires NoEmbeddedPrefix(dtos)
    ensures var saved := SaveImageSet(name, locationName, locationLat, locationLng, capacity, dtos, uploadedBy, stamps);
            var r := DeleteImageSet(store[id := saved], id);
            && r.Ok?
            && |r.value.deletedFiles| == |dtos|
            && forall i :: 0 <= i < |dtos| ==> r.value.deletedFiles[i] == StoredFileName(stamps[i], dtos[i].file.name)
  {
    DeletedFilesOfBuilt(dtos, stamps);
  }
}

=== FILE: image_set_upload.dfy ===
/** The image-set upload form of the image-gallery front end: the list of
    image slots (never empty), the checks made before anything is sent, the
    multipart payload with its three parallel lists, and the form's state
    after the request. */
module ImageSetUpload {
  import opened Common
  import opened Multipart
  import opened Entities
  import ImageSetController

  const MissingDetails: string := "Please provide name, location, and capacity"
  const MissingImageDetails: string := "Please provide all image details (weather required for Baseline)"
  const UploadFailedPrefix: string := "Failed to upload image set: "
  const Uploaded: string := "Image set uploaded successfully!"

  /** One image slot. An unpicked file is `None` (null or undefined). */
  datatype Slot = Slot(file: Option<FileHandle>, imageType: string, weather: string)

  const DefaultSlot: Slot := Slot(None, Baseline, "")

  /** The location chosen on the map; its name may be missing. */
  datatype Location = Location(name: Option<string>, lat: real, lng: real)

  datatype Form = Form(
    name: string,
    location: Option<Location>,
    capacity: string,
    slots: seq<Slot>,
    error: string,
    success: string)

  function InitialForm(): (f: Form)
    ensures f.slots == [DefaultSlot]
    ensures f.name == "" && f.capacity == "" && f.location.None?
  {
    Form("", None, "", [DefaultSlot], "", "")
  }

  // ---------------------------------------------------------------------------
  // Slot operations

  /** A change of one field of one slot: the file picker, the type select or
      the weather select. */
  datatype SlotEdit = SetFile(file: Option<FileHandle>) | SetType(imageType: string) | SetWeather(weather: string)

  function ApplyEdit(s: Slot, edit: SlotEdit): Slot {
    match edit
    case SetFile(f) => s.(file := f)
    case SetType(t) => s.(imageType := t)
    case SetWeather(w) => s.(weather := w)
  }

  /** `handleImageFieldChange(idx, field, value)`: only the named field of slot
      idx changes. The index is one of the rendered slots. */
  function ChangeSlot(slots: seq<Slot>, idx: nat, edit: SlotEdit): (r: seq<Slot>)
    requires idx < |slots|
    ensures |r| == |slots|
    ensures forall j :: 0 <= j < |r| && j != idx ==> r[j] == slots[j]
    ensures edit.SetFile? ==> r[idx] == Slot(edit.file, slots[idx].imageType, slots[idx].weather)
    ensures edit.SetType? ==> r[idx] == Slot(slots[idx].file, edit.imageType, slots[idx].weather)
    ensures edit.SetWeather? ==> r[idx] == Slot(slots[idx].file, slots[idx].imageType, edit.weather)
  {
    slots[idx := ApplyEdit(slots[idx], edit)]
  }

  /** Changing a type leaves the weather in place: a slot switched away from
      Baseline keeps its old weather value. */
  lemma TypeChangeKeepsWeather(slots: seq<Slot>, idx: nat, t: string)
    requires idx < |slots|
    ensures ChangeSlot(slots, idx, SetType(t))[idx].weather == slots[idx].weather
  {
  }

  /** `addImageField`: one default slot at the end. */
  function AddSlot(slots: seq<Slot>): (r: seq<Slot>)
    ensures |r| == |slots| + 1
    ensures r[..|slots|] == slots
    ensures r[|slots|] == DefaultSlot
  {
    slots + [DefaultSlot]
  }

  /** `removeImageField(idx)`: nothing on a single slot, otherwise every slot
      but idx, in order (an index past the end removes nothing). */
  function RemoveSlot(slots: seq<Slot>, idx: nat): (r: seq<Slot>)
    ensures |slots| <= 1 ==> r == slots
    ensures |slots| > 1 && idx < |slots| ==>
      |r| == |slots| - 1 && r == slots[..idx] + slots[idx + 1..]
    ensures |slots| > 1 && idx >= |slots| ==> r == slots
  {
    if |slots| == 1 then slots
    else if idx < |slots| then slots[..idx] + slots[idx + 1..]
    else slots
  }

  /** The slot list never becomes empty. */
  lemma RemoveKeepsOneSlot(slots: seq<Slot>, idx: nat)
    requires |slots| >= 1
    ensures |RemoveSlot(slots, idx)| >= 1
  {
  }

  /** Removing the slot just added gives the list back. */
  lemma RemoveUndoesAdd(slots: seq<Slot>)
    requires |slots| >= 1
    ensures RemoveSlot(AddSlot(slots), |slots|) == slots
  {
    assert AddSlot(slots)[..|slots|] == slots;
  }

  // ---------------------------------------------------------------------------
  // Submit

  /** A slot the image checks reject: no file, no type, or Baseline without a
      weather condition. */
  predicate Incomplete(s: Slot) {
    s.file.None? || s.imageType == "" || (s.imageType == Baseline && s.weather == "")
  }

  /** The checks of `handleSubmit`, in order; `None` when the form may be sent. */
  function Validate(f: Form): (r: Option<string>)
    ensures r == Some(MissingDetails) <==> f.name == "" || f.location.None? || f.capacity == ""
    ensures r == Some(MissingImageDetails) <==>
      f.name != "" && f.location.Some? && f.capacity != "" && exists i :: 0 <= i < |f.slots| && Incomplete(f.slots[i])
    ensures r.None? ==> f.location.Some? && forall i :: 0 <= i < |f.slots| ==> !Incomplete(f.slots[i])
  {
    if f.name == "" || f.location.None? || f.capacity == "" then Some(MissingDetails)
    else if exists i :: 0 <= i < |f.slots| && Incomplete(f.slots[i]) then Some(MissingImageDetails)
    else None
  }

  /** The weather sent for a slot: its condition for Baseline, "" otherwise. */
  function SentWeather(s: Slot): string {
    if s.imageType == Baseline then s.weather else ""
  }

  /** The three parts appended for each slot, slot by slot. */
  function SlotParts(slots: seq<Slot>): FormData
    requires forall i :: 0 <= i < |slots| ==> slots[i].file.Some?
  {
    if |slots| == 0 then []
    else
      [Part("images", Blob(slots[0].file.value)),
       TextPart("types", slots[0].imageType),
       TextPart("weatherConditions", SentWeather(slots[0]))]
      + SlotParts(slots[1..])
  }

  /** The multipart payload of a form that passed the checks. */
  function Payload(f: Form): FormData
    requires f.location.Some?
    requires forall i :: 0 <= i < |f.slots| ==> f.slots[i].file.Some?
  {
    [TextPart("name", f.name),
     TextPart("locationName", f.location.value.name.GetOr("")),
     Part("locationLat", Coord(Some(f.location.value.lat))),
     Part("locationLng", Coord(Some(f.location.value.lng))),
     TextPart("capacity", f.capacity)]
    + SlotParts(f.slots)
  }

  /** On the wire the slots follow one another, each as its file, its type
      and its sent weather. */
  lemma {:induction false} SlotPartsLayout(slots: seq<Slot>)
    requires forall i :: 0 <= i < |slots| ==> slots[i].file.Some?
    ensures |SlotParts(slots)| == 3 * |slots|
    ensures forall i :: 0 <= i < |slots| ==>
      && SlotParts(slots)[3 * i] == Part("images", Blob(slots[i].file.value))
      && SlotParts(slots)[3 * i + 1] == TextPart("types", slots[i].imageType)
      && SlotParts(slots)[3 * i + 2] == TextPart("weatherConditions", SentWeather(slots[i]))
  {
    if |slots| > 0 {
      var rest := slots[1..];
      SlotPartsLayout(rest);
      var head := SlotParts(slots)[..3];
      assert SlotParts(slots) == head + SlotParts(rest);
      forall i | 1 <= i < |slots|
        ensures && SlotParts(slots)[3 * i] == Part("images", Blob(slots[i].file.value))
                && SlotParts(slots)[3 * i + 1] == TextPart("types", slots[i].imageType)
                && SlotParts(slots)[3 * i + 2] == TextPart("weatherConditions", SentWeather(slots[i]))
      {
        assert slots[i] == rest[i - 1];
        assert 3 * i == 3 + 3 * (i - 1);
      }
    }
  }

  /** Read back by name, the slot parts are three lists as long as the slot
      list, in slot order; no other name occurs. */
  lemma {:induction false} SlotPartsLists(slots: seq<Slot>)
    requires forall i :: 0 <= i < |slots| ==> slots[i].file.Some?
    ensures var fd := SlotParts(slots);
      && |GetAll(fd, "images")| == |slots|
      && |GetAll(fd, "types")| == |slots|
      && |GetAll(fd, "weatherConditions")| == |slots|
      && forall i :: 0 <= i < |slots| ==>
           && GetAll(fd, "images")[i] == Blob(slots[i].file.value)
           && GetAll(fd, "types")[i] == Text(slots[i].imageType)
           && GetAll(fd, "weatherConditions")[i] == Text(SentWeather(slots[i]))
    ensures forall key :: key != "images" && key != "types" && key != "weatherConditions" ==>
      GetAll(SlotParts(slots), key) == []
  {
    if |slots| > 0 {
      var p1 := Part("images", Blob(slots[0].file.value));
      var p2 := TextPart("types", slots[0].imageType);
      var p3 := TextPart("weatherConditions", SentWeather(slots[0]));
      var rest := SlotParts(slots[1..]);
      SlotPartsLists(slots[1..]);
      assert SlotParts(slots) == [p1] + ([p2] + ([p3] + rest));
      forall key
        ensures GetAll(SlotParts(slots), key)
                == (if key == "images" then [p1.value] else if key == "types" then [p2.value]
                    else if key == "weatherConditions" then [p3.value] else []) + GetAll(rest, key)
      {
        GetAllCons(p1, [p2] + ([p3] + rest), key);
        GetAllCons(p2, [p3] + rest, key);
        GetAllCons(p3, rest, key);
      }
    }
  }

  /** The payload on the wire: the five fields of the set, then the slots in
      order, each as its file, its type and its sent weather. */
  lemma PayloadLayout(f: Form)
    requires f.location.Some?
    requires forall i :: 0 <= i < |f.slots| ==> f.slots[i].file.Some?
    ensures |Payload(f)| == 5 + 3 * |f.slots|
    ensures Payload(f)[0] == TextPart("name", f.name)
    ensures Payload(f)[1] == TextPart("locationName", f.location.value.name.GetOr(""))
    ensures Payload(f)[2] == Part("locationLat", Coord(Some(f.location.value.lat)))
    ensures Payload(f)[3] == Part("locationLng", Coord(Some(f.location.value.lng)))
    ensures Payload(f)[4] == TextPart("capacity", f.capacity)
    ensures forall i :: 0 <= i < |f.slots| ==>
      && Payload(f)[5 + 3 * i] == Part("images", Blob(f.slots[i].file.value))
      && Payload(f)[5 + 3 * i + 1] == TextPart("types", f.slots[i].imageType)
      && Payload(f)[5 + 3 * i + 2] == TextPart("weatherConditions", SentWeather(f.slots[i]))
  {
    SlotPartsLayout(f.slots);
    var parts := SlotParts(f.slots);
    assert forall j :: 0 <= j < |parts| ==> Payload(f)[5 + j] == parts[j];
  }

  /** The payload's lists: one image, one type and one weather per slot, in
      slot order, and the weather is "" for every non-Baseline slot whatever
      the slot still holds. */
  lemma PayloadLists(f: Form)
    requires f.location.Some?
    requires forall i :: 0 <= i < |f.slots| ==> f.slots[i].file.Some?
    ensures var fd := Payload(f);
      && |GetAll(fd, "images")| == |f.slots|
      && |GetAll(fd, "types")| == |f.slots|
      && |GetAll(fd, "weatherConditions")| == |f.slots|
      && forall i :: 0 <= i < |f.slots| ==>
           && GetAll(fd, "images")[i] == Blob(f.slots[i].file.value)
           && GetAll(fd, "types")[i] == Text(f.slots[i].imageType)
           && GetAll(fd, "weatherConditions")[i] == Text(if f.slots[i].imageType == Baseline then f.slots[i].weather else "")
  {
    var head: FormData :=
      [TextPart("name", f.name),
       TextPart("locationName", f.location.value.name.GetOr("")),
       Part("locationLat", Coord(Some(f.location.value.lat))),
       Part("locationLng", Coord(Some(f.location.value.lng))),
       TextPart("capacity", f.capacity)];
    SlotPartsLists(f.slots);
    forall key | key == "images" || key == "types" || key == "weatherConditions"
      ensures GetAll(Payload(f), key) == GetAll(SlotParts(f.slots), key)
    {
      GetAllAppend(head, SlotParts(f.slots), key);
      HasIffGetAll(head, key);
      assert GetAll(head, key) == [];
    }
  }

  /** The slots' files, in slot order. */
  function SlotFiles(slots: seq<Slot>): (r: seq<FileHandle>)
    requires forall i :: 0 <= i < |slots| ==> slots[i].file.Some?
    ensures |r| == |slots| && forall i :: 0 <= i < |slots| ==> r[i] == slots[i].file.value
  {
    seq(|slots|, i requires 0 <= i < |slots| => slots[i].file.value)
  }

  /** The slots' types, in slot order. */
  function SlotTypes(slots: seq<Slot>): (r: seq<string>)
    ensures |r| == |slots| && forall i :: 0 <= i < |slots| ==> r[i] == slots[i].imageType
  {
    seq(|slots|, i requires 0 <= i < |slots| => slots[i].imageType)
  }

  /** The weathers sent for the slots, in slot order. */
  function SentWeathers(slots: seq<Slot>): (r: seq<string>)
    ensures |r| == |slots| && forall i :: 0 <= i < |slots| ==> r[i] == SentWeather(slots[i])
  {
    seq(|slots|, i requires 0 <= i < |slots| => SentWeather(slots[i]))
  }

  /** The server reads a form's lists as sent: there are several slots, or the
      one slot's type, and its weather when it is a Baseline slot, are texts
      the single-value split keeps as they are. */
  predicate BindsPlainly(slots: seq<Slot>) {
    |slots| != 1 || (PlainText(slots[0].imageType) && (slots[0].imageType == Baseline ==> PlainText(slots[0].weather)))
  }

  /** The three list parameters the image-set back end binds from an accepted
      upload body: the files, and the types and sent weathers as Spring binds
      a list of texts. */
  lemma PayloadParams(f: Form)
    requires Validate(f).None?
    ensures var fd := Payload(f);
      && FileParam(fd, "images") == (if |f.slots| == 0 then None else Some(SlotFiles(f.slots)))
      && TextParam(fd, "types") == (if |f.slots| == 0 then None else Some(BindTexts(SlotTypes(f.slots))))
      && TextParam(fd, "weatherConditions") == (if |f.slots| == 0 then None else Some(BindTexts(SentWeathers(f.slots))))
  {
    var fd := Payload(f);
    var files := SlotFiles(f.slots);
    PayloadLists(f);
    assert GetAll(fd, "images") == BlobValues(files);
    assert GetAll(fd, "types") == TextValues(SlotTypes(f.slots));
    assert GetAll(fd, "weatherConditions") == TextValues(SentWeathers(f.slots));
    FileParamOfValues(fd, "images", files);
    TextParamOfValues(fd, "types", SlotTypes(f.slots));
    TextParamOfValues(fd, "weatherConditions", SentWeathers(f.slots));
  }

  /** How the image-set back end binds an accepted upload body that it reads
      as sent: one DTO per slot, in slot order, carrying the slot's file and
      type, and for a Baseline slot its weather condition. */
  lemma UploadBoundByServer(f: Form)
    requires Validate(f).None?
    requires |f.slots| > 0
    ensures var fd := Payload(f);
      var images := FileParam(fd, "images");
      var types := TextParam(fd, "types");
      && images.Some? && types.Some?
      && (BindsPlainly(f.slots) ==>
           var r := ImageSetController.ZipUploadFrom(images.value, types.value, TextParam(fd, "weatherConditions"), 0);
           && r.Ok? && |r.value| == |f.slots|
           && forall k :: 0 <= k < |f.slots| ==>
                && r.value[k].file == f.slots[k].file.value
                && r.value[k].imageType == f.slots[k].imageType
                && (f.slots[k].imageType == Baseline ==> r.value[k].weather == Some(f.slots[k].weather)))
  {
    PayloadParams(f);
    if BindsPlainly(f.slots) {
      BindTextsUnchanged(SlotTypes(f.slots));
      if |f.slots| == 1 && f.slots[0].imageType != Baseline {
        assert SentWeathers(f.slots) == [""];
        assert BindTexts(SentWeathers(f.slots)) == [];
      } else {
        BindTextsUnchanged(SentWeathers(f.slots));
      }
    }
  }

  /** A form with a single Baseline slot: the server splits its weather at
      commas and keeps the first piece, trimmed, so "rain, wind" is saved as
      "rain" and " rain " as "rain". */
  lemma LoneBaselineSlotWeather(f: Form)
    requires Validate(f).None?
    requires |f.slots| == 1 && f.slots[0].imageType == Baseline
    ensures var fd := Payload(f);
      && FileParam(fd, "images") == Some([f.slots[0].file.value])
      && TextParam(fd, "types") == Some([Baseline])
      && |SplitParam(f.slots[0].weather)| >= 1
      && ImageSetController.ZipUploadFrom([f.slots[0].file.value], [Baseline], TextParam(fd, "weatherConditions"), 0)
         == Ok([ImageDto(f.slots[0].file.value, Baseline, Some(SplitParam(f.slots[0].weather)[0]))])
  {
    LonePayloadParams(f);
    ImageSetController.BaselineBindsAsItself();
    assert f.slots[0].weather != "" by { assert !Incomplete(f.slots[0]); }
    ImageSetController.ZipUploadOne(f.slots[0].file.value, Baseline, Some(SplitParam(f.slots[0].weather)));
  }

  /** The parameters bound from a form with a single slot. */
  lemma LonePayloadParams(f: Form)
    requires Validate(f).None?
    requires |f.slots| == 1
    ensures var fd := Payload(f);
      && FileParam(fd, "images") == Some([f.slots[0].file.value])
      && TextParam(fd, "types") == Some(BindTexts([f.slots[0].imageType]))
      && TextParam(fd, "weatherConditions") == Some(BindTexts([SentWeather(f.slots[0])]))
  {
    PayloadParams(f);
    assert SlotTypes(f.slots) == [f.slots[0].imageType];
    assert SlotFiles(f.slots) == [f.slots[0].file.value];
    assert SentWeathers(f.slots) == [SentWeather(f.slots[0])];
  }

  /** What a submit leads to: the next form, the payload sent (if any), and
      whether the parent's `onUpload` callback was called. */
  datatype Submission = Submission(form: Form, sent: Option<FormData>, notified: bool)

  /** `handleSubmit`, given the outcome of the POST and whether the parent
      passed `onUpload`. */
  function Submit(f: Form, outcome: Http<()>, hasOnUpload: bool): (r: Submission)
    ensures Validate(f).Some? ==>
      r.sent.None? && !r.notified && r.form == f.(error := Validate(f).value)
    ensures Validate(f).None? ==> r.sent == Some(Payload(f))
    ensures Validate(f).None? && outcome.Success? ==>
      && r.form == InitialForm().(success := Uploaded)
      && r.notified == hasOnUpload
    ensures Validate(f).None? && outcome.Failure? ==>
      && r.form == f.(error := UploadFailedPrefix + ServerOrOwnMessage(outcome.err), success := "")
      && !r.notified
  {
    match Validate(f)
    case Some(msg) => Submission(f.(error := msg), None, false)
    case None =>
      var fd := Payload(f);
      match outcome
      case Success(_) => Submission(InitialForm().(success := Uploaded), Some(fd), hasOnUpload)
      case Failure(e) => Submission(f.(error := UploadFailedPrefix + ServerOrOwnMessage(e), success := ""), Some(fd), false)
  }

  /** After a successful upload the form is back at its start: a single
      default slot, and nothing entered. */
  lemma SuccessResetsForm(f: Form, hasOnUpload: bool)
    requires Validate(f).None?
    ensures var r := Submit(f, Success(()), hasOnUpload);
            r.form.slots == [DefaultSlot] && r.form.name == "" && r.form.capacity == "" && r.form.location.None?
            && r.form.error == ""
  {
  }
}

=== FILE: image_upload.dfy ===
/** The single-image upload form of the image-gallery front end: the file
    picker with its preview, the check made before sending, the two-part
    payload, and the form after the request. */
module ImageUpload {
  import opened Common
  import opened Multipart
  import ImageService

  const MissingInput: string := "Please provide both name and image"
  const UploadFailedPrefix: string := "Failed to upload image: "
  const Uploaded: string := "Image uploaded successfully!"

  datatype UploadForm = UploadForm(
    name: string,
    file: Option<FileHandle>,
    preview: Option<string>,
    error: string,
    success: string)

  function InitialForm(): (f: UploadForm)
    ensures f.name == "" && f.file.None? && f.preview.None? && f.error == "" && f.success == ""
  {
    UploadForm("", None, None, "", "")
  }

  /** `handleFileChange`: the first chosen file; its data URL becomes the
      preview once read, and choosing nothing clears the preview. */
  function ChooseFile(f: UploadForm, chosen: Option<FileHandle>, dataUrl: string): (r: UploadForm)
    ensures r.file == chosen
    ensures chosen.None? ==> r.preview.None?
    ensures chosen.Some? ==> r.preview == Some(dataUrl)
    ensures r.name == f.name && r.error == f.error && r.success == f.success
  {
    if chosen.Some? then f.(file := chosen, preview := Some(dataUrl)) else f.(file := None, preview := None)
  }

  /** The multipart body: exactly the name and the file. */
  function Payload(name: string, file: FileHandle): (r: FormData)
    ensures |r| == 2 && forall i :: 0 <= i < |r| ==> r[i].key in {"name", "file"}
  {
    [TextPart("name", name), Part("file", Blob(file))]
  }

  /** The body carries the name under "name", the file under "file", and
      nothing else; the image controller therefore binds both. */
  lemma PayloadRead(name: string, file: FileHandle, key: string)
    ensures GetAll(Payload(name, file), key)
            == if key == "name" then [Text(name)] else if key == "file" then [Blob(file)] else []
    ensures SingleText(Payload(name, file), "name") == Some(name)
    ensures SingleFile(Payload(name, file), "file") == Some(file)
  {
    var fd := Payload(name, file);
    assert fd == [fd[0]] + ([fd[1]] + []);
    GetAllCons(fd[0], [fd[1]] + [], key);
    GetAllCons(fd[1], [], key);
    GetAllCons(fd[0], [fd[1]] + [], "name");
    GetAllCons(fd[1], [], "name");
    GetAllCons(fd[0], [fd[1]] + [], "file");
    GetAllCons(fd[1], [], "file");
    SingleTextOfOne(fd, "name", name);
  }

  /** What the request leads to: the next form, the body sent (if any), and
      whether the parent's `onUpload` callback was called. */
  datatype Submission = Submission(form: UploadForm, sent: Option<FormData>, notified: bool)

  /** `handleSubmit`: an empty name or no file stops with a message and sends
      nothing; otherwise both messages are cleared and the request is made. */
  function Submit(f: UploadForm, outcome: Http<()>, hasOnUpload: bool): (r: Submission)
    ensures f.name == "" || f.file.None? ==>
      r == Submission(f.(error := MissingInput), None, false)
    ensures f.name != "" && f.file.Some? ==> r.sent == Some(Payload(f.name, f.file.value))
    ensures f.name != "" && f.file.Some? && outcome.Success? ==>
      && r.form == UploadForm("", None, None, "", Uploaded)
      && r.notified == hasOnUpload
    ensures f.name != "" && f.file.Some? && outcome.Failure? ==>
      && r.form == f.(error := UploadFailedPrefix + ServerOrOwnMessage(outcome.err), success := "")
      && !r.notified
  {
    if !Truthy(f.name) || f.file.None? then Submission(f.(error := MissingInput), None, false)
    else
      var sent := Payload(f.name, f.file.value);
      match outcome
      case Success(_) => Submission(UploadForm("", None, None, "", Uploaded), Some(sent), hasOnUpload)
      case Failure(e) =>
        Submission(f.(error := UploadFailedPrefix + ServerOrOwnMessage(e), success := ""), Some(sent), false)
  }

  /** A successful upload leaves the form as first rendered, apart from the
      success message; the image the service saves has the typed name. */
  lemma UploadRoundTrip(f: UploadForm, hasOnUpload: bool, stamp: nat)
    requires f.name != "" && f.file.Some?
    ensures Submit(f, Success(()), hasOnUpload).form == InitialForm().(success := Uploaded)
    ensures var fd := Submit(f, Success(()), hasOnUpload).sent.value;
            SingleText(fd, "name").Some? && SingleFile(fd, "file").Some?
            && ImageService.SaveImage(SingleText(fd, "name").value, SingleFile(fd, "file").value, stamp).name == f.name
  {
    PayloadRead(f.name, f.file.value, "name");
  }
}

=== FILE: inspection_list.dfy ===
/** The state of the inspection list screen and how it reacts to the fetch,
    the search box, the search-field and sort dropdowns, the pagination
    controls and a record deletion. Each state is the one reached once the
    filter/sort effect has run: whenever the records, the search term, the
    search field or the sort configuration change, the shown list is
    recomputed and the first page is shown. Setting a search term or field to
    the value it already has does not re-render, so nothing is recomputed. */
module InspectionList {
  import opened Common
  import opened InspectionRecords
  import opened RecordSort
  import opened Pagination

  const FetchFailed: string := "Failed to fetch inspection records"
  const DeleteFailed: string := "Failed to delete inspection record"

  datatype ListState = ListState(
    records: seq<ListRecord>,
    searchTerm: string,
    searchField: SearchField,
    sortConfig: SortConfig,
    filtered: seq<ListRecord>,
    currentPage: int,
    error: string)

  /** Search, then sort. */
  function Pipeline(records: seq<ListRecord>, term: string, field: SearchField, cfg: SortConfig): seq<ListRecord> {
    SortRecords(cfg, SearchFilter(records, term, field))
  }

  /** The shown list is ordered by the sort configuration and holds each
      matching record as often as the fetched list does, and nothing else. */
  lemma PipelineContents(records: seq<ListRecord>, term: string, field: SearchField, cfg: SortConfig, x: ListRecord)
    ensures SortedBy(cfg, Pipeline(records, term, field, cfg))
    ensures multiset(Pipeline(records, term, field, cfg))[x]
            == if term == "" || Matches(field, term, x) then multiset(records)[x] else 0
  {
  }

  /** The shown list is the pipeline over the current inputs, and the current
      page is one that exists (page 1 for an empty list). */
  predicate Valid(st: ListState) {
    && st.filtered == Pipeline(st.records, st.searchTerm, st.searchField, st.sortConfig)
    && 1 <= st.currentPage
    && (|st.filtered| > 0 ==> st.currentPage <= TotalPages(|st.filtered|))
  }

  function Initial(): (st: ListState)
    ensures Valid(st)
    ensures st.currentPage == 1 && st.searchTerm == "" && st.searchField == NameField && st.sortConfig == InitialSort
  {
    ListState([], "", NameField, InitialSort, [], 1, "")
  }

  datatype ListEvent =
    | Fetched(outcome: Http<seq<ListRecord>>)
    | SearchTyped(term: string)
    | FieldChosen(field: SearchField)
    | SortChosen(key: SortKey)
    | PagePressed(control: PageControl)
    | DeleteFinished(deleted: bool, refetch: Http<seq<ListRecord>>)
    | ClearFilters

  /** The state right after the effect: the shown list recomputed from the
      inputs and the first page shown. */
  predicate Settled(st: ListState) {
    st.filtered == Pipeline(st.records, st.searchTerm, st.searchField, st.sortConfig) && st.currentPage == 1
  }

  /** The effect: recompute the shown list and go back to the first page. */
  function Settle(st: ListState): (r: ListState)
    ensures Settled(r)
    ensures r.records == st.records && r.searchTerm == st.searchTerm
    ensures r.searchField == st.searchField && r.sortConfig == st.sortConfig && r.error == st.error
  {
    st.(filtered := Pipeline(st.records, st.searchTerm, st.searchField, st.sortConfig), currentPage := 1)
  }

  /** Whether an event changes one of the effect's inputs. */
  predicate Resets(st: ListState, ev: ListEvent) {
    || ev.Fetched?
    || (ev.SearchTyped? && ev.term != st.searchTerm)
    || (ev.FieldChosen? && ev.field != st.searchField)
    || ev.SortChosen?
    || (ev.DeleteFinished? && ev.deleted)
    || (ev.ClearFilters? && st.searchTerm != "")
  }

  /** `fetchTransformerRecords`: the records on success, none and an error on
      failure. */
  function AfterFetch(st: ListState, outcome: Http<seq<ListRecord>>): (r: ListState)
    ensures Settled(r)
    ensures r.records == (if outcome.Success? then outcome.data else [])
    ensures r.error == (if outcome.Success? then "" else FetchFailed)
    ensures r.searchTerm == st.searchTerm && r.searchField == st.searchField && r.sortConfig == st.sortConfig
  {
    match outcome
    case Success(data) => Settle(st.(records := data, error := ""))
    case Failure(_) => Settle(st.(records := [], error := FetchFailed))
  }

  /** A pagination control moves to another page of the same list. */
  function AfterPress(st: ListState, c: PageControl): (r: ListState)
    ensures r == st.(currentPage := r.currentPage)
    ensures !Enabled(c, st.currentPage, TotalPages(|st.filtered|)) ==> r == st
    ensures Valid(st) ==> Valid(r)
  {
    var total := TotalPages(|st.filtered|);
    if Valid(st) && |st.filtered| > 0 then PressStaysInRange(c, st.currentPage, total); st.(currentPage := Press(c, st.currentPage, total))
    else st.(currentPage := Press(c, st.currentPage, total))
  }

  function Step(st: ListState, ev: ListEvent): (r: ListState)
    ensures Resets(st, ev) ==> Settled(r)
    ensures ev.PagePressed? ==> r == st.(currentPage := Press(ev.control, st.currentPage, TotalPages(|st.filtered|)))
  {
    match ev
    case Fetched(outcome) => AfterFetch(st, outcome)
    case SearchTyped(t) => if t == st.searchTerm then st else Settle(st.(searchTerm := t))
    case FieldChosen(f) => if f == st.searchField then st else Settle(st.(searchField := f))
    case SortChosen(key) => Settle(st.(sortConfig := RequestSort(st.sortConfig, key)))
    case PagePressed(c) => AfterPress(st, c)
    case DeleteFinished(deleted, refetch) =>
      if deleted then AfterFetch(st, refetch) else st.(error := DeleteFailed)
    case ClearFilters => if st.searchTerm == "" then st else Settle(st.(searchTerm := ""))
  }

  /** What each event does besides recomputing the list: an event that
      changes none of the effect's inputs leaves the shown list alone, a fetch
      replaces the
      records and sets or clears the error, a sort request applies
      `requestSort`, a failed deletion only reports an error, and retyping the
      current search term or choosing the current field changes nothing. */
  lemma StepEffects(st: ListState, ev: ListEvent)
    ensures var r := Step(st, ev);
      && (!Resets(st, ev) ==>
            && r.records == st.records && r.filtered == st.filtered
            && r.searchTerm == st.searchTerm && r.searchField == st.searchField && r.sortConfig == st.sortConfig)
      && (ev.Fetched? ==>
            && r.records == (if ev.outcome.Success? then ev.outcome.data else [])
            && r.error == (if ev.outcome.Success? then "" else FetchFailed))
      && (ev.SortChosen? ==> r.sortConfig == RequestSort(st.sortConfig, ev.key))
      && (ev.DeleteFinished? && !ev.deleted ==> r == st.(error := DeleteFailed))
      && (!ev.PagePressed? && !Resets(st, ev) && !ev.DeleteFinished? ==> r == st)
  {
  }

  /** A new sort request always differs from the current configuration. */
  lemma RequestSortChanges(current: SortConfig, key: SortKey)
    ensures RequestSort(current, key) != current
  {
  }

  /** Every event keeps the shown list equal to the pipeline over the current
      inputs and the current page within range. */
  lemma StepPreservesValid(st: ListState, ev: ListEvent)
    requires Valid(st)
    ensures Valid(Step(st, ev))
  {
    if ev.PagePressed? {
      var total := TotalPages(|st.filtered|);
      if |st.filtered| > 0 {
        PressStaysInRange(ev.control, st.currentPage, total);
      }
    }
  }

  /** The records shown on the current page. */
  function Visible(st: ListState): (r: seq<ListRecord>)
    requires Valid(st)
    ensures |r| <= ItemsPerPage
  {
    PageSlice(st.filtered, st.currentPage)
  }

  /** Everything shown is a fetched record that matches the search. */
  lemma VisibleRecordsMatch(st: ListState, x: ListRecord)
    requires Valid(st)
    requires x in Visible(st)
    ensures x in st.records
    ensures st.searchTerm == "" || Matches(st.searchField, st.searchTerm, x)
  {
    PageSliceMember(st.filtered, st.currentPage, x);
    assert x in multiset(st.filtered);
    PipelineContents(st.records, st.searchTerm, st.searchField, st.sortConfig, x);
  }

  /** Pagination controls never change which records are listed or their
      order, only which page of them is shown. */
  lemma PagingKeepsList(st: ListState, c: PageControl)
    ensures var r := Step(st, PagePressed(c));
            r.filtered == st.filtered && r.records == st.records && r.error == st.error
  {
  }
}

=== FILE: inspection_records.dfy ===
/** The transformer records as the inspection list receives them, the
    "last update" key derived from their images, and the search filter of
    `InspectionList`. Timestamps are abstract, totally ordered integers. */
module InspectionRecords {
  import opened Common

  datatype Uploader = Uploader(displayName: Option<string>)

  datatype RecordImage = RecordImage(uploadTime: int)

  /** A record of `GET /api/transformer-records`; `images` and `uploadedBy` may
      be missing from the JSON. */
  datatype ListRecord = ListRecord(
    id: int,
    name: string,
    createdAt: int,
    images: Option<seq<RecordImage>>,
    uploadedBy: Option<Uploader>)

  /** The latest upload time among non-empty images (the first element after
      sorting by upload time, newest first). */
  function LatestUpload(images: seq<RecordImage>): (m: int)
    requires |images| > 0
    ensures exists i :: 0 <= i < |images| && images[i].uploadTime == m
    ensures forall i :: 0 <= i < |images| ==> images[i].uploadTime <= m
  {
    if |images| == 1 then images[0].uploadTime
    else
      var rest := LatestUpload(images[1..]);
      assert forall i :: 1 <= i < |images| ==> images[i] == images[1..][i - 1];
      if images[0].uploadTime >= rest then images[0].uploadTime else rest
  }

  predicate HasImages(r: ListRecord) {
    r.images.Some? && |r.images.value| > 0
  }

  /** `getMostRecentUpdate`: the creation time when the record has no images,
      otherwise the latest upload time among its images. */
  function MostRecentUpdate(r: ListRecord): (t: int)
    ensures !HasImages(r) ==> t == r.createdAt
    ensures HasImages(r) ==>
      && (exists i :: 0 <= i < |r.images.value| && r.images.value[i].uploadTime == t)
      && (forall i :: 0 <= i < |r.images.value| ==> r.images.value[i].uploadTime <= t)
  {
    if !HasImages(r) then r.createdAt else LatestUpload(r.images.value)
  }

  // ---------------------------------------------------------------------------
  // Search

  /** The field the search box applies to. The dropdown offers "name" and
      "admin"; any other value keeps every record. */
  datatype SearchField = NameField | AdminField | OtherField(text: string)

  /** The filter callback for a non-empty search term. */
  predicate Matches(field: SearchField, term: string, r: ListRecord) {
    match field
    case NameField => Contains(Lower(r.name), Lower(term))
    case AdminField =>
      && r.uploadedBy.Some?
      && r.uploadedBy.value.displayName.Some?
      && Contains(Lower(r.uploadedBy.value.displayName.value), Lower(term))
    case OtherField(_) => true
  }

  /** The search ignores the case of the term, and the empty term matches
      every record that has the searched field. */
  lemma MatchesIgnoresCase(field: SearchField, term: string, r: ListRecord)
    ensures Matches(field, Lower(term), r) <==> Matches(field, term, r)
    ensures Matches(NameField, "", r)
    ensures Matches(AdminField, "", r) <==> r.uploadedBy.Some? && r.uploadedBy.value.displayName.Some?
  {
    assert Lower(Lower(term)) == Lower(term);
  }

  /** The search step of the list pipeline: nothing is filtered for an empty
      term; otherwise the matching records are kept, in order. */
  function SearchFilter(records: seq<ListRecord>, term: string, field: SearchField): (r: seq<ListRecord>)
    ensures term == "" ==> r == records
    ensures forall i :: 0 <= i < |r| ==> term == "" || Matches(field, term, r[i])
    ensures forall x :: multiset(r)[x] == if term == "" || Matches(field, term, x) then multiset(records)[x] else 0
  {
    if term == "" then records else Filter(records, x => Matches(field, term, x))
  }

  /** Searching by name keeps exactly the records whose lower-cased name
      contains the lower-cased term. */
  lemma SearchByName(records: seq<ListRecord>, term: string, x: ListRecord)
    requires term != ""
    ensures x in SearchFilter(records, term, NameField) <==> x in records && Contains(Lower(x.name), Lower(term))
  {
    FilterMembership(records, y => Matches(NameField, term, y), x);
  }

  /** Searching by administrator drops every record without an uploader
      display name. */
  lemma SearchByAdminNeedsDisplayName(records: seq<ListRecord>, term: string, x: ListRecord)
    requires term != ""
    requires x.uploadedBy.None? || x.uploadedBy.value.displayName.None?
    ensures x !in SearchFilter(records, term, AdminField)
  {
    FilterMembership(records, y => Matches(AdminField, term, y), x);
  }

  /** Any other search field keeps the whole list, in order. */
  lemma {:induction false} SearchOtherFieldKeepsAll(records: seq<ListRecord>, term: string, other: string)
    ensures SearchFilter(records, term, OtherField(other)) == records
  {
    if term != "" && |records| > 0 {
      assert records == [records[0]] + records[1..];
      FilterAppend([records[0]], records[1..], x => Matches(OtherField(other), term, x));
      SearchOtherFieldKeepsAll(records[1..], term, other);
    }
  }

  /** The filter keeps relative order: filtering a concatenation filters each
      part. */
  lemma SearchKeepsOrder(a: seq<ListRecord>, b: seq<ListRecord>, term: string, field: SearchField)
    ensures SearchFilter(a + b, term, field) == SearchFilter(a, term, field) + SearchFilter(b, term, field)
  {
    if term != "" {
      FilterAppend(a, b, x => Matches(field, term, x));
    }
  }
}

=== FILE: inspection_service.dfy ===
/** `InspectionService` of the transformer-manager back end: an inspection is
    attached to an existing transformer record and carries its own
    maintenance images. */
module InspectionService {
  import opened Common
  import opened UploadPaths
  import opened Entities

  const RecordNotFound: string := "Transformer record not found"
  const InspectionNotFound: string := "Inspection not found"

  /** An `Inspection` row. The date is the ISO text of the `LocalDate`. */
  datatype Inspection = Inspection(
    record: AssetRecord,
    conductedBy: string,
    inspectionDate: string,
    notes: Option<string>,
    images: seq<StoredImage>)

  /** The maintenance image row built for one uploaded file; no weather. */
  function MaintenanceImage(file: FileHandle, stamp: nat): StoredImage {
    StoredImage(PublicPath(stamp, file.name), Maintenance, None)
  }

  /** The files of a possibly-null `maintenanceImages` list. */
  function FilesOf(files: Option<seq<FileHandle>>): seq<FileHandle> {
    files.GetOr([])
  }

  /** `createInspection`: fails before touching any file when the record is
      missing; otherwise one Maintenance image per file, in order. A null or
      empty list gives an empty (not null) image list. */
  function CreateInspection(
    records: map<int, AssetRecord>, recordId: int, inspectionDate: string,
    notes: Option<string>, files: Option<seq<FileHandle>>, conductedBy: string,
    stamps: seq<nat>): (r: Result<Inspection>)
    requires |stamps| == |FilesOf(files)|
    ensures recordId in records <==> r.Ok?
    ensures r.Err? ==> r.message == RecordNotFound
    ensures r.Ok? ==>
      && r.value.record == records[recordId]
      && r.value.conductedBy == conductedBy
      && r.value.inspectionDate == inspectionDate
      && r.value.notes == notes
    ensures r.Ok? ==> |r.value.images| == |FilesOf(files)|
    ensures r.Ok? ==> forall i :: 0 <= i < |r.value.images| ==>
      && r.value.images[i].imageType == Maintenance
      && r.value.images[i].weather.None?
      && r.value.images[i].filePath == "/uploads/" + StoredFileName(stamps[i], FilesOf(files)[i].name)
  {
    if recordId !in records then Err(RecordNotFound)
    else
      var fs := FilesOf(files);
      var images := seq(|fs|, i requires 0 <= i < |fs| => MaintenanceImage(fs[i], stamps[i]));
      Ok(Inspection(records[recordId], conductedBy, inspectionDate, notes, images))
  }

  /** `getInspectionById`. */
  function GetInspectionById(store: map<int, Inspection>, id: int): (r: Result<Inspection>)
    ensures id in store <==> r.Ok?
    ensures r.Ok? ==> r.value == store[id]
    ensures r.Err? ==> r.message == InspectionNotFound
  {
    if id in store then Ok(store[id]) else Err(InspectionNotFound)
  }

  /** `deleteInspection`: removes the row and the files of its images. */
  function DeleteInspection(store: map<int, Inspection>, id: int): (r: Result<Removal<Inspection>>)
    ensures id in store <==> r.Ok?
    ensures r.Err? ==> r.message == InspectionNotFound
    ensures r.Ok? ==> r.value.remaining.Keys == store.Keys - {id}
    ensures r.Ok? ==> forall k :: k in r.value.remaining ==> r.value.remaining[k] == store[k]
    ensures r.Ok? ==> |r.value.deletedFiles| == |store[id].images|
    ensures r.Ok? ==> forall i :: 0 <= i < |store[id].images| ==>
      r.value.deletedFiles[i] == StripUploads(store[id].images[i].filePath)
  {
    if id !in store then Err(InspectionNotFound)
    else Ok(Removal(store - {id}, DeletedFiles(store[id].images)))
  }

  /** Deleting a freshly created inspection removes exactly the files its
      creation wrote. */
  lemma DeleteAfterCreateRemovesWrittenFiles(
    records: map<int, AssetRecord>, recordId: int, inspectionDate: string,
    notes: Option<string>, files: seq<FileHandle>, conductedBy: string,
    stamps: seq<nat>, store: map<int, Inspection>, id: int)
    requires recordId in records
    requires |stamps| == |files|
    requires forall i :: 0 <= i < |files| ==> !Contains(files[i].name, UploadsPrefix)
    ensures var c := CreateInspection(records, recordId, inspectionDate, notes, Some(files), conductedBy, stamps);
            c.Ok? &&
            var d := DeleteInspection(store[id := c.value], id);
            && d.Ok?
            && |d.value.deletedFiles| == |files|
            && forall i :: 0 <= i < |files| ==> d.value.deletedFiles[i] == StoredFileName(stamps[i], files[i].name)
  {
    var c := CreateInspection(records, recordId, inspectionDate, notes, Some(files), conductedBy, stamps);
    forall i | 0 <= i < |files|
      ensures DeletedFiles(c.value.images)[i] == StoredFileName(stamps[i], files[i].name)
    {
      StripPublicPath(stamps[i], files[i].name);
    }
  }
}

=== FILE: inspection_upload.dfy ===
/** The new-inspection form of the transformer-manager front end: a list of
    image slots with no minimum length, the two checks made before anything
    is sent, the multipart payload (unfilled slots are skipped), the message
    shown on failure, and whether cancelling asks for confirmation. */
module InspectionUpload {
  import opened Common
  import opened Multipart
  import opened UploadPaths
  import opened Entities
  import InspectionService

  const AuthRequired: string := "Authentication required. Please log in again."
  const DateRequired: string := "Please select an inspection date"
  const SessionExpired: string := "Session expired. Please log in again."
  const CreateFailed: string := "Failed to create inspection"
  const Created: string := "Inspection created successfully!"

  /** An image slot: `null` when added, `undefined` when the file dialog was
      closed without a choice, or a picked file. */
  datatype SlotValue = Null | Undefined | Picked(file: FileHandle)

  datatype UploadForm = UploadForm(
    transformerId: string,
    inspectionDate: string,
    notes: string,
    images: seq<SlotValue>,
    error: string,
    success: string)

  /** The form as first rendered: today's date, no notes, no slots. */
  function InitialForm(transformerId: string, today: string): (f: UploadForm)
    ensures f.images == [] && f.notes == "" && f.inspectionDate == today
  {
    UploadForm(transformerId, today, "", [], "", "")
  }

  // ---------------------------------------------------------------------------
  // Slot operations

  /** `addImageField`: one null slot at the end. */
  function AddSlot(images: seq<SlotValue>): (r: seq<SlotValue>)
    ensures |r| == |images| + 1 && r[..|images|] == images && r[|images|] == Null
  {
    images + [Null]
  }

  /** `removeImageField(index)`: `splice(index, 1)` removes slot index when it
      exists, so the list may become empty; a larger index removes nothing. */
  function RemoveSlot(images: seq<SlotValue>, index: nat): (r: seq<SlotValue>)
    ensures index < |images| ==> |r| == |images| - 1
    ensures index < |images| ==> forall j :: 0 <= j < |r| ==> r[j] == (if j < index then images[j] else images[j + 1])
    ensures index >= |images| ==> r == images
  {
    if index < |images| then images[..index] + images[index + 1..] else images
  }

  /** A single slot can be removed: there is no minimum. */
  lemma RemoveLastSlotEmpties(v: SlotValue)
    ensures RemoveSlot([v], 0) == []
  {
  }

  /** `handleFileChange(index, e)`: slot index takes the first chosen file, or
      `undefined` when none was chosen. The index is a rendered slot. */
  function ChooseFile(images: seq<SlotValue>, index: nat, chosen: Option<FileHandle>): (r: seq<SlotValue>)
    requires index < |images|
    ensures |r| == |images|
    ensures forall j :: 0 <= j < |r| && j != index ==> r[j] == images[j]
    ensures r[index] == (if chosen.Some? then Picked(chosen.value) else Undefined)
  {
    images[index := if chosen.Some? then Picked(chosen.value) else Undefined]
  }

  // ---------------------------------------------------------------------------
  // Submit

  /** The files of the filled slots, in slot order. */
  function PickedFiles(images: seq<SlotValue>): (r: seq<FileHandle>)
    ensures |r| <= |images|
  {
    if |images| == 0 then []
    else (if images[0].Picked? then [images[0].file] else []) + PickedFiles(images[1..])
  }

  /** Every slot's file is sent exactly when every slot is filled, and then
      file i is the file of slot i. */
  lemma {:induction false} PickedFilesAllFilled(images: seq<SlotValue>)
    ensures |PickedFiles(images)| == |images| <==> forall i :: 0 <= i < |images| ==> images[i].Picked?
    ensures (forall i :: 0 <= i < |images| ==> images[i].Picked?) ==>
      forall i :: 0 <= i < |images| ==> PickedFiles(images)[i] == images[i].file
  {
    if |images| > 0 {
      var rest := images[1..];
      PickedFilesAllFilled(rest);
      assert forall i :: 1 <= i < |images| ==> images[i] == rest[i - 1];
    }
  }

  /** A single slot contributes its file when it holds one, and nothing
      otherwise. */
  lemma PickedFilesOne(v: SlotValue)
    ensures PickedFiles([v]) == if v.Picked? then [v.file] else []
  {
  }

  /** The slots are read in order: the files of a concatenation are the files
      of the first part followed by those of the second. */
  lemma {:induction false} PickedFilesAppend(a: seq<SlotValue>, b: seq<SlotValue>)
    ensures PickedFiles(a + b) == PickedFiles(a) + PickedFiles(b)
  {
    if |a| > 0 {
      var head: seq<FileHandle> := if a[0].Picked? then [a[0].file] else [];
      assert (a + b)[0] == a[0];
      assert (a + b)[1..] == a[1..] + b;
      assert PickedFiles(a + b) == head + PickedFiles(a[1..] + b);
      assert PickedFiles(a) == head + PickedFiles(a[1..]);
      PickedFilesAppend(a[1..], b);
      assert head + (PickedFiles(a[1..]) + PickedFiles(b)) == (head + PickedFiles(a[1..])) + PickedFiles(b);
    } else {
      assert a + b == b;
    }
  }

  /** A file is sent exactly when some slot holds it. */
  lemma {:induction false} PickedFilesMembership(images: seq<SlotValue>, f: FileHandle)
    ensures f in PickedFiles(images) <==> Picked(f) in images
  {
    if |images| > 0 {
      PickedFilesMembership(images[1..], f);
      assert images == [images[0]] + images[1..];
    }
  }

  /** The three text fields sent with every submission. */
  function TextFields(f: UploadForm): FormData {
    [TextPart("transformerRecordId", f.transformerId),
     TextPart("inspectionDate", f.inspectionDate),
     TextPart("notes", f.notes)]
  }

  /** The payload: the record id, the date and the notes, always; then one
      "images" part per filled slot. */
  function Payload(f: UploadForm): (r: FormData)
    ensures |r| == 3 + |PickedFiles(f.images)|
    ensures forall i :: 0 <= i < |r| ==> r[i].key in {"transformerRecordId", "inspectionDate", "notes", "images"}
    ensures forall i :: 3 <= i < |r| ==> r[i] == Part("images", Blob(PickedFiles(f.images)[i - 3]))
  {
    TextFields(f) + BlobParts("images", PickedFiles(f.images))
  }

  lemma TextFieldsRead(f: UploadForm, key: string)
    ensures GetAll(TextFields(f), key)
            == (if key == "transformerRecordId" then [Text(f.transformerId)]
                else if key == "inspectionDate" then [Text(f.inspectionDate)]
                else if key == "notes" then [Text(f.notes)]
                else [])
  {
    var h := TextFields(f);
    assert h == [h[0]] + ([h[1]] + ([h[2]] + []));
    GetAllCons(h[0], [h[1]] + ([h[2]] + []), key);
    GetAllCons(h[1], [h[2]] + [], key);
    GetAllCons(h[2], [], key);
  }

  /** Read back, the payload's images are exactly the filled slots' files, in
      order, and the three text fields are each sent once. */
  lemma PayloadContents(f: UploadForm)
    ensures GetAll(Payload(f), "images") == BlobValues(PickedFiles(f.images))
    ensures GetAll(Payload(f), "transformerRecordId") == [Text(f.transformerId)]
    ensures GetAll(Payload(f), "inspectionDate") == [Text(f.inspectionDate)]
    ensures GetAll(Payload(f), "notes") == [Text(f.notes)]
  {
    var files := PickedFiles(f.images);
    BlobPartsRead("images", files, "images");
    TextFieldsRead(f, "images");
    GetAllAppend(TextFields(f), BlobParts("images", files), "images");
    forall key | key == "transformerRecordId" || key == "inspectionDate" || key == "notes"
      ensures GetAll(Payload(f), key) == GetAll(TextFields(f), key)
    {
      GetAllAppend(TextFields(f), BlobParts("images", files), key);
      BlobPartsRead("images", files, key);
    }
    TextFieldsRead(f, "transformerRecordId");
    TextFieldsRead(f, "inspectionDate");
    TextFieldsRead(f, "notes");
  }

  /** The message shown when the request fails: a 403 means the session
      expired; otherwise the server's message, or a generic one. */
  function FailureMessage(e: HttpError): (m: string)
    ensures e.status == Some(403) ==> m == SessionExpired
    ensures e.status != Some(403) && e.serverMessage.Some? && e.serverMessage.value != "" ==> m == e.serverMessage.value
    ensures e.status != Some(403) && (e.serverMessage.None? || e.serverMessage.value == "") ==> m == CreateFailed
  {
    if e.status == Some(403) then SessionExpired else OrElse(e.serverMessage, CreateFailed)
  }

  datatype Submission = Submission(form: UploadForm, sent: Option<FormData>, redirect: Option<string>)

  /** The list page the form returns to after creating an inspection. */
  function ListPath(transformerId: string): string {
    "/inspections/list/" + transformerId
  }

  /** `handleSubmit`: the token is checked first, the date second; a request
      is sent only when both pass. */
  function Submit(f: UploadForm, token: Option<string>, outcome: Http<()>): (r: Submission)
    ensures token.None? || token.value == "" ==>
      r == Submission(f.(error := AuthRequired), None, None)
    ensures token.Some? && token.value != "" && f.inspectionDate == "" ==>
      r == Submission(f.(error := DateRequired), None, None)
    ensures token.Some? && token.value != "" && f.inspectionDate != "" ==>
      && r.sent == Some(Payload(f))
      && (outcome.Success? ==> r.form == f.(error := "", success := Created) && r.redirect == Some(ListPath(f.transformerId)))
      && (outcome.Failure? ==> r.form == f.(error := FailureMessage(outcome.err), success := "") && r.redirect.None?)
  {
    if token.None? || !Truthy(token.value) then Submission(f.(error := AuthRequired), None, None)
    else if !Truthy(f.inspectionDate) then Submission(f.(error := DateRequired), None, None)
    else
      match outcome
      case Success(_) => Submission(f.(error := "", success := Created), Some(Payload(f)), Some(ListPath(f.transformerId)))
      case Failure(e) => Submission(f.(error := FailureMessage(e), success := ""), Some(Payload(f)), None)
  }

  /** What the back end makes of a submitted form. `createInspection` binds
      the record id, the date and the notes as single texts and the images
      as a list of files; Spring's conversion of the id text gives the
      record's number back. The inspection is created exactly when the record
      exists, with the form's date and notes and one weatherless Maintenance
      image per filled slot, in slot order. */
  lemma CreateBoundByServer(
    f: UploadForm, token: Option<string>, outcome: Http<()>,
    records: map<int, AssetRecord>, recordId: nat, conductedBy: string, stamps: seq<nat>)
    requires f.transformerId == NatToString(recordId)
    requires |stamps| == |PickedFiles(f.images)|
    ensures var s := Submit(f, token, outcome);
      s.sent.Some? ==>
        var fd := s.sent.value;
        var files := PickedFiles(f.images);
        && SingleText(fd, "transformerRecordId") == Some(NatToString(recordId))
        && SingleText(fd, "inspectionDate") == Some(f.inspectionDate)
        && SingleText(fd, "notes") == Some(f.notes)
        && FileParam(fd, "images") == (if |files| == 0 then None else Some(files))
        && var c := InspectionService.CreateInspection(
             records, recordId, f.inspectionDate, SingleText(fd, "notes"), FileParam(fd, "images"), conductedBy, stamps);
           && (c.Ok? <==> recordId in records)
           && (c.Ok? ==>
                 && c.value.inspectionDate == f.inspectionDate
                 && c.value.notes == Some(f.notes)
                 && |c.value.images| == |files|
                 && forall i :: 0 <= i < |files| ==>
                      c.value.images[i] == StoredImage(PublicPath(stamps[i], files[i].name), Maintenance, None))
  {
    var s := Submit(f, token, outcome);
    if s.sent.Some? {
      var fd := s.sent.value;
      assert fd == Payload(f);
      PayloadContents(f);
      SingleTextOfOne(fd, "transformerRecordId", f.transformerId);
      SingleTextOfOne(fd, "inspectionDate", f.inspectionDate);
      SingleTextOfOne(fd, "notes", f.notes);
      FileParamOfValues(fd, "images", PickedFiles(f.images));
    }
  }

  // ---------------------------------------------------------------------------
  // Cancel

  datatype CancelOutcome = AskConfirmation | NavigateTo(path: string)

  /** Unsaved input: notes, or a slot that is not null (an `undefined` slot
      counts, since `undefined !== null`). */
  predicate Dirty(f: UploadForm) {
    f.notes != "" || exists i :: 0 <= i < |f.images| && f.images[i] != Null
  }

  /** `handleCancel`. */
  function Cancel(f: UploadForm): (r: CancelOutcome)
    ensures r == AskConfirmation <==> f.notes != "" || (exists i :: 0 <= i < |f.images| && f.images[i] != Null)
    ensures r.NavigateTo? ==> r.path == ListPath(f.transformerId)
  {
    if Dirty(f) then AskConfirmation else NavigateTo(ListPath(f.transformerId))
  }

  /** A freshly opened form, or one whose slots were all added and left
      empty, cancels without asking. */
  lemma EmptySlotsCancelDirectly(f: UploadForm)
    requires f.notes == ""
    requires forall i :: 0 <= i < |f.images| ==> f.images[i] == Null
    ensures Cancel(f.(images := AddSlot(f.images))) == NavigateTo(ListPath(f.transformerId))
  {
  }
}

=== FILE: multipart.dfy ===
/** A browser `FormData`: an ordered list of (name, value) parts, where several
    parts may share a name. The server reads all parts of one name, in order,
    as a list parameter. */
module Multipart {
  import opened Common

  /** A part's value: text, a file, or a coordinate that may be null (which
      `FormData.append` would turn into the text "null"). */
  datatype Value = Text(text: string) | Blob(file: FileHandle) | Coord(coord: Option<real>)

  datatype Part = Part(key: string, value: Value)

  type FormData = seq<Part>

  /** `formData.getAll(key)`: the values of every part named key, in order. */
  function GetAll(fd: FormData, key: string): (r: seq<Value>)
    ensures |r| <= |fd|
  {
    if |fd| == 0 then []
    else if fd[0].key == key then [fd[0].value] + GetAll(fd[1..], key)
    else GetAll(fd[1..], key)
  }

  /** `formData.has(key)`. */
  predicate Has(fd: FormData, key: string) {
    exists i :: 0 <= i < |fd| && fd[i].key == key
  }

  /** Reading a name back splits over appended parts. */
  lemma {:induction false} GetAllAppend(a: FormData, b: FormData, key: string)
    ensures GetAll(a + b, key) == GetAll(a, key) + GetAll(b, key)
  {
    if |a| == 0 {
      assert a + b == b;
    } else {
      assert (a + b)[1..] == a[1..] + b;
      GetAllAppend(a[1..], b, key);
    }
  }

  /** Reading a name back from a part followed by others. */
  lemma GetAllCons(p: Part, rest: FormData, key: string)
    ensures GetAll([p] + rest, key) == (if p.key == key then [p.value] else []) + GetAll(rest, key)
  {
    assert ([p] + rest)[1..] == rest;
  }

  /** A name is present exactly when reading it back yields something. */
  lemma {:induction false} HasIffGetAll(fd: FormData, key: string)
    ensures Has(fd, key) <==> |GetAll(fd, key)| > 0
  {
    if |fd| > 0 {
      HasIffGetAll(fd[1..], key);
      if Has(fd[1..], key) {
        var i :| 0 <= i < |fd[1..]| && fd[1..][i].key == key;
        assert fd[i + 1].key == key;
      }
      if Has(fd, key) && fd[0].key != key {
        var i :| 0 <= i < |fd| && fd[i].key == key;
        assert fd[1..][i - 1].key == key;
      }
    }
  }

  function TextPart(key: string, s: string): Part {
    Part(key, Text(s))
  }

  /** The texts of a list of values (file and coordinate values are skipped),
      as Spring binds a `String[]`/`List<String>` parameter. */
  function Texts(vs: seq<Value>): seq<string> {
    if |vs| == 0 then []
    else if vs[0].Text? then [vs[0].text] + Texts(vs[1..])
    else Texts(vs[1..])
  }

  /** The files of a list of values, as Spring binds a `MultipartFile[]`. */
  function Files(vs: seq<Value>): seq<FileHandle> {
    if |vs| == 0 then []
    else if vs[0].Blob? then [vs[0].file] + Files(vs[1..])
    else Files(vs[1..])
  }

  /** An optional `String[]`/`List<String>` parameter: absent (null) when no
      part carries the name, otherwise the texts as Spring binds them. */
  function TextParam(fd: FormData, key: string): (r: Option<seq<string>>)
    ensures r.None? <==> |GetAll(fd, key)| == 0
    ensures r.Some? && |Texts(GetAll(fd, key))| != 1 ==> r.value == Texts(GetAll(fd, key))
    ensures r.Some? && |Texts(GetAll(fd, key))| == 1 ==> r.value == SplitParam(Texts(GetAll(fd, key))[0])
  {
    if |GetAll(fd, key)| == 0 then None else Some(BindTexts(Texts(GetAll(fd, key))))
  }

  function FileParam(fd: FormData, key: string): Option<seq<FileHandle>> {
    if |GetAll(fd, key)| == 0 then None else Some(Files(GetAll(fd, key)))
  }

  /** How Spring binds a single `String` parameter: null when no text part
      carries the name, the text when one does, and the texts joined with
      commas when several do. */
  function SingleText(fd: FormData, key: string): (r: Option<string>)
    ensures r.None? <==> |Texts(GetAll(fd, key))| == 0
    ensures |Texts(GetAll(fd, key))| == 1 ==> r == Some(Texts(GetAll(fd, key))[0])
    ensures r.Some? && (forall i :: 0 <= i < |Texts(GetAll(fd, key))| ==> ',' !in Texts(GetAll(fd, key))[i]) ==>
      CommaPieces(r.value) == Texts(GetAll(fd, key))
  {
    var ts := Texts(GetAll(fd, key));
    if |ts| == 0 then None
    else if forall i :: 0 <= i < |ts| ==> ',' !in ts[i] then
      JoinCommaPieces(ts);
      Some(JoinComma(ts))
    else Some(JoinComma(ts))
  }

  /** A name carried by exactly one text part binds to that text. */
  lemma SingleTextOfOne(fd: FormData, key: string, s: string)
    requires GetAll(fd, key) == [Text(s)]
    ensures SingleText(fd, key) == Some(s)
  {
    assert Texts([Text(s)]) == [s];
  }

  /** How Spring binds a single `MultipartFile` parameter: null when the part
      is absent, its first file otherwise. */
  function SingleFile(fd: FormData, key: string): Option<FileHandle> {
    var vs := GetAll(fd, key);
    if |vs| > 0 && vs[0].Blob? then Some(vs[0].file) else None
  }

  /** The values of `formData.append(key, s)` for each s in order. */
  function TextValues(ss: seq<string>): (r: seq<Value>)
    ensures |r| == |ss| && forall i :: 0 <= i < |ss| ==> r[i] == Text(ss[i])
  {
    seq(|ss|, i requires 0 <= i < |ss| => Text(ss[i]))
  }

  function BlobValues(fs: seq<FileHandle>): (r: seq<Value>)
    ensures |r| == |fs| && forall i :: 0 <= i < |fs| ==> r[i] == Blob(fs[i])
  {
    seq(|fs|, i requires 0 <= i < |fs| => Blob(fs[i]))
  }

  /** One part named key per string, in order (a `forEach` of appends). */
  function TextParts(key: string, ss: seq<string>): (r: FormData)
    ensures |r| == |ss| && forall i :: 0 <= i < |ss| ==> r[i] == Part(key, Text(ss[i]))
  {
    seq(|ss|, i requires 0 <= i < |ss| => Part(key, Text(ss[i])))
  }

  /** One part named key per file, in order. */
  function BlobParts(key: string, fs: seq<FileHandle>): (r: FormData)
    ensures |r| == |fs| && forall i :: 0 <= i < |fs| ==> r[i] == Part(key, Blob(fs[i]))
  {
    seq(|fs|, i requires 0 <= i < |fs| => Part(key, Blob(fs[i])))
  }

  /** Reading back a run of text parts gives the strings under their own name
      and nothing under any other. */
  lemma {:induction false} TextPartsRead(key: string, ss: seq<string>, k: string)
    ensures GetAll(TextParts(key, ss), k) == if k == key then TextValues(ss) else []
  {
    if |ss| > 0 {
      var head := Part(key, Text(ss[0]));
      var rest := TextParts(key, ss[1..]);
      TextPartsRead(key, ss[1..], k);
      assert TextParts(key, ss) == [head] + rest by {
        assert forall i :: 1 <= i < |ss| ==> TextParts(key, ss)[i] == rest[i - 1];
      }
      GetAllCons(head, rest, k);
      if k == key {
        assert TextValues(ss) == [Text(ss[0])] + TextValues(ss[1..]) by {
          assert forall i :: 1 <= i < |ss| ==> TextValues(ss)[i] == TextValues(ss[1..])[i - 1];
        }
      }
    }
  }

  lemma {:induction false} BlobPartsRead(key: string, fs: seq<FileHandle>, k: string)
    ensures GetAll(BlobParts(key, fs), k) == if k == key then BlobValues(fs) else []
  {
    if |fs| > 0 {
      var head := Part(key, Blob(fs[0]));
      var rest := BlobParts(key, fs[1..]);
      BlobPartsRead(key, fs[1..], k);
      assert BlobParts(key, fs) == [head] + rest by {
        assert forall i :: 1 <= i < |fs| ==> BlobParts(key, fs)[i] == rest[i - 1];
      }
      GetAllCons(head, rest, k);
      if k == key {
        assert BlobValues(fs) == [Blob(fs[0])] + BlobValues(fs[1..]) by {
          assert forall i :: 1 <= i < |fs| ==> BlobValues(fs)[i] == BlobValues(fs[1..])[i - 1];
        }
      }
    }
  }

  /** Binding text values back to a string list recovers the strings. */
  lemma {:induction false} TextsOfTextValues(ss: seq<string>)
    ensures Texts(TextValues(ss)) == ss
  {
    if |ss| > 0 {
      TextsOfTextValues(ss[1..]);
      assert TextValues(ss)[1..] == TextValues(ss[1..]);
    }
  }

  /** Binding file values back to a file list recovers the files. */
  lemma {:induction false} FilesOfBlobValues(fs: seq<FileHandle>)
    ensures Files(BlobValues(fs)) == fs
  {
    if |fs| > 0 {
      FilesOfBlobValues(fs[1..]);
      assert BlobValues(fs)[1..] == BlobValues(fs[1..]);
    }
  }

  // ---------------------------------------------------------------------------
  // Spring's conversions between one text and a list of texts

  /** `StringUtils.delimitedListToStringArray(s, ",")` for a non-empty text:
      the pieces between commas, one more than there are commas, with no
      comma in any piece. */
  function CommaPieces(s: string): (r: seq<string>)
    ensures |r| >= 1
    ensures forall i :: 0 <= i < |r| ==> ',' !in r[i]
    decreases |s|
  {
    if |s| == 0 then [""]
    else
      var rest := CommaPieces(s[1..]);
      if s[0] == ',' then [""] + rest
      else [[s[0]] + rest[0]] + rest[1..]
  }

  /** The pieces joined with commas, as `String.join(",", pieces)`. */
  function JoinComma(ss: seq<string>): string
  {
    if |ss| == 0 then ""
    else if |ss| == 1 then ss[0]
    else ss[0] + "," + JoinComma(ss[1..])
  }

  /** Joining the pieces of a text gives the text back. */
  lemma {:induction false} CommaPiecesJoin(s: string)
    ensures JoinComma(CommaPieces(s)) == s
    decreases |s|
  {
    if |s| > 0 {
      var rest := CommaPieces(s[1..]);
      CommaPiecesJoin(s[1..]);
      if s[0] == ',' {
        assert s == [','] + s[1..];
      } else if |rest| == 1 {
        assert s == [s[0]] + s[1..];
      } else {
        assert JoinComma(rest) == rest[0] + "," + JoinComma(rest[1..]);
        var head := [s[0]] + rest[0];
        assert ([head] + rest[1..])[1..] == rest[1..];
        assert s == [s[0]] + s[1..];
      }
    }
  }

  /** A text with no comma is a single piece. */
  lemma {:induction false} CommaPiecesNoComma(a: string)
    requires ',' !in a
    ensures CommaPieces(a) == [a]
    decreases |a|
  {
    if |a| > 0 {
      assert ',' !in a[1..] by {
        assert forall i :: 0 <= i < |a[1..]| ==> a[1..][i] == a[i + 1];
      }
      CommaPiecesNoComma(a[1..]);
      assert [a[0]] + a[1..] == a;
    }
  }

  /** A comma ends a piece that holds no comma. */
  lemma {:induction false} CommaPiecesAfter(a: string, t: string)
    requires ',' !in a
    ensures CommaPieces(a + "," + t) == [a] + CommaPieces(t)
    decreases |a|
  {
    if |a| == 0 {
      assert a + "," + t == [','] + t;
      assert (a + "," + t)[1..] == t;
    } else {
      assert ',' !in a[1..] by {
        assert forall i :: 0 <= i < |a[1..]| ==> a[1..][i] == a[i + 1];
      }
      CommaPiecesAfter(a[1..], t);
      assert (a + "," + t)[1..] == a[1..] + "," + t;
      assert [a[0]] + a[1..] == a;
    }
  }

  /** Splitting comma-joined pieces that hold no comma gives the pieces back. */
  lemma {:induction false} JoinCommaPieces(ss: seq<string>)
    requires |ss| >= 1
    requires forall i :: 0 <= i < |ss| ==> ',' !in ss[i]
    ensures CommaPieces(JoinComma(ss)) == ss
  {
    if |ss| == 1 {
      CommaPiecesNoComma(ss[0]);
    } else {
      JoinCommaPieces(ss[1..]);
      CommaPiecesAfter(ss[0], JoinComma(ss[1..]));
      assert [ss[0]] + ss[1..] == ss;
    }
  }

  /** Java's white space for `String.trim`: every character up to U+0020. */
  predicate JavaSpace(c: char) {
    c <= ' '
  }

  /** The text with its leading Java white space removed. */
  function TrimStart(s: string): (r: string)
    ensures |r| <= |s| && r == s[|s| - |r|..]
    ensures forall i :: 0 <= i < |s| - |r| ==> JavaSpace(s[i])
    ensures |r| > 0 ==> !JavaSpace(r[0])
    decreases |s|
  {
    if |s| > 0 && JavaSpace(s[0]) then TrimStart(s[1..]) else s
  }

  /** The text with its trailing Java white space removed. */
  function TrimEnd(s: string): (r: string)
    ensures |r| <= |s| && r == s[..|r|]
    ensures forall i :: |r| <= i < |s| ==> JavaSpace(s[i])
    ensures |r| > 0 ==> !JavaSpace(r[|r| - 1])
    decreases |s|
  {
    if |s| > 0 && JavaSpace(s[|s| - 1]) then TrimEnd(s[..|s| - 1]) else s
  }

  /** Java's `String.trim`: the result starts and ends with a character that is
      not white space, and a text that already does is kept. */
  function JavaTrim(s: string): (r: string)
    ensures |r| <= |s|
    ensures |r| > 0 ==> !JavaSpace(r[0]) && !JavaSpace(r[|r| - 1])
    ensures |s| > 0 && !JavaSpace(s[0]) && !JavaSpace(s[|s| - 1]) ==> r == s
    ensures IsJavaBlank(s) <==> r == ""
  {
    TrimEnd(TrimStart(s))
  }

  /** Every character is Java white space. */
  predicate IsJavaBlank(s: string) {
    forall i :: 0 <= i < |s| ==> JavaSpace(s[i])
  }

  /** Spring's conversion of a single text to a `String[]`/`List<String>`: the
      empty text gives no element; any other gives its comma-separated pieces,
      each trimmed. */
  function SplitParam(s: string): (r: seq<string>)
    ensures s == "" <==> |r| == 0
    ensures s != "" ==> |r| == |CommaPieces(s)|
    ensures forall i :: 0 <= i < |r| ==> ',' !in r[i]
  {
    if s == "" then []
    else
      var pieces := CommaPieces(s);
      seq(|pieces|, i requires 0 <= i < |pieces| => JavaTrim(pieces[i]))
  }

  /** A text Spring passes through a list conversion unchanged: non-empty, no
      comma, and no white space at either end. */
  predicate PlainText(s: string) {
    s != "" && ',' !in s && !JavaSpace(s[0]) && !JavaSpace(s[|s| - 1])
  }

  /** A plain text binds as the one-element list holding it. */
  lemma PlainTextSplitsToItself(s: string)
    requires PlainText(s)
    ensures SplitParam(s) == [s]
  {
    CommaPiecesNoComma(s);
  }

  /** A single value listing two plain texts, such as "rain, wind", binds as
      the two texts: the comma splits it and the space after the comma is
      trimmed. */
  lemma SplitParamPair(a: string, c: string)
    requires PlainText(a) && PlainText(c)
    ensures SplitParam(a + ", " + c) == [a, c]
  {
    SpacedPairPieces(a, c);
    SplitParamTwo(a + ", " + c, a, " " + c);
    TrimLeadingSpace(c);
    assert JavaTrim(a) == a;
  }

  /** A text of two comma pieces binds as the two pieces, trimmed. */
  lemma SplitParamTwo(s: string, x: string, y: string)
    requires s != "" && CommaPieces(s) == [x, y]
    ensures SplitParam(s) == [JavaTrim(x), JavaTrim(y)]
  {
    var r := SplitParam(s);
    assert |r| == 2;
    assert r[0] == JavaTrim(x) && r[1] == JavaTrim(y);
  }

  /** Two comma-free texts joined by ", " fall apart at the comma. */
  lemma SpacedPairPieces(a: string, c: string)
    requires ',' !in a && ',' !in c
    ensures CommaPieces(a + ", " + c) == [a, " " + c]
  {
    var b := " " + c;
    assert ',' !in b by {
      assert forall i :: 1 <= i < |b| ==> b[i] == c[i - 1];
    }
    assert a + ", " + c == a + "," + b;
    CommaPiecesAfter(a, b);
    CommaPiecesNoComma(b);
  }

  /** Trimming drops one leading space in front of a plain text. */
  lemma TrimLeadingSpace(c: string)
    requires PlainText(c)
    ensures JavaTrim(" " + c) == c
  {
    var b := " " + c;
    assert b[1..] == c;
    assert TrimStart(b) == TrimStart(c) == c;
  }

  /** The values a list parameter receives: several texts are kept as they
      are, and a single text goes through the comma split. */
  function BindTexts(ts: seq<string>): (r: seq<string>)
    ensures |ts| != 1 ==> r == ts
    ensures |ts| == 1 ==> r == SplitParam(ts[0])
  {
    if |ts| == 1 then SplitParam(ts[0]) else ts
  }

  /** A list of texts binds unchanged unless it is a single text that is not
      plain. */
  lemma BindTextsUnchanged(ts: seq<string>)
    requires |ts| != 1 || PlainText(ts[0])
    ensures BindTexts(ts) == ts
  {
    if |ts| == 1 {
      PlainTextSplitsToItself(ts[0]);
    }
  }

  /** A name carried by a run of text parts binds to those texts as a list
      parameter. */
  lemma TextParamOfValues(fd: FormData, key: string, ss: seq<string>)
    requires GetAll(fd, key) == TextValues(ss)
    ensures TextParam(fd, key) == if |ss| == 0 then None else Some(BindTexts(ss))
  {
    TextsOfTextValues(ss);
  }

  /** A name carried by a run of file parts binds to those files. */
  lemma FileParamOfValues(fd: FormData, key: string, fs: seq<FileHandle>)
    requires GetAll(fd, key) == BlobValues(fs)
    ensures FileParam(fd, key) == if |fs| == 0 then None else Some(fs)
  {
    FilesOfBlobValues(fs);
  }
}

=== FILE: pagination.dfy ===
/** Pagination of the inspection list: six records a page, the slice shown
    for a page, the page count, the window of page buttons (first, last, and
    the neighbours of the current page, with an ellipsis marking each gap),
    and the effect of the pagination controls on the current page. */
module Pagination {
  import opened Common

  const ItemsPerPage: nat := 6

  function Min(a: int, b: int): int { if a <= b then a else b }

  function Max(a: int, b: int): int { if a >= b then a else b }

  /** `Math.ceil(n / itemsPerPage)`: the fewest pages that hold n records. */
  function TotalPages(n: nat): (t: nat)
    ensures t * ItemsPerPage >= n
    ensures t == 0 || (t - 1) * ItemsPerPage < n
    ensures t == 0 <==> n == 0
  {
    (n + ItemsPerPage - 1) / ItemsPerPage
  }

  /** The bar is rendered only when there is more than one page, that is,
      when there are more records than fit on one page. */
  lemma BarShownIffMoreThanOnePage(n: nat)
    ensures TotalPages(n) > 1 <==> n > ItemsPerPage
  {
  }

  /** `filteredRecords.slice((page - 1) * 6, page * 6)`: the records of one
      page, clipped to the end of the list. */
  function PageSlice<T>(s: seq<T>, page: nat): (r: seq<T>)
    requires page >= 1
    ensures |r| <= ItemsPerPage
    ensures (page - 1) * ItemsPerPage >= |s| ==> r == []
    ensures (page - 1) * ItemsPerPage < |s| ==>
      |r| == Min(ItemsPerPage, |s| - (page - 1) * ItemsPerPage)
    ensures forall k :: 0 <= k < |r| ==> r[k] == s[(page - 1) * ItemsPerPage + k]
  {
    var first := (page - 1) * ItemsPerPage;
    var last := page * ItemsPerPage;
    if first >= |s| then [] else s[first..Min(last, |s|)]
  }

  /** Whatever a page shows is a record of the list. */
  lemma PageSliceMember<T>(s: seq<T>, page: nat, x: T)
    requires page >= 1
    requires x in PageSlice(s, page)
    ensures x in s
  {
    var r := PageSlice(s, page);
    var k :| 0 <= k < |r| && r[k] == x;
    assert (page - 1) * ItemsPerPage + k < |s|;
    assert s[(page - 1) * ItemsPerPage + k] == x;
  }

  /** Pages 1 to k, one after the other. */
  function FirstPages<T>(s: seq<T>, k: nat): seq<T> {
    if k == 0 then [] else FirstPages(s, k - 1) + PageSlice(s, k)
  }

  lemma {:induction false} FirstPagesArePrefix<T>(s: seq<T>, k: nat)
    ensures FirstPages(s, k) == s[..Min(k * ItemsPerPage, |s|)]
  {
    if k > 0 {
      FirstPagesArePrefix(s, k - 1);
      var lo := Min((k - 1) * ItemsPerPage, |s|);
      var hi := Min(k * ItemsPerPage, |s|);
      assert s[..hi] == s[..lo] + s[lo..hi];
    }
  }

  /** Reading every page in order shows every record exactly once, in list
      order. */
  lemma PagesCoverList<T>(s: seq<T>)
    ensures FirstPages(s, TotalPages(|s|)) == s
  {
    FirstPagesArePrefix(s, TotalPages(|s|));
  }

  /** Record i is shown on page i / 6 + 1, at position i % 6, and that page
      exists. */
  lemma RecordOnItsPage<T>(s: seq<T>, i: nat)
    requires i < |s|
    ensures 1 <= i / ItemsPerPage + 1 <= TotalPages(|s|)
    ensures var p := PageSlice(s, i / ItemsPerPage + 1);
            i % ItemsPerPage < |p| && p[i % ItemsPerPage] == s[i]
  {
  }

  // ---------------------------------------------------------------------------
  // The page window

  datatype PageItem = PageNumber(page: int) | PageEllipsis(page: int)

  /** A page gets a numbered button: the first, the last, and the pages next
      to the current one. */
  predicate Shown(page: int, current: int, total: int) {
    page == 1 || page == total || (current - 1 <= page && page <= current + 1)
  }

  /** A hidden page gets an ellipsis: two before the current page when that
      page is past 3, two after it when it is before `total - 2`. */
  predicate Elided(page: int, current: int, total: int) {
    (page == current - 2 && current > 3) || (page == current + 2 && current < total - 2)
  }

  /** What the map callback renders for one page. */
  function ItemAt(page: int, current: int, total: int): seq<PageItem> {
    if Shown(page, current, total) then [PageNumber(page)]
    else if Elided(page, current, total) then [PageEllipsis(page)]
    else []
  }

  /** The items rendered for the pages lo to hi - 1. */
  function ItemsFrom(lo: int, hi: int, current: int, total: int): seq<PageItem>
    decreases hi - lo
  {
    if lo >= hi then [] else ItemAt(lo, current, total) + ItemsFrom(lo + 1, hi, current, total)
  }

  /** The page buttons between Prev and Next. */
  function PageBar(current: int, total: nat): seq<PageItem> {
    ItemsFrom(1, total + 1, current, total)
  }

  /** The pagination bar, which is not rendered for a single page. */
  function Bar(current: int, total: nat): (r: Option<seq<PageItem>>)
    ensures r.Some? <==> total > 1
    ensures r.Some? ==> r.value == PageBar(current, total)
  {
    if total > 1 then Some(PageBar(current, total)) else None
  }

  lemma {:induction false} ItemsFromMembership(lo: int, hi: int, current: int, total: int, it: PageItem)
    ensures it in ItemsFrom(lo, hi, current, total) <==>
      lo <= it.page < hi && ItemAt(it.page, current, total) == [it]
    decreases hi - lo
  {
    if lo < hi {
      var head := ItemAt(lo, current, total);
      var rest := ItemsFrom(lo + 1, hi, current, total);
      ItemsFromMembership(lo + 1, hi, current, total, it);
      assert ItemsFrom(lo, hi, current, total) == head + rest;
      assert it in head <==> it.page == lo && head == [it];
    }
  }

  /** Which pages get a numbered button and which an ellipsis, for a current
      page within range: numbers for the shown pages, an ellipsis exactly for
      the two elided positions, and never both for one page. */
  lemma PageBarMembership(current: int, total: nat, p: int)
    requires 1 <= current <= total
    ensures PageNumber(p) in PageBar(current, total) <==> 1 <= p <= total && Shown(p, current, total)
    ensures PageEllipsis(p) in PageBar(current, total) <==> Elided(p, current, total)
    ensures !(PageNumber(p) in PageBar(current, total) && PageEllipsis(p) in PageBar(current, total))
  {
    ItemsFromMembership(1, total + 1, current, total, PageNumber(p));
    ItemsFromMembership(1, total + 1, current, total, PageEllipsis(p));
  }

  lemma {:induction false} ItemsFromSplit(lo: int, mid: int, hi: int, current: int, total: int)
    requires lo <= mid <= hi
    ensures ItemsFrom(lo, hi, current, total) == ItemsFrom(lo, mid, current, total) + ItemsFrom(mid, hi, current, total)
    decreases mid - lo
  {
    if lo < mid {
      ItemsFromSplit(lo + 1, mid, hi, current, total);
    }
  }

  lemma {:induction false} ItemsFromHidden(lo: int, hi: int, current: int, total: int)
    requires forall p :: lo <= p < hi ==> ItemAt(p, current, total) == []
    ensures ItemsFrom(lo, hi, current, total) == []
    decreases hi - lo
  {
    if lo < hi {
      ItemsFromHidden(lo + 1, hi, current, total);
    }
  }

  /** Numbered buttons for the pages lo to hi - 1. */
  function Numbers(lo: int, hi: int): (r: seq<PageItem>)
    ensures |r| == Max(0, hi - lo)
    ensures forall k :: 0 <= k < |r| ==> r[k] == PageNumber(lo + k)
    decreases hi - lo
  {
    if lo >= hi then [] else [PageNumber(lo)] + Numbers(lo + 1, hi)
  }

  lemma {:induction false} ItemsFromAllShown(lo: int, hi: int, current: int, total: int)
    requires forall p :: lo <= p < hi ==> Shown(p, current, total)
    ensures ItemsFrom(lo, hi, current, total) == Numbers(lo, hi)
    decreases hi - lo
  {
    if lo < hi {
      ItemsFromAllShown(lo + 1, hi, current, total);
    }
  }

  /** The bar in closed form: page 1, an ellipsis when the current page is
      past 3, the current page and its neighbours (without the first and the
      last page), an ellipsis when the current page is before `total - 2`,
      and the last page. */
  function WindowBar(current: int, total: nat): (r: seq<PageItem>)
    requires 1 <= current <= total
    ensures 1 <= |r| <= 7
    ensures r[0] == PageNumber(1) && r[|r| - 1] == PageNumber(total)
  {
    if total == 1 then [PageNumber(1)]
    else
      [PageNumber(1)]
      + (if current > 3 then [PageEllipsis(current - 2)] else [])
      + Numbers(Max(2, current - 1), Min(total - 1, current + 1) + 1)
      + (if current < total - 2 then [PageEllipsis(current + 2)] else [])
      + [PageNumber(total)]
  }

  lemma SingleItem(p: int, current: int, total: int)
    ensures ItemsFrom(p, p + 1, current, total) == ItemAt(p, current, total)
  {
    assert ItemsFrom(p + 1, p + 1, current, total) == [];
  }

  /** Between page 1 and the window: one ellipsis when the current page is
      past 3, nothing otherwise. */
  lemma LeftGap(c: int, t: int)
    requires 1 <= c <= t && t > 1
    ensures ItemsFrom(2, Max(2, c - 1), c, t) == (if c > 3 then [PageEllipsis(c - 2)] else [])
  {
    if c > 3 {
      ItemsFromSplit(2, c - 2, c - 1, c, t);
      ItemsFromHidden(2, c - 2, c, t);
      SingleItem(c - 2, c, t);
    }
  }

  /** Between the window and the last page: one ellipsis when the current
      page is before `total - 2`, nothing otherwise. */
  lemma RightGap(c: int, t: int)
    requires 1 <= c <= t && t > 1
    ensures ItemsFrom(Min(t - 1, c + 1) + 1, t, c, t) == (if c < t - 2 then [PageEllipsis(c + 2)] else [])
  {
    if c < t - 2 {
      ItemsFromSplit(c + 2, c + 3, t, c, t);
      ItemsFromHidden(c + 3, t, c, t);
      SingleItem(c + 2, c, t);
    }
  }

  /** The window itself: numbered buttons for the neighbours of the current
      page, without the first and the last page. */
  lemma Middle(c: int, t: int)
    requires 1 <= c <= t && t > 1
    ensures ItemsFrom(Max(2, c - 1), Min(t - 1, c + 1) + 1, c, t) == Numbers(Max(2, c - 1), Min(t - 1, c + 1) + 1)
  {
    ItemsFromAllShown(Max(2, c - 1), Min(t - 1, c + 1) + 1, c, t);
  }

  /** The page-by-page rendering and the closed form agree. */
  lemma PageBarIsWindow(current: int, total: nat)
    requires 1 <= current <= total
    ensures PageBar(current, total) == WindowBar(current, total)
  {
    var c, t := current, total;
    SingleItem(1, c, t);
    if t > 1 {
      var L := Max(2, c - 1);
      var R := Min(t - 1, c + 1) + 1;
      ItemsFromSplit(1, t, t + 1, c, t);
      ItemsFromSplit(1, R, t, c, t);
      ItemsFromSplit(1, L, R, c, t);
      ItemsFromSplit(1, 2, L, c, t);
      SingleItem(t, c, t);
      LeftGap(c, t);
      Middle(c, t);
      RightGap(c, t);
    }
  }
  /** However many pages there are, the bar shows at most seven items: the
      first page, two ellipses, the window of three and the last page. */
  lemma PageBarAtMostSeven(current: int, total: nat)
    requires 1 <= current <= total
    ensures 1 <= |PageBar(current, total)| <= 7
  {
    PageBarIsWindow(current, total);
  }


  /** Two neighbouring items of the bar: pages increase, two ellipses never
      meet, and two numbered buttons with no ellipsis between them are for
      consecutive pages. */
  predicate Linked(x: PageItem, y: PageItem) {
    && x.page < y.page
    && !(x.PageEllipsis? && y.PageEllipsis?)
    && (x.PageNumber? && y.PageNumber? ==> y.page == x.page + 1)
  }

  predicate Chained(s: seq<PageItem>) {
    forall i :: 0 <= i < |s| - 1 ==> Linked(s[i], s[i + 1])
  }

  lemma ChainedJoin(a: seq<PageItem>, b: seq<PageItem>)
    requires Chained(a) && Chained(b)
    requires |a| > 0 && |b| > 0 ==> Linked(a[|a| - 1], b[0])
    ensures Chained(a + b)
  {
    var s := a + b;
    forall i | 0 <= i < |s| - 1
      ensures Linked(s[i], s[i + 1])
    {
      if i + 1 < |a| {
        assert s[i] == a[i] && s[i + 1] == a[i + 1];
      } else if i + 1 == |a| {
        assert s[i] == a[|a| - 1] && s[i + 1] == b[0];
      } else {
        assert s[i] == b[i - |a|] && s[i + 1] == b[i - |a| + 1];
      }
    }
  }

  /** The shape of the bar: it starts with page 1 and ends with the last
      page, and every gap between numbered buttons is marked by exactly one
      ellipsis. */
  lemma PageBarShape(current: int, total: nat)
    requires 1 <= current <= total
    ensures var bar := PageBar(current, total);
      && |bar| > 0
      && bar[0] == PageNumber(1)
      && bar[|bar| - 1] == PageNumber(total)
      && Chained(bar)
  {
    PageBarIsWindow(current, total);
    var c, t := current, total;
    if t > 1 {
      var L := Max(2, c - 1);
      var R := Min(t - 1, c + 1) + 1;
      var A := [PageNumber(1)];
      var B := if c > 3 then [PageEllipsis(c - 2)] else [];
      var C := Numbers(L, R);
      var D := if c < t - 2 then [PageEllipsis(c + 2)] else [];
      var E := [PageNumber(t)];
      assert WindowBar(c, t) == A + (B + (C + (D + E)));
      ChainedJoin(D, E);
      var X3 := D + E;
      assert X3[0] == (if c < t - 2 then PageEllipsis(c + 2) else PageNumber(t));
      ChainedJoin(C, X3);
      var X2 := C + X3;
      assert |C| > 0 ==> X2[0] == PageNumber(L);
      assert |C| == 0 ==> X2 == X3;
      ChainedJoin(B, X2);
      var X1 := B + X2;
      assert c > 3 ==> X1[0] == PageEllipsis(c - 2);
      assert c <= 3 && |C| > 0 ==> X1[0] == PageNumber(2);
      assert c <= 3 && |C| == 0 ==> X1[0] == PageNumber(t) && t == 2;
      ChainedJoin(A, X1);
    }
  }

  // ---------------------------------------------------------------------------
  // The controls

  datatype PageControl = First | Prev | Next | Last | GoTo(page: int)

  /** A control can be pressed: the bar is rendered, the control is not
      disabled, and a page button is one the bar shows. */
  predicate Enabled(control: PageControl, current: int, total: nat) {
    && total > 1
    && match control
       case First => current != 1
       case Prev => current != 1
       case Next => current != total
       case Last => current != total
       case GoTo(p) => PageNumber(p) in PageBar(current, total)
  }

  /** A page button can be pressed exactly when the bar is shown and the page
      is the first, the last, or next to the current one. */
  lemma GoToEnabled(p: int, current: int, total: nat)
    requires 1 <= current <= total
    ensures Enabled(GoTo(p), current, total) <==>
      total > 1 && 1 <= p <= total && (p == 1 || p == total || current - 1 <= p <= current + 1)
  {
    PageBarMembership(current, total, p);
  }

  /** The current page after pressing a control; a control that cannot be
      pressed leaves it unchanged. */
  function Press(control: PageControl, current: int, total: nat): (r: int)
    ensures !Enabled(control, current, total) ==> r == current
    ensures Enabled(control, current, total) ==>
      && (control.First? ==> r == 1)
      && (control.Prev? ==> r == current - 1)
      && (control.Next? ==> r == current + 1)
      && (control.Last? ==> r == total)
      && (control.GoTo? ==> r == control.page)
  {
    if !Enabled(control, current, total) then current
    else
      match control
      case First => 1
      case Prev => current - 1
      case Next => current + 1
      case Last => total
      case GoTo(p) => p
  }

  /** Pressing any control keeps the current page a page that exists. */
  lemma PressStaysInRange(control: PageControl, current: int, total: nat)
    requires 1 <= current <= total
    ensures 1 <= Press(control, current, total) <= total
  {
    if control.GoTo? && Enabled(control, current, total) {
      PageBarMembership(current, total, control.page);
    }
  }

  /** On a bar that is shown, First and Last reach the two ends from every
      page, Prev and Next undo each other, and every numbered item leads to
      its page. */
  lemma PressNavigates(current: int, total: nat)
    requires 1 <= current <= total && total > 1
    ensures Press(First, current, total) == 1 && Press(Last, current, total) == total
    ensures current > 1 ==>
      Press(Prev, current, total) == current - 1 && Press(Next, Press(Prev, current, total), total) == current
    ensures current < total ==>
      Press(Next, current, total) == current + 1 && Press(Prev, Press(Next, current, total), total) == current
    ensures forall p :: PageNumber(p) in PageBar(current, total) ==> Press(GoTo(p), current, total) == p
  {
  }
}

=== FILE: record_sort.dfy ===
/** The sort step of the inspection list: JavaScript's `<` on strings, the
    comparator built from the sort configuration, an insertion sort with it
    (stable, like `Array.prototype.sort`), and `requestSort`. */
module RecordSort {
  import opened InspectionRecords

  /** JavaScript's `<` on two strings: lexicographic order of the characters,
      a proper prefix coming first. */
  predicate StrLess(a: string, b: string)
    decreases |a|
  {
    if |b| == 0 then false
    else if |a| == 0 then true
    else if a[0] != b[0] then a[0] < b[0]
    else StrLess(a[1..], b[1..])
  }

  /** `a` comes before `b` after a common prefix of length k: `a` ends there
      while `b` goes on, or `a`'s next character is the smaller. */
  predicate LexBeforeAt(a: string, b: string, k: int) {
    0 <= k <= |a| && k < |b| && a[..k] == b[..k] && (k == |a| || a[k] < b[k])
  }

  lemma {:induction false} StrLessHasWitness(a: string, b: string)
    requires StrLess(a, b)
    ensures exists k :: LexBeforeAt(a, b, k)
    decreases |a|
  {
    if |a| == 0 || a[0] != b[0] {
      assert LexBeforeAt(a, b, 0);
    } else {
      StrLessHasWitness(a[1..], b[1..]);
      var k :| LexBeforeAt(a[1..], b[1..], k);
      assert a[..k + 1] == [a[0]] + a[1..][..k];
      assert b[..k + 1] == [b[0]] + b[1..][..k];
      assert LexBeforeAt(a, b, k + 1);
    }
  }

  lemma {:induction false} WitnessGivesStrLess(a: string, b: string, k: int)
    requires LexBeforeAt(a, b, k)
    ensures StrLess(a, b)
    decreases k
  {
    if k > 0 {
      assert a[0] == a[..k][0] == b[..k][0] == b[0];
      assert a[1..][..k - 1] == a[..k][1..];
      assert b[1..][..k - 1] == b[..k][1..];
      WitnessGivesStrLess(a[1..], b[1..], k - 1);
    }
  }

  /** The order is the lexicographic one: `a < b` exactly when there is a
      common prefix after which `a` ends or has the smaller character. */
  lemma StrLessLexicographic(a: string, b: string)
    ensures StrLess(a, b) <==> exists k :: LexBeforeAt(a, b, k)
  {
    if StrLess(a, b) {
      StrLessHasWitness(a, b);
    }
    forall k | LexBeforeAt(a, b, k)
      ensures StrLess(a, b)
    {
      WitnessGivesStrLess(a, b, k);
    }
  }

  lemma {:induction false} StrLessIrreflexive(a: string)
    ensures !StrLess(a, a)
    decreases |a|
  {
    if |a| > 0 {
      StrLessIrreflexive(a[1..]);
    }
  }

  lemma {:induction false} StrLessTransitive(a: string, b: string, c: string)
    requires StrLess(a, b) && StrLess(b, c)
    ensures StrLess(a, c)
    decreases |a|
  {
    if |a| > 0 && a[0] == b[0] && b[0] == c[0] {
      StrLessTransitive(a[1..], b[1..], c[1..]);
    }
  }

  /** Two different strings are always ordered one way or the other. */
  lemma {:induction false} StrLessTotal(a: string, b: string)
    requires a != b
    ensures StrLess(a, b) || StrLess(b, a)
    decreases |a|
  {
    if |a| > 0 && |b| > 0 && a[0] == b[0] {
      assert a == [a[0]] + a[1..] && b == [b[0]] + b[1..];
      StrLessTotal(a[1..], b[1..]);
    }
  }

  // ---------------------------------------------------------------------------
  // Sort configuration

  /** The sort keys offered by the sort dropdown. */
  datatype SortKey = ByName | ByUpdatedAt

  datatype Direction = Asc | Desc

  datatype SortConfig = SortConfig(key: SortKey, direction: Direction)

  /** The initial configuration: most recently updated first. */
  const InitialSort: SortConfig := SortConfig(ByUpdatedAt, Desc)

  /** `requestSort(key)`: descending only when the key is already the current
      one and the current direction is ascending; ascending otherwise. */
  function RequestSort(current: SortConfig, key: SortKey): (r: SortConfig)
    ensures r.key == key
    ensures r.direction == Desc <==> current.key == key && current.direction == Asc
  {
    if current.key == key && current.direction == Asc then SortConfig(key, Desc) else SortConfig(key, Asc)
  }

  /** Choosing the same key twice from an ascending order returns to it, and
      a new key always starts ascending. */
  lemma RequestSortToggles(current: SortConfig, key: SortKey)
    ensures current.key == key && current.direction == Asc ==>
      RequestSort(RequestSort(current, key), key) == current
    ensures current.key != key ==> RequestSort(current, key) == SortConfig(key, Asc)
    ensures RequestSort(RequestSort(RequestSort(current, key), key), key) == RequestSort(current, key)
  {
  }

  /** `aValue < bValue` for the configured key: names compare as strings,
      update times as timestamps. */
  predicate KeyLess(key: SortKey, a: ListRecord, b: ListRecord) {
    match key
    case ByName => StrLess(a.name, b.name)
    case ByUpdatedAt => MostRecentUpdate(a) < MostRecentUpdate(b)
  }

  /** The comparator returns a negative number: `a` goes before `b`. */
  predicate Before(cfg: SortConfig, a: ListRecord, b: ListRecord) {
    match cfg.direction
    case Asc => KeyLess(cfg.key, a, b)
    case Desc => KeyLess(cfg.key, b, a)
  }

  lemma KeyLessAsymmetric(key: SortKey, a: ListRecord, b: ListRecord)
    ensures KeyLess(key, a, b) ==> !KeyLess(key, b, a)
  {
    if key == ByName && StrLess(a.name, b.name) && StrLess(b.name, a.name) {
      StrLessTransitive(a.name, b.name, a.name);
      StrLessIrreflexive(a.name);
    }
  }

  /** Equivalence under the comparator is transitive, which is what makes the
      comparator consistent and the sorted order well defined. */
  lemma NotKeyLessTransitive(key: SortKey, a: ListRecord, b: ListRecord, c: ListRecord)
    requires !KeyLess(key, a, b) && !KeyLess(key, b, c)
    ensures !KeyLess(key, a, c)
  {
    if key == ByName && StrLess(a.name, c.name) {
      if a.name == b.name || b.name == c.name {
      } else {
        StrLessTotal(a.name, b.name);
        StrLessTotal(b.name, c.name);
        StrLessTransitive(c.name, b.name, a.name);
        KeyLessAsymmetric(key, a, c);
      }
    }
  }

  lemma BeforeAsymmetric(cfg: SortConfig, a: ListRecord, b: ListRecord)
    ensures Before(cfg, a, b) ==> !Before(cfg, b, a)
  {
    KeyLessAsymmetric(cfg.key, a, b);
    KeyLessAsymmetric(cfg.key, b, a);
  }

  lemma NotBeforeTransitive(cfg: SortConfig, a: ListRecord, b: ListRecord, c: ListRecord)
    requires !Before(cfg, a, b) && !Before(cfg, b, c)
    ensures !Before(cfg, a, c)
  {
    match cfg.direction
    case Asc => NotKeyLessTransitive(cfg.key, a, b, c);
    case Desc => NotKeyLessTransitive(cfg.key, c, b, a);
  }

  /** No later record goes strictly before an earlier one. */
  predicate SortedBy(cfg: SortConfig, s: seq<ListRecord>) {
    forall i, j :: 0 <= i < j < |s| ==> !Before(cfg, s[j], s[i])
  }

  /** Inserts `x` in front of the first record it does not come after, so that
      it stays ahead of records it ties with. */
  function Insert(cfg: SortConfig, x: ListRecord, s: seq<ListRecord>): (r: seq<ListRecord>)
    ensures multiset(r) == multiset(s) + multiset{x}
    ensures |r| == |s| + 1
  {
    if |s| == 0 then [x]
    else if Before(cfg, s[0], x) then
      assert s == [s[0]] + s[1..];
      [s[0]] + Insert(cfg, x, s[1..])
    else [x] + s
  }

  /** A head that no later record precedes keeps a sorted list sorted. */
  lemma ConsSorted(cfg: SortConfig, h: ListRecord, s: seq<ListRecord>)
    requires SortedBy(cfg, s)
    requires forall j :: 0 <= j < |s| ==> !Before(cfg, s[j], h)
    ensures SortedBy(cfg, [h] + s)
  {
    var r := [h] + s;
    forall i, j | 0 <= i < j < |r|
      ensures !Before(cfg, r[j], r[i])
    {
      assert r[j] == s[j - 1];
      if i > 0 {
        assert r[i] == s[i - 1];
      }
    }
  }

  lemma {:induction false} InsertKeepsSorted(cfg: SortConfig, x: ListRecord, s: seq<ListRecord>)
    requires SortedBy(cfg, s)
    ensures SortedBy(cfg, Insert(cfg, x, s))
  {
    if |s| == 0 {
    } else if Before(cfg, s[0], x) {
      var tail := s[1..];
      var rest := Insert(cfg, x, tail);
      SortedTail(cfg, s);
      InsertKeepsSorted(cfg, x, tail);
      forall j | 0 <= j < |rest|
        ensures !Before(cfg, rest[j], s[0])
      {
        var y := rest[j];
        assert y in multiset(rest);
        if y == x {
          BeforeAsymmetric(cfg, s[0], x);
        } else {
          assert y in multiset(tail);
          var m :| 0 <= m < |tail| && tail[m] == y;
          assert s[m + 1] == y;
        }
      }
      ConsSorted(cfg, s[0], rest);
    } else {
      forall j | 0 <= j < |s|
        ensures !Before(cfg, s[j], x)
      {
        if j > 0 {
          NotBeforeTransitive(cfg, s[j], s[0], x);
        }
      }
      ConsSorted(cfg, x, s);
    }
  }

  /** The sort step: a permutation of its input, ordered by the comparator. */
  function SortRecords(cfg: SortConfig, s: seq<ListRecord>): (r: seq<ListRecord>)
    ensures multiset(r) == multiset(s)
    ensures SortedBy(cfg, r)
  {
    if |s| == 0 then []
    else
      assert s == [s[0]] + s[1..];
      var rest := SortRecords(cfg, s[1..]);
      InsertKeepsSorted(cfg, s[0], rest);
      Insert(cfg, s[0], rest)
  }

  /** What the order means for each configuration: update times are
      non-decreasing ascending and non-increasing descending; names likewise
      under the string order. */
  lemma SortedMeaning(cfg: SortConfig, s: seq<ListRecord>)
    ensures var r := SortRecords(cfg, s);
      && (cfg == SortConfig(ByUpdatedAt, Asc) ==>
            forall i, j :: 0 <= i < j < |r| ==> MostRecentUpdate(r[i]) <= MostRecentUpdate(r[j]))
      && (cfg == SortConfig(ByUpdatedAt, Desc) ==>
            forall i, j :: 0 <= i < j < |r| ==> MostRecentUpdate(r[i]) >= MostRecentUpdate(r[j]))
      && (cfg == SortConfig(ByName, Asc) ==>
            forall i, j :: 0 <= i < j < |r| ==> !StrLess(r[j].name, r[i].name))
      && (cfg == SortConfig(ByName, Desc) ==>
            forall i, j :: 0 <= i < j < |r| ==> !StrLess(r[i].name, r[j].name))
  {
  }

  /** The tail of a sorted list is sorted. */
  lemma SortedTail(cfg: SortConfig, s: seq<ListRecord>)
    requires SortedBy(cfg, s) && |s| > 0
    ensures SortedBy(cfg, s[1..])
  {
    forall i, j | 0 <= i < j < |s[1..]|
      ensures !Before(cfg, s[1..][j], s[1..][i])
    {
      assert s[1..][j] == s[j + 1] && s[1..][i] == s[i + 1];
    }
  }

  /** A record that nothing in front of it precedes is inserted at the head. */
  lemma InsertAtHead(cfg: SortConfig, x: ListRecord, s: seq<ListRecord>)
    requires |s| == 0 || !Before(cfg, s[0], x)
    ensures Insert(cfg, x, s) == [x] + s
  {
  }

  /** Sorting an already sorted list changes nothing. */
  lemma {:induction false} SortSortedIsIdentity(cfg: SortConfig, s: seq<ListRecord>)
    requires SortedBy(cfg, s)
    ensures SortRecords(cfg, s) == s
  {
    if |s| > 0 {
      var rest := s[1..];
      SortedTail(cfg, s);
      SortSortedIsIdentity(cfg, rest);
      assert SortRecords(cfg, s) == Insert(cfg, s[0], rest);
      assert |rest| > 0 ==> rest[0] == s[1] && !Before(cfg, s[1], s[0]);
      InsertAtHead(cfg, s[0], rest);
      assert s == [s[0]] + rest;
    }
  }
}

=== FILE: transformer_record_detail.dfy ===
/** The transformer-record detail page of the transformer-manager front end:
    the record's images split into Baseline and Maintenance, the inspection
    list with its add form, and the image deletion behind a confirmation
    dialog. */
module TransformerRecordDetail {
  import opened Common
  import opened Entities

  const FetchFailed: string := "Failed to fetch transformer record details"
  const DeleteFailed: string := "Failed to delete image"
  const DescriptionRequired: string := "Please enter an inspection description"

  datatype DetailImage = DetailImage(id: int, imageType: string, filePath: string)

  /** A record as fetched; its image list may be missing. */
  datatype RecordView = RecordView(id: int, name: string, images: Option<seq<DetailImage>>)

  datatype InspectionView = InspectionView(id: int, description: string)

  datatype DetailState = DetailState(
    record: Option<RecordView>,
    error: string,
    showDelete: bool,
    inspections: seq<InspectionView>,
    showAdd: bool,
    description: string)

  // ---------------------------------------------------------------------------
  // The image partition

  /** `record?.images?.filter(image => image.type === t) || []`. */
  function ImagesOfType(record: Option<RecordView>, t: string): (r: seq<DetailImage>)
    ensures forall i :: 0 <= i < |r| ==> r[i].imageType == t
  {
    if record.Some? && record.value.images.Some? then
      Filter(record.value.images.value, (x: DetailImage) => x.imageType == t)
    else []
  }

  function BaselineImages(record: Option<RecordView>): seq<DetailImage> {
    ImagesOfType(record, Baseline)
  }

  function MaintenanceImages(record: Option<RecordView>): seq<DetailImage> {
    ImagesOfType(record, Maintenance)
  }

  /** An image is shown under Baseline exactly when the record has it with
      type Baseline, likewise for Maintenance; so no image is in both, and an
      image of any other type is in neither. */
  lemma PartitionMembership(record: Option<RecordView>, x: DetailImage)
    ensures x in BaselineImages(record) <==>
      record.Some? && record.value.images.Some? && x in record.value.images.value && x.imageType == Baseline
    ensures x in MaintenanceImages(record) <==>
      record.Some? && record.value.images.Some? && x in record.value.images.value && x.imageType == Maintenance
    ensures !(x in BaselineImages(record) && x in MaintenanceImages(record))
    ensures x.imageType != Baseline && x.imageType != Maintenance ==>
      x !in BaselineImages(record) && x !in MaintenanceImages(record)
  {
    if record.Some? && record.value.images.Some? {
      FilterMembership(record.value.images.value, (y: DetailImage) => y.imageType == Baseline, x);
      FilterMembership(record.value.images.value, (y: DetailImage) => y.imageType == Maintenance, x);
    }
  }

  /** Both lists are empty while no record is loaded or it has no image list. */
  lemma PartitionEmptyWithoutImages(record: Option<RecordView>)
    requires record.None? || record.value.images.None?
    ensures BaselineImages(record) == [] && MaintenanceImages(record) == []
  {
  }

  /** When every image is one of the two types, the two lists together hold
      each image as often as the record does. */
  lemma PartitionCoversTypedImages(record: RecordView)
    requires record.images.Some?
    requires forall i :: 0 <= i < |record.images.value| ==>
      record.images.value[i].imageType == Baseline || record.images.value[i].imageType == Maintenance
    ensures multiset(BaselineImages(Some(record))) + multiset(MaintenanceImages(Some(record)))
            == multiset(record.images.value)
    ensures |BaselineImages(Some(record))| + |MaintenanceImages(Some(record))| == |record.images.value|
  {
    var all := record.images.value;
    var b := BaselineImages(Some(record));
    var m := MaintenanceImages(Some(record));
    forall x: DetailImage
      ensures (multiset(b) + multiset(m))[x] == multiset(all)[x]
    {
      if x.imageType != Baseline && x.imageType != Maintenance {
        assert forall i :: 0 <= i < |all| ==> all[i] != x;
      }
    }
    assert multiset(b) + multiset(m) == multiset(all);
    assert |multiset(b) + multiset(m)| == |multiset(all)|;
  }

  /** Each list keeps the record's order: it splits over any cut of the
      image list. */
  lemma PartitionKeepsOrder(id: int, name: string, front: seq<DetailImage>, back: seq<DetailImage>, t: string)
    ensures ImagesOfType(Some(RecordView(id, name, Some(front + back))), t)
            == ImagesOfType(Some(RecordView(id, name, Some(front))), t)
               + ImagesOfType(Some(RecordView(id, name, Some(back))), t)
  {
    FilterAppend(front, back, (x: DetailImage) => x.imageType == t);
  }

  // ---------------------------------------------------------------------------
  // Fetches

  /** The record fetch: the record on success, a message on failure. */
  function AfterRecordFetch(st: DetailState, outcome: Http<RecordView>): (r: DetailState)
    ensures outcome.Success? ==> r == st.(record := Some(outcome.data), error := "")
    ensures outcome.Failure? ==> r == st.(error := FetchFailed)
  {
    match outcome
    case Success(data) => st.(record := Some(data), error := "")
    case Failure(_) => st.(error := FetchFailed)
  }

  /** The inspections fetch: the list on success; a failure is only logged. */
  function AfterInspectionsFetch(st: DetailState, outcome: Http<seq<InspectionView>>): (r: DetailState)
    ensures outcome.Success? ==> r == st.(inspections := outcome.data)
    ensures outcome.Failure? ==> r == st
  {
    match outcome
    case Success(data) => st.(inspections := data)
    case Failure(_) => st
  }

  // ---------------------------------------------------------------------------
  // Adding an inspection

  /** The result of a handler: the next state, whether a request was sent,
      and the browser alert shown, if any. */
  datatype Outcome = Outcome(state: DetailState, requested: bool, alert: Option<string>)

  /** `handleAddInspection`: a blank description raises an alert and sends
      nothing; a created inspection is appended, the description cleared and
      the form closed; a failed request is only logged. */
  function AddInspection(st: DetailState, outcome: Http<InspectionView>): (r: Outcome)
    ensures IsBlank(st.description) ==> r == Outcome(st, false, Some(DescriptionRequired))
    ensures !IsBlank(st.description) ==> r.requested && r.alert.None?
    ensures !IsBlank(st.description) && outcome.Success? ==>
      && r.state.inspections == st.inspections + [outcome.data]
      && r.state.description == "" && !r.state.showAdd
      && r.state.record == st.record && r.state.error == st.error
    ensures !IsBlank(st.description) && outcome.Failure? ==> r.state == st
  {
    if IsBlank(st.description) then Outcome(st, false, Some(DescriptionRequired))
    else match outcome
      case Success(created) =>
        Outcome(st.(inspections := st.inspections + [created], description := "", showAdd := false), true, None)
      case Failure(_) => Outcome(st, true, None)
  }

  /** A successful add keeps every existing inspection in place and puts the
      new one last. */
  lemma AddAppendsLast(st: DetailState, created: InspectionView)
    requires !IsBlank(st.description)
    ensures var r := AddInspection(st, Success(created)).state;
      && |r.inspections| == |st.inspections| + 1
      && r.inspections[..|st.inspections|] == st.inspections
      && r.inspections[|st.inspections|] == created
  {
    var r := AddInspection(st, Success(created)).state;
    assert r.inspections[..|st.inspections|] == st.inspections;
  }

  // ---------------------------------------------------------------------------
  // Deleting an image

  /** `handleDeleteImage`: the deletion, then a refetch of the record; when
      both succeed the record is replaced, when either fails the error is set
      and the record kept. The confirmation dialog closes in every case. */
  function DeleteImage(st: DetailState, deletion: Http<()>, refetch: Http<RecordView>): (r: DetailState)
    ensures !r.showDelete
    ensures deletion.Success? && refetch.Success? ==>
      r == st.(record := Some(refetch.data), showDelete := false)
    ensures deletion.Failure? || refetch.Failure? ==>
      r == st.(error := DeleteFailed, showDelete := false)
  {
    if deletion.Success? && refetch.Success? then st.(record := Some(refetch.data), showDelete := false)
    else st.(error := DeleteFailed, showDelete := false)
  }

  /** The inspections and the add form are never touched by an image
      deletion. */
  lemma DeleteImageKeepsInspections(st: DetailState, deletion: Http<()>, refetch: Http<RecordView>)
    ensures var r := DeleteImage(st, deletion, refetch);
      r.inspections == st.inspections && r.description == st.description && r.showAdd == st.showAdd
  {
  }
}

=== FILE: transformer_record_service.dfy ===
/** `TransformerRecordService` of the transformer-manager back end. It builds
    records exactly as the image-set service builds sets, except that an update
    appends new images to the existing ones and never changes the owner. */
module TransformerRecordService {
  import opened Common
  import opened UploadPaths
  import opened Entities
  import ImageSetService

  const RecordNotFound: string := "Transformer record not found"
  const ImageNotFound: string := "Image not found"

  /** `saveTransformerRecord`: the same construction as `saveImageSet`. */
  function SaveTransformerRecord(
    name: string, locationName: string, locationLat: real, locationLng: real,
    capacity: string, dtos: seq<ImageDto>, uploadedBy: string, stamps: seq<nat>): (r: AssetRecord)
    requires |stamps| == |dtos|
    ensures r.name == name && r.locationName == locationName && r.capacity == capacity
    ensures r.locationLat == locationLat && r.locationLng == locationLng
    ensures r.uploadedBy == uploadedBy
    ensures |r.images| == |dtos|
    ensures forall i :: 0 <= i < |dtos| ==>
      && r.images[i].filePath == "/uploads/" + StoredFileName(stamps[i], dtos[i].file.name)
      && r.images[i].imageType == dtos[i].imageType
      && r.images[i].weather == (if dtos[i].imageType == Baseline then dtos[i].weather else None)
  {
    ImageSetService.SaveImageSet(name, locationName, locationLat, locationLng, capacity, dtos, uploadedBy, stamps)
  }

  /** `getTransformerRecordById`. */
  function GetTransformerRecordById(store: map<int, AssetRecord>, id: int): (r: Result<AssetRecord>)
    ensures id in store <==> r.Ok?
    ensures r.Ok? ==> r.value == store[id]
    ensures r.Err? ==> r.message == RecordNotFound
  {
    if id in store then Ok(store[id]) else Err(RecordNotFound)
  }

  /** `deleteTransformerRecord`: removes the row and the files of its images. */
  function DeleteTransformerRecord(store: map<int, AssetRecord>, id: int): (r: Result<Removal<AssetRecord>>)
    ensures id in store <==> r.Ok?
    ensures r.Err? ==> r.message == RecordNotFound
    ensures r.Ok? ==> r.value.remaining.Keys == store.Keys - {id}
    ensures r.Ok? ==> forall k :: k in r.value.remaining ==> r.value.remaining[k] == store[k]
    ensures r.Ok? ==> |r.value.deletedFiles| == |store[id].images|
    ensures r.Ok? ==> forall i :: 0 <= i < |store[id].images| ==>
      r.value.deletedFiles[i] == StripUploads(store[id].images[i].filePath)
  {
    if id !in store then Err(RecordNotFound)
    else Ok(Removal(store - {id}, DeletedFiles(store[id].images)))
  }

  /** `deleteImage`: the same removal as in the image-set service. */
  function DeleteImage(images: map<int, StoredImage>, imageId: int): (r: Result<Removal<StoredImage>>)
    ensures imageId in images <==> r.Ok?
    ensures r.Err? ==> r.message == ImageNotFound
    ensures r.Ok? ==> r.value.remaining.Keys == images.Keys - {imageId}
    ensures r.Ok? ==> forall k :: k in r.value.remaining ==> r.value.remaining[k] == images[k]
    ensures r.Ok? ==> r.value.deletedFiles == [StripUploads(images[imageId].filePath)]
  {
    ImageSetService.DeleteImage(images, imageId)
  }

  /** `updateTransformerRecord`: scalars are overwritten only by non-null
      arguments; new images are appended after the existing ones; the owner is
      kept (the `updatedBy` argument is not used, so it is not a parameter). */
  function UpdateTransformerRecord(
    store: map<int, AssetRecord>, id: int,
    name: Option<string>, locationName: Option<string>,
    locationLat: Option<real>, locationLng: Option<real>, capacity: Option<string>,
    newImages: Option<seq<ImageDto>>, stamps: seq<nat>): (r: Result<AssetRecord>)
    requires newImages.Some? ==> |stamps| == |newImages.value|
    ensures id in store <==> r.Ok?
    ensures r.Err? ==> r.message == RecordNotFound
    ensures r.Ok? ==>
      && r.value.name == name.GetOr(store[id].name)
      && r.value.locationName == locationName.GetOr(store[id].locationName)
      && r.value.locationLat == locationLat.GetOr(store[id].locationLat)
      && r.value.locationLng == locationLng.GetOr(store[id].locationLng)
      && r.value.capacity == capacity.GetOr(store[id].capacity)
      && r.value.uploadedBy == store[id].uploadedBy
    ensures r.Ok? ==> |r.value.images| == |store[id].images| + |newImages.GetOr([])|
    ensures r.Ok? ==> r.value.images[..|store[id].images|] == store[id].images
    ensures r.Ok? && newImages.Some? ==> forall i :: 0 <= i < |newImages.value| ==>
      && r.value.images[|store[id].images| + i].filePath
           == "/uploads/" + StoredFileName(stamps[i], newImages.value[i].file.name)
      && r.value.images[|store[id].images| + i].imageType == newImages.value[i].imageType
      && (r.value.images[|store[id].images| + i].weather.Some? ==> newImages.value[i].imageType == Baseline)
      && (newImages.value[i].imageType == Baseline ==>
            r.value.images[|store[id].images| + i].weather == newImages.value[i].weather)
  {
    if id !in store then Err(RecordNotFound)
    else
      var prev := store[id];
      var added := if newImages.Some? && |newImages.value| > 0 then ImagesFromDtos(newImages.value, stamps) else [];
      Ok(AssetRecord(
        name.GetOr(prev.name),
        locationName.GetOr(prev.locationName),
        locationLat.GetOr(prev.locationLat),
        locationLng.GetOr(prev.locationLng),
        capacity.GetOr(prev.capacity),
        prev.uploadedBy,
        prev.images + added))
  }

  /** Two updates in a row append both batches, in call order: no image the
      record ever had is lost by an update. */
  lemma {:induction false} UpdatesAccumulateImages(
    store: map<int, AssetRecord>, id: int,
    first: seq<ImageDto>, firstStamps: seq<nat>, second: seq<ImageDto>, secondStamps: seq<nat>)
    requires id in store
    requires |firstStamps| == |first| && |secondStamps| == |second|
    ensures var r1 := UpdateTransformerRecord(store, id, None, None, None, None, None, Some(first), firstStamps);
            r1.Ok? &&
            var r2 := UpdateTransformerRecord(store[id := r1.value], id, None, None, None, None, None, Some(second), secondStamps);
            && r2.Ok?
            && r2.value.images == store[id].images + ImagesFromDtos(first, firstStamps) + ImagesFromDtos(second, secondStamps)
  {
    var r1 := UpdateTransformerRecord(store, id, None, None, None, None, None, Some(first), firstStamps);
    assert r1.value.images == store[id].images + ImagesFromDtos(first, firstStamps) by {
      if |first| == 0 {
        assert ImagesFromDtos(first, firstStamps) == [];
      }
    }
    var r2 := UpdateTransformerRecord(store[id := r1.value], id, None, None, None, None, None, Some(second), secondStamps);
    assert r2.value.images == r1.value.images + ImagesFromDtos(second, secondStamps) by {
      if |second| == 0 {
        assert ImagesFromDtos(second, secondStamps) == [];
      }
    }
  }

  /** Deleting a freshly saved record removes exactly the files its save
      wrote, in order. */
  lemma DeleteAfterSaveRemovesWrittenFiles(
    store: map<int, AssetRecord>, id: int,
    name: string, locationName: string, locationLat: real, locationLng: real,
    capacity: string, dtos: seq<ImageDto>, uploadedBy: string, stamps: seq<nat>)
    requires |stamps| == |dtos|
    requires NoEmbeddedPrefix(dtos)
    ensures var saved := SaveTransformerRecord(name, locationName, locationLat, locationLng, capacity, dtos, uploadedBy, stamps);
            var r := DeleteTransformerRecord(store[id := saved], id);
            && r.Ok?
            && |r.value.deletedFiles| == |dtos|
            && forall i :: 0 <= i < |dtos| ==> r.value.deletedFiles[i] == StoredFileName(stamps[i], dtos[i].file.name)
  {
    DeletedFilesOfBuilt(dtos, stamps);
  }

  /** Since an update appends, deleting an updated record removes the files of
      the images it had before, then the files the update wrote. */
  lemma DeleteAfterUpdateRemovesAllFiles(
    store: map<int, AssetRecord>, id: int, dtos: seq<ImageDto>, stamps: seq<nat>)
    requires id in store
    requires |stamps| == |dtos|
    requires NoEmbeddedPrefix(dtos)
    ensures var u := UpdateTransformerRecord(store, id, None, None, None, None, None, Some(dtos), stamps);
            u.Ok? &&
            var r := DeleteTransformerRecord(store[id := u.value], id);
            && r.Ok?
            && |r.value.deletedFiles| == |store[id].images| + |dtos|
            && r.value.deletedFiles[..|store[id].images|] == DeletedFiles(store[id].images)
            && forall i :: 0 <= i < |dtos| ==>
                 r.value.deletedFiles[|store[id].images| + i] == StoredFileName(stamps[i], dtos[i].file.name)
  {
    var u := UpdateTransformerRecord(store, id, None, None, None, None, None, Some(dtos), stamps);
    var before := store[id].images;
    assert u.value.images == before + ImagesFromDtos(dtos, stamps) by {
      if |dtos| == 0 {
        assert ImagesFromDtos(dtos, stamps) == [];
      }
    }
    DeletedFilesOfBuilt(dtos, stamps);
    var r := DeleteTransformerRecord(store[id := u.value], id);
    assert r.value.deletedFiles[..|before|] == DeletedFiles(before);
  }
}

=== FILE: upload_paths.dfy ===
/** How the back ends name an uploaded file. The stored file name is the
    current time in milliseconds, an underscore and the client's original file
    name; the image row records it behind the public prefix "/uploads/", and
    deletion recovers the file name by removing that prefix with Java's
    `String.replace`, which removes every occurrence. */
module UploadPaths {
  import opened Common

  const UploadsPrefix: string := "/uploads/"

  /** `System.currentTimeMillis() + "_" + file.getOriginalFilename()`. */
  function StoredFileName(stamp: nat, originalName: string): (r: string)
    ensures |r| > |originalName|
    ensures r[|r| - |originalName|..] == originalName
    ensures r[|r| - |originalName| - 1] == '_'
    ensures IsDigits(r[..|r| - |originalName| - 1])
    ensures ParseDigits(r[..|r| - |originalName| - 1]) == stamp
  {
    var digits := NatToString(stamp);
    var r := digits + "_" + originalName;
    assert r[..|r| - |originalName| - 1] == digits;
    r
  }

  /** `"/uploads/" + fileName`: the value stored in `Image.filePath`. */
  function PublicPath(stamp: nat, originalName: string): (r: string)
    ensures StartsWith(r, UploadsPrefix)
    ensures r[|UploadsPrefix|..] == StoredFileName(stamp, originalName)
  {
    var r := UploadsPrefix + StoredFileName(stamp, originalName);
    assert r[..|UploadsPrefix|] == UploadsPrefix;
    r
  }

  /** `filePath.replace("/uploads/", "")`: the name of the file to delete. */
  function StripUploads(filePath: string): (r: string)
    ensures !Contains(filePath, UploadsPrefix) <==> r == filePath
    ensures |r| <= |filePath|
  {
    if !Contains(filePath, UploadsPrefix) then ReplaceAllAbsent(filePath, UploadsPrefix, ""); filePath
    else ReplaceAll(filePath, UploadsPrefix, "")
  }

  /** Removing the prefix from a public path leaves the time stamp and the
      underscore, followed by the client's file name with every "/uploads/"
      in it removed as well. */
  lemma StripPublicPathParts(stamp: nat, originalName: string)
    ensures StripUploads(PublicPath(stamp, originalName))
            == NatToString(stamp) + "_" + ReplaceAll(originalName, UploadsPrefix, "")
  {
    var pre := NatToString(stamp) + "_";
    var t := PublicPath(stamp, originalName);
    assert t[|UploadsPrefix|..] == pre + originalName;
    assert ReplaceAll(t, UploadsPrefix, "") == ReplaceAll(pre + originalName, UploadsPrefix, "");
    assert forall i :: 0 <= i < |pre| ==> pre[i] != UploadsPrefix[0];
    ReplaceAllSkipsPrefix(pre, originalName, UploadsPrefix, "");
  }

  /** Deleting an image finds the very file that saving it wrote, provided the
      client's file name does not itself contain "/uploads/". */
  lemma StripPublicPath(stamp: nat, originalName: string)
    requires !Contains(originalName, UploadsPrefix)
    ensures StripUploads(PublicPath(stamp, originalName)) == StoredFileName(stamp, originalName)
  {
    StripPublicPathParts(stamp, originalName);
    ReplaceAllAbsent(originalName, UploadsPrefix, "");
  }

  /** The proviso above is needed: a client file name containing "/uploads/"
      loses that part too, so the file deleted is not the file written. */
  lemma StripLosesEmbeddedPrefix()
    ensures StripUploads(PublicPath(7, "/uploads/a")) != StoredFileName(7, "/uploads/a")
  {
    var name := "/uploads/a";
    StripPublicPathParts(7, name);
    assert StartsWith(name, UploadsPrefix);
    assert name[|UploadsPrefix|..] == "a";
    ReplaceAllAbsent("a", UploadsPrefix, "");
    assert |ReplaceAll(name, UploadsPrefix, "")| == 1;
  }
}
